=== FILE: README.md ===
# Cellular automaton kernel: a Dafny model

The repository (`cellular_automata_rust`) runs a cellular-automaton model.
It has cells with an id, a position and a population, and *processes*: functions that look at one
cell, its neighbours and the global state, and emit *updates*. An
iteration builds the neighbour network, runs every process on every cell,
queues the updates and then applies them in order, so that every process
of an iteration sees the cell states of the start of that iteration.

The kernel exists in several generations. Each is modelled against its own
types:

- **Closure generation** (`src/process_runner/cells/`, `global/`,
  `examples/`). Modules `CellIndexState`, `CellsRun`, `GlobalRun`,
  `ExampleState`, `ExampleProcesses` and `RunnerExamples`. Updates carry a
  closure `C -> C` (cell updates) or `G -> G` (global updates). Cells are
  generic. Applying the queue folds the closures over the cell vector.
- **Tagged generation** (`src/process_runner/process.rs`,
  `example_state.rs`, `run.rs`, `example_processes.rs`, `network.rs`).
  Modules `TaggedProcess`, `TaggedState`, `TaggedRun`, `TaggedExamples`,
  `Network` and `MachineInts`. An update names an action (ADD, SUB, SET),
  a target cell, a field name and a tagged value. A cell is a class whose
  `apply` changes one field in place. Conversion failures, constant fields
  and overflows panic.
- **Integer-only generation** (`src/process_runner/mod.rs`) and the
  **earliest runner** (`src/run_model.rs`). Modules `IntegerRunner` and
  `FirstRunner`. Every update adds a `u32` value to a cell's population.
- **Python prototype** (`run_model.py`). Modules `Prototype` and
  `PrototypeStaleMap`. Cells are dataclasses and a change is a dictionary
  from field name to `(action, value)`. The prototype cycles iterations and
  logs every state.

In the model:

- A panic in the runners' own code becomes an `Err`/`None` result, except where "## Left out" says otherwise.
- An exception raised by the prototype's own code becomes a `PyError`. Processes cannot raise (see "## Left out").
- Machine integers are explicit subset types. The casts `as i32`/`as u32`
  wrap (`MachineInts`).
- Loops that the source writes as loops are methods with loop invariants.
  Each is proved equal to a specification function, and the properties are
  proved about that function.

## Model

| member | source | states |
|---|---|---|
| CellIndexState.IntoUsize | src/process_runner/cells/state.rs:19-24 | the index as `usize` fits in 32 bits and wraps back to the same index |
| CellIndexState.IntoU32 | src/process_runner/cells/state.rs:26-31 | the `u32` conversion wraps back to the same index |
| CellIndexState.WrapUnwrap | src/process_runner/cells/state.rs:9-31 | wrapping a `u32` and converting back gives the same number, both ways |
| CellIndexState.IndexEquality | src/process_runner/cells/state.rs:9-10 | two indices are equal exactly when their numbers are |
| CellIndexState.DigitChar | src/process_runner/cells/state.rs:12-17 | a digit's character is between '0' and '9' and encodes that digit |
| CellIndexState.Decimal | src/process_runner/cells/state.rs:12-17 | decimal text is non-empty, all digits, with no leading zero except for 0 itself |
| CellIndexState.IntoString | src/process_runner/cells/state.rs:12-17 | the string form of an index is its decimal number, digits only, with no leading zero |
| CellIndexState.DecimalRoundTrip | src/process_runner/cells/state.rs:12-17 | reading the decimal text back gives the number |
| CellIndexState.IntoStringInjective | src/process_runner/cells/state.rs:12-17 | two indices have the same string exactly when they are equal |
| ExampleState.DefaultCell | src/process_runner/examples/example_state.rs:18-27 | the default cell has id 0, the origin, population 0 and peeps [1,2,3] |
| ExampleState.NewCell | src/process_runner/examples/example_state.rs:29-42 | `new` keeps the given id, position and population, and uses the origin and 0 when they are absent |
| ExampleState.IdOfNewCell | src/process_runner/examples/example_state.rs:44-51 | `id()` and `position()` of a new cell return what was given |
| ExampleState.NewCellDefaults | src/process_runner/examples/example_state.rs:18-42 | `new` with no position and no population is the default cell |
| ExampleState.NewCellExample | src/process_runner/examples/example_state.rs:77-89 | the unit test's cell (population 10 at (0,0)) is built as expected |
| ExampleState.DefaultGlobal | src/process_runner/examples/example_state.rs:53-58 | the default global state has 0 iterations and population 0 |
| ExampleState.NewGlobal | src/process_runner/examples/example_state.rs:60-68 | `GlobalState::new` starts the counter at 1 with the given population |
| ExampleState.NewGlobalVersusDefault | src/process_runner/examples/example_state.rs:53-68 | `new` never equals the default; apart from the counter they agree exactly for population 0 |
| GlobalRun.FoldGlobalUpdates | src/process_runner/global/run.rs:36-46 | defines the updated global state as each queued closure applied in turn to the result of the previous ones; its properties are the Fold lemmas and `ApplyGlobalUpdates` |
| GlobalRun.RunGlobalProcesses | src/process_runner/global/run.rs:49-62 | defines the global updates as each process's list, given the cells and the global state, concatenated in process order; its properties are the RunGlobalProcesses lemmas |
| GlobalRun.ApplyGlobalUpdates | src/process_runner/global/run.rs:36-46 | the loop applies the global updates' actions left to right |
| GlobalRun.FoldNoUpdates | src/process_runner/global/run.rs:36-46 | no updates leave the global state unchanged |
| GlobalRun.FoldGlobalAppend | src/process_runner/global/run.rs:36-46 | applying `us + vs` is applying `us` and then `vs` |
| GlobalRun.FoldGlobalSnoc | src/process_runner/global/run.rs:36-46 | the last update acts on the result of all earlier ones |
| GlobalRun.RunGlobalProcessesAppend | src/process_runner/global/run.rs:48-62 | the updates of `ps + qs` are those of `ps` followed by those of `qs` |
| GlobalRun.RunGlobalProcessesSingle | src/process_runner/global/run.rs:48-62 | one process contributes exactly its own update list |
| GlobalRun.RunGlobalProcessesIgnoresNetwork | src/process_runner/global/run.rs:48-62 | the result does not depend on the network argument |
| GlobalRun.RunGlobalProcessesOnePerProcess | src/process_runner/global/run.rs:48-62 | with one update per process, update `j` is process `j`'s |
| CellsRun.FoldCellUpdates | src/process_runner/cells/run.rs:58-71 | applying in-range updates keeps the number of cells |
| CellsRun.ApplyCellUpdates | src/process_runner/cells/run.rs:58-71 | the loop applies each update's closure to its target cell, in queue order |
| CellsRun.FoldCellUpdatesAt | src/process_runner/cells/run.rs:58-71 | cell `i` ends as its start value passed through exactly the actions aimed at `i`, in order |
| CellsRun.ActionsOnNone | src/process_runner/cells/run.rs:58-71 | no update aimed at `i` means no action on `i` |
| CellsRun.FoldLeavesUntargetedCells | src/process_runner/cells/run.rs:58-71 | a cell no update targets is unchanged |
| CellsRun.FoldCellAppend | src/process_runner/cells/run.rs:58-71 | applying `us + vs` is applying `us` and then `vs` |
| CellsRun.RunProcess | src/process_runner/cells/run.rs:74-86 | defines `run_process` as the pair of update lists the process's closure returns for the cell, its neighbours and the global state |
| CellsRun.RunOnCell | src/process_runner/cells/run.rs:105-109 | defines one cell's updates as every process's pair, appended in process order (`RunOnCellAppend`, `RunOnCellSingle`, `RunOnCellOneEach`) |
| CellsRun.CollectUpdates | src/process_runner/cells/run.rs:88-112 | defines the updates of the first `n` cells, cell-major, each cell with the neighbours its network row names (`CollectUpdatesAt`, `CollectUpdatesOrder`) |
| CellsRun.Neighbours | src/process_runner/cells/run.rs:97-104 | the neighbour list holds the cells named by the network row, in row order |
| CellsRun.RunProcesses | src/process_runner/cells/run.rs:88-112 | the nested loops gather every (cell, process) pair's updates, cell-major |
| CellsRun.RunProcessOnCells | src/process_runner/cells/run.rs:114-136 | one process's updates over all cells are the one-process case of the collection |
| CellsRun.RunOnCellAppend | src/process_runner/cells/run.rs:105-109 | on one cell, the updates of `ps + qs` are those of `ps` followed by those of `qs` |
| CellsRun.RunOnCellSingle | src/process_runner/cells/run.rs:73-86 | one process on one cell gives exactly `run_process`'s pair |
| CellsRun.CollectUpdatesFirst | src/process_runner/cells/run.rs:88-112 | the first cell's updates are its processes' updates with its own neighbours |
| CellsRun.RunOnCellOneEach | src/process_runner/cells/run.rs:105-109 | with one update per process, update `j` of a cell is process `j`'s |
| CellsRun.CollectUpdatesLength | src/process_runner/cells/run.rs:88-112 | with one update per process, there are cells × processes updates of each kind |
| CellsRun.CollectUpdatesAt | src/process_runner/cells/run.rs:88-112 | update `i*P+j` is process `j` run on cell `i` with cell `i`'s neighbours |
| CellsRun.CollectUpdatesOrder | src/process_runner/cells/run.rs:88-112 | over all cells, every (cell, process) pair sits at `i*P+j`, cell-major |
| CellsRun.RunSerial | src/process_runner/cells/run.rs:114-136 | running and applying process by process keeps the number of cells |
| CellsRun.RunBatch | src/process_runner/cells/run.rs:58-112 | running all processes and then applying keeps the number of cells |
| CellsRun.SerialSingleIsBatch | src/process_runner/cells/run.rs:58-136 | with one process, per-process and batch application agree |
| ExampleProcesses.ExampleProcess | src/process_runner/examples/example_processes.rs:5-16 | defines `example_process`: one update aimed at the cell itself whose closure adds a floored tenth (`ExampleProcessShape`) |
| ExampleProcesses.FloorTenth | src/process_runner/examples/example_processes.rs:5-16 | the result is the floor of a tenth |
| ExampleProcesses.CeilTenth | src/process_runner/examples/example_processes.rs:18-34 | the result is the ceiling of a tenth |
| ExampleProcesses.ExampleProcessShape | src/process_runner/examples/example_processes.rs:5-16 | one update aimed at the cell itself, adding the floor of a tenth of the population when it is applied and changing nothing else |
| ExampleProcesses.ExampleProcessIgnoresSnapshot | src/process_runner/examples/example_processes.rs:5-16 | the closure reads the cell it is applied to, not the snapshot the process saw |
| ExampleProcesses.Movement | src/process_runner/examples/example_processes.rs:22-25 | defines the movement as the rounded-up tenths of the neighbours' populations, added in order (`MovementBounds`, `MigrationMovement`) |
| ExampleProcesses.MovementBounds | src/process_runner/examples/example_processes.rs:18-34 | the movement is at least a tenth of the neighbours' total and less than a tenth plus one per neighbour |
| ExampleProcesses.MigrationMovement | src/process_runner/examples/example_processes.rs:22-25 | the loop sums the rounded-up tenths of the neighbours' populations |
| ExampleProcesses.PopulationMigrationSpec | src/process_runner/examples/example_processes.rs:18-34 | defines `population_migration`: one update aimed at the cell itself whose closure adds the captured movement (`PopulationMigration`, `MigrationAddsMovement`) |
| ExampleProcesses.PopulationMigration | src/process_runner/examples/example_processes.rs:18-34 | one update to the cell itself that adds the movement and changes nothing else |
| ExampleProcesses.MigrationAddsMovement | src/process_runner/examples/example_processes.rs:18-34 | applied to any cell, the update raises the population by exactly the movement |
| ExampleProcesses.MigrationWithoutNeighbours | src/process_runner/examples/example_processes.rs:18-34 | with no neighbours the update changes nothing |
| ExampleProcesses.DefaultProcesses | src/process_runner/examples/example_processes.rs:36-43 | two processes, with ids 0 and 1 |
| ExampleProcesses.AsRunnerProcess | src/process_runner/examples/example_processes.rs:36-43 | a cell process becomes a runner process with the same id, its cell updates and no global updates |
| RunnerExamples.AddNinetyNine | src/process_runner/cells/run.rs:348-367 | adding 99 to cell 0 gives population 199 |
| RunnerExamples.DemoUpdatesGive122 | src/process_runner/cells/run.rs:214-241 | the demo updates leave every cell at 122 |
| RunnerExamples.DemoNetworkFits | src/process_runner/cells/run.rs:164-186 | the demo network names only existing cells |
| RunnerExamples.DemoRunProcess | src/process_runner/cells/run.rs:272-308 | the demo process on cell 0 gives one cell update for 0 and the global update "Global act for 0" |
| RunnerExamples.DemoProcessesOnCell | src/process_runner/cells/run.rs:310-346 | two demo processes on a cell give two cell updates to it and two global updates named after it |
| RunnerExamples.DemoRunProcesses | src/process_runner/cells/run.rs:310-346 | on three cells, six updates: two per cell in cell order, with matching global names |
| RunnerExamples.GlobalAddEleven | src/process_runner/global/run.rs:170-188 | one global update adding 11 gives 11 |
| RunnerExamples.GlobalAddElevenTwice | src/process_runner/global/run.rs:170-188 | two global updates adding 11 give 22 |
| RunnerExamples.PairUpdates | src/process_runner/cells/run.rs:88-112 | on 12 and 40 the default processes queue a growth and +4 for cell 0, then a growth and +2 for cell 1 |
| RunnerExamples.PairFold | src/process_runner/cells/run.rs:58-71 | folding those updates in order gives 17 and 46 |
| RunnerExamples.DefaultProcessesOnPair | src/process_runner/examples/example_processes.rs:36-43 | one batch step of the default processes on 12 and 40 (neighbours) gives 17 and 46 |
| RunnerExamples.BatchResets | src/process_runner/cells/run.rs:58-112 | in batch mode a reset decided on the old value wipes out a queued +1 |
| RunnerExamples.SerialKeepsSix | src/process_runner/cells/run.rs:114-136 | applying after each process lets the reset see the +1, so the cell keeps 6 |
| MachineInts.U32AsI32 | src/process_runner/example_state.rs:56-58 | `as i32` agrees with the input modulo 2^32 and is the identity up to `i32::MAX` |
| MachineInts.I32AsU32 | src/process_runner/example_state.rs:56-58 | `as u32` agrees with the input modulo 2^32 and is the identity on non-negatives |
| MachineInts.CastRoundTrip | src/process_runner/example_state.rs:56-58 | the two casts are inverse to each other |
| TaggedProcess.ToU32 | src/process_runner/process.rs:26-34 | succeeds exactly on non-negative integer values and keeps them; anything else panics |
| TaggedProcess.ToI32 | src/process_runner/process.rs:35-43 | succeeds exactly on integer values and keeps them; vectors panic |
| TaggedProcess.ToF64 | src/process_runner/process.rs:44-52 | succeeds exactly on integer values and gives the same number as a real |
| TaggedProcess.ConversionsAgree | src/process_runner/process.rs:26-52 | the three conversions agree on the number wherever they succeed; a vector fails all three |
| TaggedProcess.NewCellUpdate | src/process_runner/process.rs:83-98 | `CellUpdate::new` stores its four arguments in their fields |
| TaggedProcess.NewCellUpdateInjective | src/process_runner/process.rs:83-98 | two updates built by `new` are equal exactly when all four arguments are |
| TaggedState.F64AsI32 | src/process_runner/example_state.rs:56-58 | the `f64 as i32` cast truncates toward zero within range, gives `i32::MAX` at or above `i32::MAX + 1` and `i32::MIN` at or below `i32::MIN - 1` |
| TaggedState.AddU32 | src/process_runner/example_state.rs:56-58 | ADD on a `u32` succeeds exactly when the value is an integer and the `i32` sum is in range; the result is the sum modulo 2^32 |
| TaggedState.SubU32 | src/process_runner/example_state.rs:59-63 | SUB succeeds exactly when the value is a non-negative integer no larger than the field; the result is the difference |
| TaggedState.ApplyU32 | src/process_runner/example_state.rs:56-66 | on a `u32` field: ADD succeeds exactly when the `i32` sum fits and agrees with it modulo 2^32; SUB exactly for a non-negative integer at most the field, giving the difference; SET exactly for a non-negative integer, giving it |
| TaggedState.ApplyF64 | src/process_runner/example_state.rs:56-66 | on an `f64` field: ADD truncates the field to `i32` first and succeeds exactly when that sum fits; SUB and SET succeed on any integer and give the exact difference or the value |
| TaggedState.DefaultRecord | src/process_runner/example_state.rs:182-193 | the default cell: id 0, origin, population 0, attraction 1.0, birth rate 1.0, death rate 0.0 |
| TaggedState.NewRecord | src/process_runner/example_state.rs:114-140 | `new` keeps every given field and otherwise uses the origin, 0, 1.0, 0, 1.0 and 0.2 |
| TaggedState.NewVersusNewDefault | src/process_runner/example_state.rs:114-154 | `new` with nothing given differs from `new_default` exactly in the death rate (0.2 against 0.0) |
| TaggedState.ApplyRecord | src/process_runner/example_state.rs:87-112 | a constant field panics, an unknown field is ignored, the id and position never change, and each mutable field (population, attraction, residential capacity, birth and death rates) gets exactly its `u32` or `f64` outcome, the rest of the record unchanged; only a named field can panic |
| TaggedState.ApplyChangesOnlyNamedField | src/process_runner/example_state.rs:87-112 | a successful update changes only the field it names |
| TaggedState.AddPopulationWraps | src/process_runner/example_state.rs:56-58 | ADD to population succeeds exactly when the `i32` sum fits; the result agrees with the sum modulo 2^32 |
| TaggedState.AddNegativeDecreases | src/process_runner/example_state.rs:56-58 | adding `-k` with `k` at most the population subtracts `k` |
| TaggedState.AddPositiveIncreases | src/process_runner/example_state.rs:56-58 | adding `k` within `i32` range adds `k` |
| TaggedState.SubPopulation | src/process_runner/example_state.rs:59-63 | SUB on population succeeds exactly for a non-negative integer at most the population, and subtracts it |
| TaggedState.SetPopulation | src/process_runner/example_state.rs:64-66 | SET on population succeeds exactly for a non-negative integer and stores it |
| TaggedState.AddThenSubRestores | src/process_runner/example_state.rs:56-63 | ADD `k` then SUB `k` gives back the original cell |
| TaggedState.AddToRateTruncates | src/process_runner/example_state.rs:56-58 | ADD 0 to a birth rate of 1.5 gives 1.0, because the field goes through `as i32` |
| TaggedState.SubFromRateKeepsFraction | src/process_runner/example_state.rs:59-63 | SUB `k` from the death rate subtracts `k` exactly, keeping the fraction |
| TaggedState.VectorPayloadPanics | src/process_runner/example_state.rs:70-72 | a vector value on a mutable field panics |
| TaggedState.CellState.New | src/process_runner/example_state.rs:114-140 | the new object holds `new`'s record |
| TaggedState.CellState.NewDefault | src/process_runner/example_state.rs:149-154 | the new object holds the default record with the given id |
| TaggedState.CellState.Apply | src/process_runner/example_state.rs:96-112 | `apply` succeeds exactly when `ApplyRecord` succeeds on the object's old record, after which the object holds `ApplyRecord`'s new record, and on a panic it returns that same error with every field unchanged |
| TaggedRun.GetNextGlobalState | src/process_runner/run.rs:24-31 | the iteration counter goes up by one |
| TaggedRun.PrependNothing | src/process_runner/run.rs:33-54 | prepending no updates leaves a result unchanged |
| TaggedRun.PrependPrepend | src/process_runner/run.rs:33-54 | prepending `b` then `a` is prepending `a + b` |
| TaggedRun.RunProcess | src/process_runner/run.rs:13-22 | defines `run_process` as the process function's outcome on the cell and its neighbours |
| TaggedRun.RunOnCell | src/process_runner/run.rs:48-51 | defines one cell's updates as every process's list in process order, stopping at the first panic (`RunOnCellOnePerProcess`) |
| TaggedRun.CollectFrom | src/process_runner/run.rs:33-54 | defines the queue from cell `i` on: each cell's updates with the neighbours of its network row, cell-major, stopping at a missing row or neighbour or a panic (`RunProcesses`) |
| TaggedRun.DerivedNetwork | src/process_runner/network.rs:16-29 | defines the network `run_iteration` derives: `get_network_map` with `check_is_neighbour` and its fixed 40000.0 threshold (`Network.NeighbourWithinThreshold`) |
| TaggedRun.NeighbourRecords | src/process_runner/run.rs:38-45 | succeeds exactly when every id in the row exists, and then lists those cells in row order |
| TaggedRun.Records | src/process_runner/run.rs:33-54 | the snapshot holds each cell object's record, in order |
| TaggedRun.RunProcesses | src/process_runner/run.rs:33-54 | the loops gather every process's updates on every cell with its neighbours, cell-major, and stop at the first panic |
| TaggedRun.FoldApply | src/process_runner/run.rs:56-67 | applying updates keeps the number of cells |
| TaggedRun.ApplyCellUpdates | src/process_runner/run.rs:56-67 | the cells' records become the fold of the updates over the old records; a panic reports the fold's error |
| TaggedRun.RunIteration | src/process_runner/run.rs:69-85 | on success, the cells hold the applied updates, the network is the derived one and the counter is one higher; fails exactly when collecting or applying panics |
| TaggedRun.FoldApplyLeavesUntargeted | src/process_runner/run.rs:56-67 | a cell no update targets is unchanged |
| TaggedRun.FoldApplyAppend | src/process_runner/run.rs:56-67 | applying `us + vs` is applying `us` and then, unless that panicked, `vs` |
| TaggedRun.RunOnCellOnePerProcess | src/process_runner/run.rs:13-22 | with one update per process, update `j` of a cell is process `j`'s |
| Network.NeighbourIds | src/process_runner/network.rs:20-25 | defines one row as the ids of the related cells, in cell order (`NeighbourIdsMembership`, `NeighbourIdsAppend`) |
| Network.NeighbourRelation | src/process_runner/network.rs:5-14 | defines the relation `get_network_map` tests, `check_is_neighbour` on two cells' ids and positions (`NoSelfNeighbour`, `NeighbourWithinThreshold`) |
| Network.NetworkMap | src/process_runner/network.rs:16-29 | one row per cell, each the ids of the related cells in cell order |
| Network.GetNetworkMap | src/process_runner/network.rs:16-29 | the nested loops build exactly the network map |
| Network.NeighbourIdsMembership | src/process_runner/network.rs:16-29 | an id is in a row exactly when some related cell has that id |
| Network.NeighbourIdsAppend | src/process_runner/network.rs:16-29 | the row over `a + b` is the row over `a` followed by the row over `b` |
| Network.CheckIsNeighbour | src/process_runner/network.rs:5-14 | a cell is never its own neighbour; two different cells are neighbours exactly when their distance is within the threshold |
| Network.NoSelfNeighbour | src/process_runner/network.rs:5-29 | no row contains its own cell's id |
| Network.NeighbourWithinThreshold | src/process_runner/network.rs:5-29 | with distinct ids, cell `j` is in `i`'s row exactly when it is within the threshold |
| Network.NetworkSymmetric | src/process_runner/network.rs:5-29 | with distinct ids and a symmetric distance, the network is symmetric |
| TaggedExamples.ExampleProcess | src/process_runner/example_processes.rs:7-14 | one ADD update to the cell's own population, of the floor of a tenth |
| TaggedExamples.MigrationSumPrefix | src/process_runner/example_processes.rs:16-27 | the running sum never exceeds the full sum |
| TaggedExamples.MigrationSum | src/process_runner/example_processes.rs:17-20 | defines the migration sum as the floored tenths of the neighbours' populations, added in order (`MigrationSumPrefix`, `MigrationSumBound`) |
| TaggedExamples.PopulationMigrationSpec | src/process_runner/example_processes.rs:16-27 | defines the migration update: one ADD of the sum `as i32` to the cell's own population, or a panic when the `u32` sum overflows (`PopulationMigration`, `MigrationCastWraps`) |
| TaggedExamples.PopulationMigration | src/process_runner/example_processes.rs:16-27 | the loop panics exactly when the `u32` sum of the tenths overflows |
| TaggedExamples.MigrationSumBound | src/process_runner/example_processes.rs:16-27 | the sum is at most the number of neighbours times a tenth of `u32::MAX` |
| TaggedExamples.MigrationNeverPanicsUpToTen | src/process_runner/example_processes.rs:16-27 | up to ten neighbours never overflow |
| TaggedExamples.MigrationPanicsOnElevenFullCells | src/process_runner/example_processes.rs:16-27 | eleven neighbours at `u32::MAX` overflow |
| TaggedExamples.MigrationCastWraps | src/process_runner/example_processes.rs:16-27 | a sum above `i32::MAX` becomes a negative value through `as i32` |
| TaggedExamples.DefaultProcesses | src/process_runner/example_processes.rs:29-36 | two processes, with ids 0 and 1 |
| TaggedExamples.PairNetwork | src/process_runner/network.rs:5-29 | two distinct cells at the same place are each other's only neighbour |
| TaggedExamples.PairCollect | src/process_runner/run.rs:13-22 | on 12 and 40 the default processes queue +1 and +4 for cell 0, then +4 and +1 for cell 1 |
| TaggedExamples.PairFold | src/process_runner/run.rs:56-67 | applying those updates in order gives 17 and 45 |
| TaggedExamples.PairIteration | src/process_runner/run.rs:56-67 | the default processes on 12 and 40 give 17 and 45 |
| IntegerRunner.RunProcess | src/process_runner/mod.rs:31-37 | defines `run_process` as the process function's update for the cell and its neighbours |
| IntegerRunner.RunOnCell | src/process_runner/mod.rs:54-57 | defines one cell's updates as one update per process, in process order (`RunOnCellOnePerProcess`) |
| IntegerRunner.CollectFrom | src/process_runner/mod.rs:47-58 | defines the queue from cell `i` on, cell-major, with a panic on a missing row or neighbour (`CollectFromOrder`, `QueueUpdates`) |
| IntegerRunner.IterationResult | src/process_runner/mod.rs:39-66 | defines `run_iteration`'s result: a panic at `u32::MAX`, otherwise the network, the queued updates and their application, with the counter raised by one (`RunIteration`, `IterationCounts`) |
| IntegerRunner.PrependNothing | src/process_runner/mod.rs:47-58 | prepending no updates leaves a result unchanged |
| IntegerRunner.PrependPrepend | src/process_runner/mod.rs:47-58 | prepending `b` then `a` is prepending `a + b` |
| IntegerRunner.NeighbourCells | src/process_runner/mod.rs:48-53 | succeeds exactly when every id in the row exists, and then lists those cells in row order |
| IntegerRunner.ApplyFrom | src/process_runner/mod.rs:60-63 | applying keeps the number of cells |
| IntegerRunner.QueueUpdates | src/process_runner/mod.rs:47-58 | the nested loops queue one update per (cell, process), cell-major |
| IntegerRunner.ApplyUpdates | src/process_runner/mod.rs:60-63 | the loop performs the additions in queue order and stops at the first panic |
| IntegerRunner.RunIteration | src/process_runner/mod.rs:39-66 | counts the iteration, derives the network, queues and applies the updates |
| IntegerRunner.ApplyFromAdds | src/process_runner/mod.rs:60-63 | succeeds exactly when every target exists and no final population overflows; each cell then gains the sum aimed at it |
| IntegerRunner.RunOnCellOnePerProcess | src/process_runner/mod.rs:54-57 | on one cell the updates are its processes' updates, one each, in process order |
| IntegerRunner.OffsetIsProduct | src/process_runner/mod.rs:47-58 | the queue offset of cell `c` is `c` times the number of processes |
| IntegerRunner.OffsetBelow | src/process_runner/mod.rs:47-58 | offsets of earlier cells lie below the end of the queue |
| IntegerRunner.CollectFromLength | src/process_runner/mod.rs:47-58 | the queue holds cells × processes updates |
| IntegerRunner.CollectFromOrder | src/process_runner/mod.rs:47-58 | update `c*P+j` is process `j` on cell `c` with cell `c`'s neighbours |
| IntegerRunner.ExampleProcess | src/process_runner/mod.rs:68-74 | one ADD to the cell itself of the floor of a tenth of its population |
| IntegerRunner.MigrationSumPrefix | src/process_runner/mod.rs:76-86 | the running sum never exceeds the full sum |
| IntegerRunner.MigrationSum | src/process_runner/mod.rs:76-80 | defines the movement as the floored tenths of the neighbours' populations, added in order (`MigrationSumPrefix`) |
| IntegerRunner.PopulationMigrationSpec | src/process_runner/mod.rs:76-86 | defines the migration update: one ADD of the movement to the cell itself, or a panic when the `u32` sum overflows (`PopulationMigration`) |
| IntegerRunner.PopulationMigration | src/process_runner/mod.rs:76-86 | one ADD to the cell itself of the neighbours' summed tenths, panicking on overflow |
| IntegerRunner.TestProcesses | src/process_runner/mod.rs:93-116 | two processes, with ids 0 and 1 |
| IntegerRunner.TestNetwork | src/process_runner/mod.rs:93-116 | two cells with different ids give the network `[[1], [0]]` |
| IntegerRunner.TestCollect | src/process_runner/mod.rs:93-116 | the test queue is the expected four updates |
| IntegerRunner.TestApply | src/process_runner/mod.rs:93-116 | applying them gives 17 and 45 |
| IntegerRunner.TwoCellIteration | src/process_runner/mod.rs:93-116 | the whole test iteration gives 17 and 45 and counts to 1 |
| IntegerRunner.IterationOfParts | src/process_runner/mod.rs:39-66 | below the counter limit an iteration is its network, its queued updates and their application put together, counting one |
| IntegerRunner.IterationCounts | src/process_runner/mod.rs:41-43 | a successful iteration raises the counter by one; at `u32::MAX` it panics |
| FirstRunner.GetNetworkMap | src/run_model.rs:38-51 | one row per cell; no row holds its own cell's id |
| FirstRunner.NetworkListsOthers | src/run_model.rs:38-51 | an id is in a cell's row exactly when it is another id of some cell |
| FirstRunner.TwoCellNetwork | src/run_model.rs:112-126 | two cells 0 and 1 give `[[1], [0]]` |
| FirstRunner.RunProcess | src/run_model.rs:30-36 | defines `run_process` as the process function's update for the cell |
| FirstRunner.Queue | src/run_model.rs:60-65 | defines the first loop's queue: every process on every cell, cell-major (`QueueOrder`, `QueueLength`, `QueueUpdates`) |
| FirstRunner.QueueUpdates | src/run_model.rs:53-73 | the first loop queues each process on each cell, cell-major |
| FirstRunner.QueueOrder | src/run_model.rs:53-73 | the queue holds cells × processes updates, and update `c*P+j` is process `j` on cell `c` |
| FirstRunner.QueueLength | src/run_model.rs:53-73 | the queue holds cells × processes updates |
| FirstRunner.ApplyFrom | src/run_model.rs:53-73 | applying keeps the number of cells |
| FirstRunner.ApplyUpdates | src/run_model.rs:53-73 | the second loop performs the additions in order and stops at the first panic |
| FirstRunner.ApplyFromAdds | src/run_model.rs:53-73 | succeeds exactly when every target exists and no final population overflows; each cell keeps its id and gains the sum aimed at it |
| FirstRunner.IterationResult | src/run_model.rs:53-73 | defines `run_iteration`'s result: a panic at `u32::MAX`, otherwise the queue applied and the counter raised by one (`RunIteration`) |
| FirstRunner.RunIteration | src/run_model.rs:53-73 | counts the iteration, queues and applies |
| FirstRunner.ExampleProcess | src/run_model.rs:75-81 | one ADD to the cell itself of the floor of a tenth of its population |
| FirstRunner.TwoCellIteration | src/run_model.rs:87-110 | 12 and 40 become 13 and 44 and the counter goes from 0 to 1 |
| Prototype.GetField | run_model.py:20-25 | the model's `getattr` recognises exactly the four dataclass fields and reads the named one |
| Prototype.SetField | run_model.py:103-106 | replacing a field sets it and leaves every other field as it was |
| Prototype.ProcessChange | run_model.py:33-39 | SET gives the value; ADD gives field plus value, raising TypeError on None and AttributeError on an unknown field; any other action raises ValueError |
| Prototype.AddThenSubtractRestores | run_model.py:33-39 | adding `x` and then `-x` to a numeric field gives back its value |
| Prototype.UpdatedData | run_model.py:97-100 | succeeds exactly when every field change does, and then pairs each field with its new value, all computed from the cell before the change |
| Prototype.ReplaceFields | run_model.py:103-106 | defines `replace(cell, **updated_data)`: each keyword sets its field in turn, and a name that is not a field raises TypeError (`ReplaceFieldsLookup`) |
| Prototype.ReplaceFieldsLookup | run_model.py:103-106 | `replace` succeeds exactly when every name is a field, and then each field takes its last given value or keeps its old one |
| Prototype.LookupUnique | run_model.py:97-106 | a name given once is looked up to its own value |
| Prototype.LookupAbsent | run_model.py:97-106 | a name not given is not found |
| Prototype.PyIndex | run_model.py:96 | a list index is valid exactly from `-n` to `n-1`; negative indices count from the end |
| Prototype.ApplyChange | run_model.py:95-106 | applying one change keeps the number of cells |
| Prototype.ApplyChangeFromPreChangeCell | run_model.py:95-106 | the named fields get values computed from the pre-change cell, the other fields and all other cells are unchanged |
| Prototype.ApplyAll | run_model.py:90-107 | applying the changes keeps the number of cells |
| Prototype.ApplyAllAppend | run_model.py:90-107 | applying `a + b` is applying `a` and then, unless that raised, `b` |
| Prototype.ApplyCellChanges | run_model.py:90-107 | the loop leaves the list as the fold of the changes, with the changes before an exception already applied |
| Prototype.SomeItemsMembership | run_model.py:113 | an item survives the filter exactly when it is a non-None entry |
| Prototype.FlattenChanges | run_model.py:110-113 | defines `flatten_changes`: the non-None items of the non-None lists, in order (`FlattenMembership`, `FlattenAppend`) |
| Prototype.FlattenMembership | run_model.py:110-113 | a change is in the flat list exactly when some non-None list holds it |
| Prototype.FlattenAppend | run_model.py:110-113 | flattening distributes over concatenation |
| Prototype.RunCellProcesses | run_model.py:86-87 | defines `run_cell_processes`: the changes of every process on the cell, in process order (`RunCellProcessesAppend`) |
| Prototype.RunCellProcessesAppend | run_model.py:86-87 | the changes of `ps + qs` are those of `ps` followed by those of `qs` |
| Prototype.CellUpdates | run_model.py:153-156 | one entry per cell: its processes' changes with its own neighbour list |
| Prototype.GetNeighbourMap | run_model.py:49-57 | one neighbour list per cell, in cell order |
| Prototype.NeighbourList | run_model.py:53-56 | defines one list of `get_neighbour_map`: the cells closer than 2 to the cell, in cell order (`NeighbourListMembership`, `SelfIsNeighbour`) |
| Prototype.NeighbourListMembership | run_model.py:53-56 | a cell is listed exactly when it is closer than 2 |
| Prototype.SelfIsNeighbour | run_model.py:53-56 | when the distance from every point to itself is 0, every cell is in its own neighbour list |
| Prototype.NeighbourIndices | run_model.py:140-141 | defines one row of the documented id map: the indices of the cells closer than 2, in cell order (`IndicesDependOnPositions`) |
| Prototype.NeighbourIndexMap | run_model.py:140-141 | one row of neighbour indices per cell |
| Prototype.Resolve | run_model.py:149-156 | defines how a row of indices names the current cells, with Python indexing and IndexError (`ResolveRow`, `ResolveNeighbourIndices`) |
| Prototype.ResolveAll | run_model.py:149-156 | resolving keeps one list per row |
| Prototype.ResolveAppend | run_model.py:149-156 | resolving `a + b` is resolving `a` and then `b` |
| Prototype.ResolveNeighbourIndices | run_model.py:149-156 | the indices found on an earlier list resolve to the current neighbours when the positions agree |
| Prototype.IndicesDependOnPositions | run_model.py:53-56 | neighbour indices depend only on the positions |
| Prototype.IndexMapDependsOnPositions | run_model.py:49-57 | the index map depends only on the positions |
| Prototype.ResolveAllIndexMap | run_model.py:149-156 | a reused index map resolves to the fresh neighbour map of the current cells |
| Prototype.ResolveAllRows | run_model.py:149-156 | rows that resolve one by one resolve together |
| Prototype.ResolveRow | run_model.py:149-156 | one row of a reused index map resolves to the current neighbour list |
| Prototype.ResolveAllSnoc | run_model.py:149-156 | resolving one more row appends its list |
| Prototype.Iteration | run_model.py:116-160 | defines `run_iteration` on the documented id map: build or reuse the map, resolve each cell's row, run the processes and apply their changes (`IterationKeepsMap`, `FreshIterationUsesNeighbourMap`, `ReusedMapIsFresh`) |
| Prototype.FreshIterationUsesNeighbourMap | run_model.py:116-160 | without a map, the iteration runs on the freshly computed neighbour lists and returns their index map |
| Prototype.IterationKeepsMap | run_model.py:149-152 | a supplied map is handed back unchanged and a missing one is built fresh; the number of cells never changes |
| Prototype.ReusedMapIsFresh | run_model.py:149-152 | reusing the map built from cells with the same positions gives the same iteration as a fresh map |
| Prototype.Cycles | run_model.py:192-201 | defines `k` iterations, each logging its cells and handing its map to the next, an exception ending the run (`CyclesStep`, `CyclesAdvance`, `CyclesLogs`) |
| Prototype.PrependLogsAppend | run_model.py:189-201 | prepending `b` and then `a` to the log is prepending `a + b` |
| Prototype.CyclesStep | run_model.py:192-201 | one cycle is one iteration, its state logged, and the remaining cycles with the returned map; an exception stops the run |
| Prototype.CyclesAdvance | run_model.py:192-201 | one loop step moves the iteration's snapshot from the remaining run to the log, and an exception ends the run |
| Prototype.CyclesLogs | run_model.py:189-202 | a run of `k` cycles logs `k` states, the last being the final cells, and keeps the number of cells |
| Prototype.RunIteration | run_model.py:116-160 | the array holds the iteration's cells and the result is its map or its exception |
| Prototype.RunCycles | run_model.py:163-202 | the loop computes the cycles' result; without an override it raises AttributeError |
| Prototype.CyclesResult | run_model.py:163-202 | defines `run_cycles`: AttributeError without an override, otherwise `range(n)` cycles from a fresh map (`RunCycles`, `RunCyclesLogCount`) |
| Prototype.RunCyclesLogCount | run_model.py:187-201 | `range(n)` cycles log `max(n, 0)` states |
| PrototypeStaleMap.IterationAsWritten | run_model.py:116-160 | as written, the iteration keeps the number of cells and hands back a map with a row for every cell |
| PrototypeStaleMap.CyclesAsWritten | run_model.py:163-202 | as written, a successful run of `k` cycles keeps the number of cells and logs `k` snapshots |
| PrototypeStaleMap.IterationAsWrittenKeepsMap | run_model.py:149-152 | as written, a supplied value map is handed back unchanged and a missing one is built fresh |
| PrototypeStaleMap.CyclesAsWrittenPassesMapOn | run_model.py:194-200 | as written, every later cycle gets the very map passed in, however the cells have changed |
| PrototypeStaleMap.CyclesAsWrittenLogs | run_model.py:189-202 | as written, a successful run logs one snapshot per cycle, the last being the final cells |
| PrototypeStaleMap.FirstIterationAgrees | run_model.py:149-160 | the first iteration, with no map yet, is the same as written and corrected |
| PrototypeStaleMap.EveryoneNeighbours | run_model.py:53-56 | at distance 0 every cell is every cell's neighbour |
| PrototypeStaleMap.EveryIndexNeighbours | run_model.py:53-56 | at distance 0 every index is every cell's neighbour |
| PrototypeStaleMap.PoolRound | run_model.py:90-107 | a process that SETs the population to its neighbours' sum gives both cells that sum |
| PrototypeStaleMap.PopulationSums | run_model.py:53-56 | a step of the worked example under "## Findings": the two cells' neighbour list sums populations 1 and 0 to 1, and populations 1 and 1 to 2 |
| PrototypeStaleMap.StaleCycles | run_model.py:163-202 | as written, two cycles on populations 1 and 0 end at 1 and 1 |
| PrototypeStaleMap.ResolveBoth | run_model.py:149-156 | the row `[0, 1]` resolves to both cells |
| PrototypeStaleMap.FreshCycles | run_model.py:163-202 | corrected, two cycles end at 2 and 2 |
| PrototypeStaleMap.StaleMapIsNotFresh | run_model.py:149-152 | the reused value map gives a different second iteration than a fresh one |

## Left out

- Printing (`println!`), logging, the Python bindings (`src/py_interface/`), the GUI, the demos and `get_model_iterator` (an endless generator) are not modelled.
- `src/py_interface/run.rs` chooses between per-process and batch application. It is not part of this model. `CellsRun.RunSerial` composes that mode from `run_process_on_cells` and `apply_cell_updates`.
- Geodesic distance is a `distance` parameter, and so is the Python `Point.distance`. The neighbour threshold of the tagged generation is the fixed 40000.0 of `src/process_runner/network.rs:10` (`Network.NeighbourDistance`); the generic `Network` lemmas hold for any threshold. The network unit test (`src/process_runner/network.rs:36-52`) depends on real geodesic values and is not modelled. Exceptions raised by `distance` itself are not modelled.
- Floating point is modelled by exact reals. The `NumberF` variant of `Value` (and with it the float-to-integer `NumCast` in `src/process_runner/process.rs:29-47`) and `f64` rounding are not modelled. Python numbers are exact reals, and booleans are not distinguished from numbers.
- `src/process_runner/mod.rs` calls `network::get_network_map`, whose signature belongs to another generation. `IntegerRunner.RunIteration` therefore takes the neighbour relation as a parameter.
- Panics (overflow, out-of-range index, failed conversion, constant field) are modelled as `None`/`Err`, except in the closure generation's runner, listed next. Unwinding is not modelled.
- CellsRun.FoldCellUpdates, CellsRun.ApplyCellUpdates, CellsRun.RunProcesses, CellsRun.RunProcessOnCells: the out-of-range panics of `src/process_runner/cells/run.rs:68` (an update aimed at a missing cell) and `src/process_runner/cells/run.rs:99-103` (a missing network row or neighbour) are preconditions (`TargetsIn`, `NetworkFits`). `CellsRun.RunBatch` and `CellsRun.RunSerial` check them first and return `None`.
- ExampleProcesses.MigrationMovement: the `u32` overflow of `movement +=` (`src/process_runner/examples/example_processes.rs:22-25`) is not modelled, because the closure generation's populations are `nat`.
- CellsRun.FoldCellUpdates: the closure generation's example cells use unbounded `nat` populations, so `u32` overflow in its closures is not modelled.
- TaggedRun.GetNextGlobalState: requires the counter to be below `u32::MAX`. The increment at `u32::MAX` would panic.
- TaggedRun.RunIteration: requires the counter below `u32::MAX` and distinct cell objects. Aliased cell objects are not modelled.
- TaggedRun.ApplyCellUpdates: requires distinct cell objects, for the same reason.
- Prototype.RunCellProcesses: a process is a total function (`PyProcess`), so an exception raised inside a process is not modelled, and neither is a process returning `None`. In `run_model.py:86` that `None` makes the generator raise TypeError, and `list(changes)` (`run_model.py:94`) raises it before any change is applied.
- CellsRun.RunProcess, GlobalRun.RunGlobalProcesses: the closure generation's process functions and update closures (`CellsRun.Process`, `CellsRun.CellUpdate`, `GlobalRun.Process`, `GlobalRun.GlobalUpdate`) are total Dafny functions, so a panic inside a process or an update closure is not modelled.
- FirstRunner.RunProcess, FirstRunner.IterationResult, FirstRunner.RunIteration: the earliest runner's process function (`FirstRunner.Process`, `src/run_model.rs:27`) is a total Dafny function, so a panic inside a process, which would abort `run_iteration` (`src/run_model.rs:60-65`), is not modelled; `FirstRunner.Queue` and `FirstRunner.QueueUpdates` inherit this. There, `None` means only the counter limit or a failed addition. (The integer-only runner's processes return `Option` and do model it.)
- Prototype.GetField: Python's `getattr` also resolves methods and dunder names such as `__init__` or `__class__`. The model treats every name other than the four fields as missing, so ADD on such a name raises AttributeError in the model, where the source raises TypeError (method plus number).
- Python `deepcopy` and the always-empty `global_data` dictionary only pass values through and are not modelled.
- `run_cycles` and `apply_cell_changes` annotate `cells` as a dictionary, but every caller passes a list. They are modelled on a list.
- The `network_data` parameter of `get_neighbour_map` is unused and is not modelled.
- Prototype.Iteration, Prototype.Cycles, Prototype.CyclesResult, Prototype.RunIteration and Prototype.RunCycles use the corrected neighbour map of cell indices (see Findings). The code as written is `PrototypeStaleMap.IterationAsWritten`/`CyclesAsWritten`.

The model follows the code where the code and its documentation disagree, with one exception: `Prototype.RunIteration` and `Prototype.RunCycles`, with their specification functions `Prototype.Iteration`, `Prototype.Cycles` and `Prototype.CyclesResult`, follow the docstring's map of cell ids (see Findings). Elsewhere:

- In `run.rs` of the tagged generation, `run_iteration` increments the iteration counter itself.
- ADD on a `u32` field goes through `i32` and wraps.
- The Python neighbour list includes the cell itself.
- The tagged `new_default` uses death rate 0.0, while `new` uses 0.2.
- The Python `Config` has no `iterations` field, so `run_cycles` without an override raises AttributeError (`Prototype.RunCycles`).

## Findings

| source | as written | input that shows it | evidently intended | confidence | as-written member | corrected member |
|---|---|---|---|---|---|---|
| run_model.py:149-152, 194-200 | `run_cycles` passes the neighbour map of the previous iteration back in. That map holds cell *values*, and `apply_cell_changes` replaces every changed cell with a new object, so every later iteration sees the neighbour cells as they were when the first iteration built the map | two cells, uid 0 with population 1 and uid 1 with population 0, at the same place; one process that SETs population to the sum of its neighbours; 2 cycles | the docstring says the map holds cell ids, so the neighbours should be the current cells: populations 2 and 2 after two cycles, against 1 and 1 as written | not executed | PrototypeStaleMap.StaleCycles | PrototypeStaleMap.FreshCycles |

=== FILE: cell_index.dfy ===
/** The cell identity of the closure-based generation
    (src/process_runner/cells/state.rs): a `u32` wrapped in a tuple struct,
    used both as identity and as the cell's offset in the cell vector. */
module CellIndexState {
  import opened MachineInts

  /** `geo::Point<f64>`, the type of `CellStateBase::position`. */
  datatype Point = Point(x: real, y: real)

  const Origin: Point := Point(0.0, 0.0)

  /** `CellIndex(pub u32)`; the derived `PartialEq` compares the inner value. */
  datatype CellIndex = CellIndex(value: u32)

  /** `Into<usize>`: a `u32` always fits in a `usize`, so the cast keeps the value. */
  function IntoUsize(i: CellIndex): (r: nat)
    ensures r < U32_LIMIT
    ensures CellIndex(r) == i
  {
    i.value
  }

  /** `From<CellIndex> for u32`. */
  function IntoU32(i: CellIndex): (r: u32)
    ensures CellIndex(r) == i
  {
    i.value
  }

  /** Wrapping a `u32` and unwrapping it again gives it back, both ways round. */
  lemma WrapUnwrap(v: u32, i: CellIndex)
    ensures IntoU32(CellIndex(v)) == v
    ensures IntoUsize(CellIndex(v)) == v
    ensures CellIndex(IntoU32(i)) == i
  {
  }

  /** The derived equality of the tuple struct is equality of the inner `u32`. */
  lemma IndexEquality(a: CellIndex, b: CellIndex)
    ensures a == b <==> a.value == b.value
  {
  }

  // ---- `Into<String>`: `format!("{}", v)`, the decimal rendering ----

  function DigitChar(d: nat): (c: char)
    requires d < 10
    ensures '0' <= c <= '9'
    ensures c as int - '0' as int == d
  {
    ('0' as int + d) as char
  }

  predicate IsDigits(s: string) {
    forall k :: 0 <= k < |s| ==> '0' <= s[k] <= '9'
  }

  /** Decimal digits of `n`, most significant first, without leading zeros. */
  function Decimal(n: nat): (s: string)
    ensures |s| >= 1 && IsDigits(s)
    ensures s[0] == '0' ==> n == 0 && s == "0"
  {
    if n < 10 then [DigitChar(n)] else Decimal(n / 10) + [DigitChar(n % 10)]
  }

  /** The number a string of decimal digits denotes. */
  function DecimalValue(s: string): nat
    requires IsDigits(s)
  {
    if s == [] then 0
    else DecimalValue(s[..|s| - 1]) * 10 + (s[|s| - 1] as int - '0' as int)
  }

  /** `Into<String>` for `CellIndex`. */
  function IntoString(i: CellIndex): (s: string)
    ensures IsDigits(s) && DecimalValue(s) == i.value
    ensures |s| >= 1 && (s[0] == '0' ==> s == "0")
  {
    DecimalRoundTrip(i.value);
    Decimal(i.value)
  }

  /** Reading back the rendering of `n` gives `n`. */
  lemma {:induction false} DecimalRoundTrip(n: nat)
    ensures DecimalValue(Decimal(n)) == n
  {
    var s := Decimal(n);
    if n >= 10 {
      DecimalRoundTrip(n / 10);
      assert s[..|s| - 1] == Decimal(n / 10);
    }
  }

  /** Distinct cell indices render as distinct strings. */
  lemma IntoStringInjective(a: CellIndex, b: CellIndex)
    ensures IntoString(a) == IntoString(b) <==> a == b
  {
  }
}

=== FILE: cells_run.dfy ===
/** Cell process runner of the closure-based generation
    (src/process_runner/cells/run.rs).

    A cell update pairs a target index with a function value `C -> C`.
    A process maps (cell, neighbours, global) to a pair of update lists.
    `RunProcesses` evaluates every process on every cell against the same
    input cells and global record, cell-major and process-minor;
    `ApplyCellUpdates` then folds the updates over the cell vector.

    The `CellStateBase` capability (`id()`) is the explicit parameter `idOf`. */
module CellsRun {
  import opened MachineInts
  import opened CellIndexState
  import opened Wrappers
  import GlobalRun

  /** `CellUpdate { action, target_cell }`; `CellUpdate::new` is this constructor. */
  datatype CellUpdate<!C> = CellUpdate(action: C -> C, targetCell: CellIndex)

  /** The pair of update lists a process returns. */
  type Updates<!C, !G> = (seq<CellUpdate<C>>, seq<GlobalRun.GlobalUpdate<G>>)

  /** `Process { id, func }`; `Process::new` is this constructor. */
  datatype Process<!C, !G> = Process(id: u32, func: (C, seq<C>, G) -> Updates<C, G>)

  /** Every update names an index below `n` (otherwise `modified_cells[id]` panics). */
  predicate TargetsIn<C>(updates: seq<CellUpdate<C>>, n: nat) {
    forall k :: 0 <= k < |updates| ==> updates[k].targetCell.value < n
  }

  // ---- applying updates ----

  /** Left fold: each update replaces its target with `action(current value)`. */
  function FoldCellUpdates<C>(cells: seq<C>, updates: seq<CellUpdate<C>>): (r: seq<C>)
    requires TargetsIn(updates, |cells|)
    ensures |r| == |cells|
    decreases |updates|
  {
    if updates == [] then cells
    else
      var id := updates[0].targetCell.value;
      FoldCellUpdates(cells[id := updates[0].action(cells[id])], updates[1..])
  }

  /** `apply_cell_updates`: overwrites `cells[target]` for each update in order. */
  method ApplyCellUpdates<C>(cellsIn: seq<C>, updates: seq<CellUpdate<C>>) returns (cells: seq<C>)
    requires TargetsIn(updates, |cellsIn|)
    ensures cells == FoldCellUpdates(cellsIn, updates)
  {
    cells := cellsIn;
    for i := 0 to |updates|
      invariant |cells| == |cellsIn|
      invariant FoldCellUpdates(cells, updates[i..]) == FoldCellUpdates(cellsIn, updates)
    {
      assert updates[i..][1..] == updates[i + 1..];
      var id := updates[i].targetCell.value;
      cells := cells[id := updates[i].action(cells[id])];
    }
  }

  /** The actions of the updates that target index `i`, in list order. */
  function ActionsOn<C>(updates: seq<CellUpdate<C>>, i: nat): seq<C -> C>
  {
    if updates == [] then []
    else (if updates[0].targetCell.value == i then [updates[0].action] else []) + ActionsOn(updates[1..], i)
  }

  /** Applies a list of functions left to right. */
  function Chain<C>(x: C, fs: seq<C -> C>): C
  {
    if fs == [] then x else Chain(fs[0](x), fs[1..])
  }

  /** Cell `i` ends up as its input value put through exactly the actions
      aimed at it, in list order; updates aimed elsewhere do not touch it. */
  lemma {:induction false} FoldCellUpdatesAt<C>(cells: seq<C>, updates: seq<CellUpdate<C>>, i: nat)
    requires TargetsIn(updates, |cells|) && i < |cells|
    ensures FoldCellUpdates(cells, updates)[i] == Chain(cells[i], ActionsOn(updates, i))
    decreases |updates|
  {
    if updates != [] {
      var id := updates[0].targetCell.value;
      var next := cells[id := updates[0].action(cells[id])];
      FoldCellUpdatesAt(next, updates[1..], i);
      if id == i {
        assert ActionsOn(updates, i) == [updates[0].action] + ActionsOn(updates[1..], i);
        assert ([updates[0].action] + ActionsOn(updates[1..], i))[1..] == ActionsOn(updates[1..], i);
      } else {
        assert ActionsOn(updates, i) == [] + ActionsOn(updates[1..], i) == ActionsOn(updates[1..], i);
      }
    }
  }

  lemma {:induction false} ActionsOnNone<C>(updates: seq<CellUpdate<C>>, i: nat)
    requires forall k :: 0 <= k < |updates| ==> updates[k].targetCell.value != i
    ensures ActionsOn(updates, i) == []
  {
    if updates != [] {
      ActionsOnNone(updates[1..], i);
    }
  }

  /** Cells that no update names are left unchanged. */
  lemma FoldLeavesUntargetedCells<C>(cells: seq<C>, updates: seq<CellUpdate<C>>, i: nat)
    requires TargetsIn(updates, |cells|) && i < |cells|
    requires forall k :: 0 <= k < |updates| ==> updates[k].targetCell.value != i
    ensures FoldCellUpdates(cells, updates)[i] == cells[i]
  {
    FoldCellUpdatesAt(cells, updates, i);
    ActionsOnNone(updates, i);
  }

  /** Fold-left: applying `us + vs` is applying `vs` to the result of `us`. */
  lemma {:induction false} FoldCellAppend<C>(cells: seq<C>, us: seq<CellUpdate<C>>, vs: seq<CellUpdate<C>>)
    requires TargetsIn(us, |cells|) && TargetsIn(vs, |cells|)
    ensures TargetsIn(us + vs, |cells|)
    ensures FoldCellUpdates(cells, us + vs) == FoldCellUpdates(FoldCellUpdates(cells, us), vs)
    decreases |us|
  {
    if us == [] {
      assert us + vs == vs;
    } else {
      var id := us[0].targetCell.value;
      assert (us + vs)[1..] == us[1..] + vs;
      FoldCellAppend(cells[id := us[0].action(cells[id])], us[1..], vs);
    }
  }

  // ---- running processes ----

  /** The network fits the cells: each cell's id indexes a network row, and
      that row names only valid cell offsets (otherwise the lookups panic). */
  predicate NetworkFits<C>(cells: seq<C>, network: seq<seq<CellIndex>>, idOf: C -> CellIndex) {
    forall i :: 0 <= i < |cells| ==>
      idOf(cells[i]).value < |network| &&
      forall k :: 0 <= k < |network[idOf(cells[i]).value]| ==> network[idOf(cells[i]).value][k].value < |cells|
  }

  /** `cells[id]` for each id of a network row, in row order. */
  function Neighbours<C>(cells: seq<C>, ids: seq<CellIndex>): (r: seq<C>)
    requires forall k :: 0 <= k < |ids| ==> ids[k].value < |cells|
    ensures |r| == |ids|
    ensures forall k :: 0 <= k < |ids| ==> r[k] == cells[ids[k].value]
  {
    seq(|ids|, k requires 0 <= k < |ids| => cells[ids[k].value])
  }

  /** The neighbours of the `i`-th cell: the cells its network row names. */
  function NeighboursOfCell<C>(cells: seq<C>, network: seq<seq<CellIndex>>, idOf: C -> CellIndex, i: nat): seq<C>
    requires NetworkFits(cells, network, idOf) && i < |cells|
  {
    Neighbours(cells, network[idOf(cells[i]).value])
  }

  /** `run_process`: the process function's own pair of update lists. */
  function RunProcess<C, G>(cell: C, process: Process<C, G>, neighbours: seq<C>, g: G): Updates<C, G>
  {
    process.func(cell, neighbours, g)
  }

  function Join<C, G>(a: Updates<C, G>, b: Updates<C, G>): Updates<C, G>
  {
    (a.0 + b.0, a.1 + b.1)
  }

  /** All processes on one cell, in registration order. */
  function RunOnCell<C, G>(cell: C, neighbours: seq<C>, processes: seq<Process<C, G>>, g: G): Updates<C, G>
  {
    if processes == [] then ([], [])
    else Join(RunOnCell(cell, neighbours, processes[..|processes| - 1], g),
              RunProcess(cell, processes[|processes| - 1], neighbours, g))
  }

  /** The updates of the first `n` cells: cell-major, process-minor, all
      evaluated against the same input cells and global record. */
  function CollectUpdates<C, G>(cells: seq<C>, network: seq<seq<CellIndex>>, processes: seq<Process<C, G>>,
                                g: G, idOf: C -> CellIndex, n: nat): Updates<C, G>
    requires NetworkFits(cells, network, idOf) && n <= |cells|
  {
    if n == 0 then ([], [])
    else Join(CollectUpdates(cells, network, processes, g, idOf, n - 1),
              RunOnCell(cells[n - 1], NeighboursOfCell(cells, network, idOf, n - 1), processes, g))
  }

  /** `run_processes`: nested loops appending each process's updates. */
  method RunProcesses<C, G>(cells: seq<C>, network: seq<seq<CellIndex>>, processes: seq<Process<C, G>>,
                            g: G, idOf: C -> CellIndex)
    returns (cellUpdates: seq<CellUpdate<C>>, globalUpdates: seq<GlobalRun.GlobalUpdate<G>>)
    requires NetworkFits(cells, network, idOf)
    ensures (cellUpdates, globalUpdates) == CollectUpdates(cells, network, processes, g, idOf, |cells|)
  {
    cellUpdates, globalUpdates := [], [];
    for i := 0 to |cells|
      invariant (cellUpdates, globalUpdates) == CollectUpdates(cells, network, processes, g, idOf, i)
    {
      var neighbours := Neighbours(cells, network[idOf(cells[i]).value]);
      ghost var before := (cellUpdates, globalUpdates);
      assert processes[..0] == [];
      assert before.0 + [] == before.0 && before.1 + [] == before.1;
      for j := 0 to |processes|
        invariant (cellUpdates, globalUpdates) == Join(before, RunOnCell(cells[i], neighbours, processes[..j], g))
      {
        assert processes[..j + 1][..j] == processes[..j];
        var updates := RunProcess(cells[i], processes[j], neighbours, g);
        ghost var soFar := RunOnCell(cells[i], neighbours, processes[..j], g);
        assert RunOnCell(cells[i], neighbours, processes[..j + 1], g) == Join(soFar, updates);
        assert before.0 + soFar.0 + updates.0 == before.0 + (soFar.0 + updates.0);
        assert before.1 + soFar.1 + updates.1 == before.1 + (soFar.1 + updates.1);
        cellUpdates := cellUpdates + updates.0;
        globalUpdates := globalUpdates + updates.1;
      }
      assert processes[..|processes|] == processes;
    }
  }

  /** `run_process_on_cells`: the same loop with a single process; the result
      is that of `run_processes` with a one-element process list. */
  method RunProcessOnCells<C, G>(cells: seq<C>, network: seq<seq<CellIndex>>, process: Process<C, G>,
                                 g: G, idOf: C -> CellIndex)
    returns (cellUpdates: seq<CellUpdate<C>>, globalUpdates: seq<GlobalRun.GlobalUpdate<G>>)
    requires NetworkFits(cells, network, idOf)
    ensures (cellUpdates, globalUpdates) == CollectUpdates(cells, network, [process], g, idOf, |cells|)
  {
    cellUpdates, globalUpdates := [], [];
    for i := 0 to |cells|
      invariant (cellUpdates, globalUpdates) == CollectUpdates(cells, network, [process], g, idOf, i)
    {
      var neighbours := Neighbours(cells, network[idOf(cells[i]).value]);
      assert [process][..0] == [];
      var updates := RunProcess(cells[i], process, neighbours, g);
      assert RunOnCell(cells[i], neighbours, [process], g) == Join(([], []), updates);
      assert [] + updates.0 == updates.0 && [] + updates.1 == updates.1;
      cellUpdates := cellUpdates + updates.0;
      globalUpdates := globalUpdates + updates.1;
    }
  }

  /** Splitting the process list splits each cell's updates the same way. */
  lemma {:induction false} RunOnCellAppend<C, G>(cell: C, neighbours: seq<C>, ps: seq<Process<C, G>>,
                                                 qs: seq<Process<C, G>>, g: G)
    ensures RunOnCell(cell, neighbours, ps + qs, g)
         == Join(RunOnCell(cell, neighbours, ps, g), RunOnCell(cell, neighbours, qs, g))
  {
    if qs == [] {
      assert ps + qs == ps;
      var a := RunOnCell(cell, neighbours, ps, g);
      assert a.0 + [] == a.0 && a.1 + [] == a.1;
    } else {
      var qs' := qs[..|qs| - 1];
      assert (ps + qs)[..|ps + qs| - 1] == ps + qs';
      assert (ps + qs)[|ps + qs| - 1] == qs[|qs| - 1];
      RunOnCellAppend(cell, neighbours, ps, qs', g);
      var a := RunOnCell(cell, neighbours, ps, g);
      var b := RunOnCell(cell, neighbours, qs', g);
      var l := RunProcess(cell, qs[|qs| - 1], neighbours, g);
      assert a.0 + b.0 + l.0 == a.0 + (b.0 + l.0);
      assert a.1 + b.1 + l.1 == a.1 + (b.1 + l.1);
    }
  }

  /** `run_process_on_cells` per cell: a one-process list yields exactly
      that process's pair. */
  lemma RunOnCellSingle<C, G>(cell: C, neighbours: seq<C>, p: Process<C, G>, g: G)
    ensures RunOnCell(cell, neighbours, [p], g) == RunProcess(cell, p, neighbours, g)
  {
    assert [p][..0] == [];
    var u := RunProcess(cell, p, neighbours, g);
    assert [] + u.0 == u.0 && [] + u.1 == u.1;
  }

  /** The first cell's updates come first, with nothing before them. */
  lemma CollectUpdatesFirst<C, G>(cells: seq<C>, network: seq<seq<CellIndex>>, processes: seq<Process<C, G>>,
                                  g: G, idOf: C -> CellIndex)
    requires NetworkFits(cells, network, idOf) && |cells| >= 1
    ensures CollectUpdates(cells, network, processes, g, idOf, 1)
         == RunOnCell(cells[0], NeighboursOfCell(cells, network, idOf, 0), processes, g)
  {
    var u := RunOnCell(cells[0], NeighboursOfCell(cells, network, idOf, 0), processes, g);
    assert [] + u.0 == u.0 && [] + u.1 == u.1;
  }

  /** Every process answers every cell with exactly one cell update and one
      global update. */
  predicate EmitsOneEach<C, G>(cells: seq<C>, network: seq<seq<CellIndex>>, processes: seq<Process<C, G>>,
                               g: G, idOf: C -> CellIndex)
    requires NetworkFits(cells, network, idOf)
  {
    forall i, j :: 0 <= i < |cells| && 0 <= j < |processes| ==>
      |processes[j].func(cells[i], NeighboursOfCell(cells, network, idOf, i), g).0| == 1 &&
      |processes[j].func(cells[i], NeighboursOfCell(cells, network, idOf, i), g).1| == 1
  }

  lemma {:induction false} RunOnCellOneEach<C, G>(cell: C, neighbours: seq<C>, processes: seq<Process<C, G>>, g: G)
    requires forall j :: 0 <= j < |processes| ==>
               |processes[j].func(cell, neighbours, g).0| == 1 && |processes[j].func(cell, neighbours, g).1| == 1
    ensures |RunOnCell(cell, neighbours, processes, g).0| == |processes|
    ensures |RunOnCell(cell, neighbours, processes, g).1| == |processes|
    ensures forall j :: 0 <= j < |processes| ==>
              RunOnCell(cell, neighbours, processes, g).0[j] == processes[j].func(cell, neighbours, g).0[0] &&
              RunOnCell(cell, neighbours, processes, g).1[j] == processes[j].func(cell, neighbours, g).1[0]
  {
    if processes != [] {
      RunOnCellOneEach(cell, neighbours, processes[..|processes| - 1], g);
    }
  }

  lemma {:induction false} CollectUpdatesLength<C, G>(cells: seq<C>, network: seq<seq<CellIndex>>,
                                                      processes: seq<Process<C, G>>, g: G, idOf: C -> CellIndex, n: nat)
    requires NetworkFits(cells, network, idOf) && n <= |cells|
    requires EmitsOneEach(cells, network, processes, g, idOf)
    ensures |CollectUpdates(cells, network, processes, g, idOf, n).0| == n * |processes|
    ensures |CollectUpdates(cells, network, processes, g, idOf, n).1| == n * |processes|
  {
    if n > 0 {
      CollectUpdatesLength(cells, network, processes, g, idOf, n - 1);
      var nb := NeighboursOfCell(cells, network, idOf, n - 1);
      forall j | 0 <= j < |processes|
        ensures |processes[j].func(cells[n - 1], nb, g).0| == 1 && |processes[j].func(cells[n - 1], nb, g).1| == 1
      {
      }
      RunOnCellOneEach(cells[n - 1], nb, processes, g);
      assert (n - 1) * |processes| + |processes| == n * |processes|;
    }
  }

  lemma {:induction false} CollectUpdatesAt<C, G>(cells: seq<C>, network: seq<seq<CellIndex>>,
                                                  processes: seq<Process<C, G>>, g: G, idOf: C -> CellIndex,
                                                  n: nat, i: nat, j: nat)
    requires NetworkFits(cells, network, idOf) && n <= |cells|
    requires EmitsOneEach(cells, network, processes, g, idOf)
    requires i < n && j < |processes|
    ensures |CollectUpdates(cells, network, processes, g, idOf, n).0| == n * |processes|
    ensures |CollectUpdates(cells, network, processes, g, idOf, n).1| == n * |processes|
    ensures i * |processes| + j < n * |processes|
    ensures |processes[j].func(cells[i], NeighboursOfCell(cells, network, idOf, i), g).0| == 1
    ensures |processes[j].func(cells[i], NeighboursOfCell(cells, network, idOf, i), g).1| == 1
    ensures CollectUpdates(cells, network, processes, g, idOf, n).0[i * |processes| + j]
            == processes[j].func(cells[i], NeighboursOfCell(cells, network, idOf, i), g).0[0]
    ensures CollectUpdates(cells, network, processes, g, idOf, n).1[i * |processes| + j]
            == processes[j].func(cells[i], NeighboursOfCell(cells, network, idOf, i), g).1[0]
  {
    var p := |processes|;
    CollectUpdatesLength(cells, network, processes, g, idOf, n);
    CollectUpdatesLength(cells, network, processes, g, idOf, n - 1);
    assert (n - 1) * p + p == n * p;
    if i < n - 1 {
      CollectUpdatesAt(cells, network, processes, g, idOf, n - 1, i, j);
    } else {
      var nb := NeighboursOfCell(cells, network, idOf, n - 1);
      forall j' | 0 <= j' < p
        ensures |processes[j'].func(cells[n - 1], nb, g).0| == 1 && |processes[j'].func(cells[n - 1], nb, g).1| == 1
      {
      }
      RunOnCellOneEach(cells[n - 1], nb, processes, g);
    }
  }

  /** Cell-major, process-minor: when every process emits one update of each
      kind, the updates of process `j` on cell `i` sit at `i * |processes| + j`. */
  lemma CollectUpdatesOrder<C, G>(cells: seq<C>, network: seq<seq<CellIndex>>,
                                  processes: seq<Process<C, G>>, g: G, idOf: C -> CellIndex)
    requires NetworkFits(cells, network, idOf)
    requires EmitsOneEach(cells, network, processes, g, idOf)
    ensures |CollectUpdates(cells, network, processes, g, idOf, |cells|).0| == |cells| * |processes|
    ensures |CollectUpdates(cells, network, processes, g, idOf, |cells|).1| == |cells| * |processes|
    ensures forall i, j :: 0 <= i < |cells| && 0 <= j < |processes| ==>
              i * |processes| + j < |cells| * |processes| &&
              |processes[j].func(cells[i], NeighboursOfCell(cells, network, idOf, i), g).0| == 1 &&
              |processes[j].func(cells[i], NeighboursOfCell(cells, network, idOf, i), g).1| == 1 &&
              CollectUpdates(cells, network, processes, g, idOf, |cells|).0[i * |processes| + j]
                == processes[j].func(cells[i], NeighboursOfCell(cells, network, idOf, i), g).0[0] &&
              CollectUpdates(cells, network, processes, g, idOf, |cells|).1[i * |processes| + j]
                == processes[j].func(cells[i], NeighboursOfCell(cells, network, idOf, i), g).1[0]
  {
    CollectUpdatesLength(cells, network, processes, g, idOf, |cells|);
    forall i, j | 0 <= i < |cells| && 0 <= j < |processes|
      ensures i * |processes| + j < |cells| * |processes|
      ensures |processes[j].func(cells[i], NeighboursOfCell(cells, network, idOf, i), g).0| == 1
      ensures |processes[j].func(cells[i], NeighboursOfCell(cells, network, idOf, i), g).1| == 1
      ensures CollectUpdates(cells, network, processes, g, idOf, |cells|).0[i * |processes| + j]
                == processes[j].func(cells[i], NeighboursOfCell(cells, network, idOf, i), g).0[0]
      ensures CollectUpdates(cells, network, processes, g, idOf, |cells|).1[i * |processes| + j]
                == processes[j].func(cells[i], NeighboursOfCell(cells, network, idOf, i), g).1[0]
    {
      CollectUpdatesAt(cells, network, processes, g, idOf, |cells|, i, j);
    }
  }

  // ---- per-process (serial) mode, as a composition ----

  /** Per-process mode built from the pieces above: each process in turn is
      run on all cells (`RunProcessOnCells`) and its cell updates are applied
      (`ApplyCellUpdates`) before the next process runs; the global updates
      are collected in order. `None` when a step's network or targets do not
      fit the cells (the source would panic). */
  function RunSerial<C, G>(cells: seq<C>, network: seq<seq<CellIndex>>, processes: seq<Process<C, G>>,
                           g: G, idOf: C -> CellIndex): (r: Option<(seq<C>, seq<GlobalRun.GlobalUpdate<G>>)>)
    ensures r.Some? ==> |r.value.0| == |cells|
    decreases |processes|
  {
    if processes == [] then Some((cells, []))
    else if !NetworkFits(cells, network, idOf) then None
    else
      var step := CollectUpdates(cells, network, [processes[0]], g, idOf, |cells|);
      if !TargetsIn(step.0, |cells|) then None
      else match RunSerial(FoldCellUpdates(cells, step.0), network, processes[1..], g, idOf)
        case None => None
        case Some(rest) => Some((rest.0, step.1 + rest.1))
  }

  /** Batch mode: all processes evaluated on the input cells, then one fold. */
  function RunBatch<C, G>(cells: seq<C>, network: seq<seq<CellIndex>>, processes: seq<Process<C, G>>,
                          g: G, idOf: C -> CellIndex): (r: Option<(seq<C>, seq<GlobalRun.GlobalUpdate<G>>)>)
    ensures r.Some? ==> |r.value.0| == |cells|
  {
    if !NetworkFits(cells, network, idOf) then None
    else
      var all := CollectUpdates(cells, network, processes, g, idOf, |cells|);
      if !TargetsIn(all.0, |cells|) then None else Some((FoldCellUpdates(cells, all.0), all.1))
  }

  /** With a single process the two modes coincide. */
  lemma SerialSingleIsBatch<C, G>(cells: seq<C>, network: seq<seq<CellIndex>>, p: Process<C, G>,
                                  g: G, idOf: C -> CellIndex)
    ensures RunSerial(cells, network, [p], g, idOf) == RunBatch(cells, network, [p], g, idOf)
  {
    assert [p][1..] == [];
    if NetworkFits(cells, network, idOf) {
      var step := CollectUpdates(cells, network, [p], g, idOf, |cells|);
      assert step.1 + [] == step.1;
    }
  }
}

=== FILE: example_processes.dfy ===
/** Example processes of the closure-based generation
    (src/process_runner/examples/example_processes.rs).

    These processes take (cell, neighbours) and return cell updates only;
    `AsRunnerProcess` lifts one to the runner's (cell, neighbours, global)
    shape with no global updates. */
module ExampleProcesses {
  import opened MachineInts
  import opened CellIndexState
  import opened ExampleState
  import CellsRun

  type Update = CellsRun.CellUpdate<CellState>

  /** `Process<CellState>` of this file: an id and a cell-only function. */
  datatype CellProcess = CellProcess(id: u32, func: (CellState, seq<CellState>) -> seq<Update>)

  /** `(p as f64 / 10.0).floor() as u32`: exact for every `u32`, so integer division. */
  function FloorTenth(p: nat): (r: nat)
    ensures 10 * r <= p < 10 * r + 10
  {
    p / 10
  }

  /** `(p as f64 / 10.0).ceil() as u32`. */
  function CeilTenth(p: nat): (r: nat)
    ensures 10 * r - 10 < p <= 10 * r
  {
    (p + 9) / 10
  }

  /** The action of `example_process`: adds a tenth (rounded down) of the
      population of the cell it is applied to. */
  function GrowByTenth(c: CellState): CellState
  {
    c.(population := c.population + FloorTenth(c.population))
  }

  /** `example_process`: one update aimed at the processed cell itself. */
  function ExampleProcess(cell: CellState, neighbours: seq<CellState>): seq<Update>
  {
    [CellsRun.CellUpdate(GrowByTenth, cell.id)]
  }

  /** One update, aimed at the cell's own id; the amount added is the
      rounded-down tenth of the population found at APPLY time, and nothing
      else about the cell changes. */
  lemma ExampleProcessShape(cell: CellState, neighbours: seq<CellState>, c: CellState)
    ensures |ExampleProcess(cell, neighbours)| == 1
    ensures ExampleProcess(cell, neighbours)[0].targetCell == cell.id
    ensures var d := ExampleProcess(cell, neighbours)[0].action(c).population - c.population;
            10 * d <= c.population < 10 * d + 10
    ensures ExampleProcess(cell, neighbours)[0].action(c).(population := c.population) == c
  {
  }

  /** The action does not depend on the snapshot the process saw: two
      snapshots give the same action. */
  lemma ExampleProcessIgnoresSnapshot(s: CellState, t: CellState, ns: seq<CellState>, nt: seq<CellState>, c: CellState)
    ensures ExampleProcess(s, ns)[0].action(c) == ExampleProcess(t, nt)[0].action(c)
  {
  }

  /** The migration amount: the sum of the rounded-up tenths of the
      neighbours' populations, in neighbour order. */
  function Movement(neighbours: seq<CellState>): nat
  {
    if neighbours == [] then 0
    else Movement(neighbours[..|neighbours| - 1]) + CeilTenth(neighbours[|neighbours| - 1].population)
  }

  /** The total population of a list of cells. */
  function TotalPopulation(cells: seq<CellState>): nat
  {
    if cells == [] then 0 else TotalPopulation(cells[..|cells| - 1]) + cells[|cells| - 1].population
  }

  /** Rounding each tenth up: the movement is at least a tenth of the total
      and overshoots it by less than one per neighbour. */
  lemma {:induction false} MovementBounds(neighbours: seq<CellState>)
    ensures TotalPopulation(neighbours) <= 10 * Movement(neighbours)
    ensures neighbours != [] ==> 10 * Movement(neighbours) < TotalPopulation(neighbours) + 10 * |neighbours|
  {
    if neighbours != [] {
      MovementBounds(neighbours[..|neighbours| - 1]);
    }
  }

  /** The `movement` accumulator loop of `population_migration`. */
  method MigrationMovement(neighbours: seq<CellState>) returns (movement: nat)
    ensures movement == Movement(neighbours)
  {
    movement := 0;
    for k := 0 to |neighbours|
      invariant movement == Movement(neighbours[..k])
    {
      assert neighbours[..k + 1][..k] == neighbours[..k];
      movement := movement + CeilTenth(neighbours[k].population);
    }
    assert neighbours[..|neighbours|] == neighbours;
  }

  /** The action of `population_migration`: adds an amount captured at process time. */
  function AddPopulation(amount: nat): CellState -> CellState
  {
    (c: CellState) => c.(population := c.population + amount)
  }

  /** `population_migration` as a value: one update aimed at the cell itself. */
  function PopulationMigrationSpec(cell: CellState, neighbours: seq<CellState>): seq<Update>
  {
    [CellsRun.CellUpdate(AddPopulation(Movement(neighbours)), cell.id)]
  }

  /** `population_migration`: the loop, then the update with the captured movement. */
  method PopulationMigration(cell: CellState, neighbours: seq<CellState>) returns (updates: seq<Update>)
    ensures |updates| == 1 && updates[0].targetCell == cell.id
    ensures forall c :: updates[0].action(c) == c.(population := c.population + Movement(neighbours))
    ensures updates == PopulationMigrationSpec(cell, neighbours)
  {
    var movement := MigrationMovement(neighbours);
    updates := [CellsRun.CellUpdate(AddPopulation(movement), cell.id)];
  }

  /** The captured amount is fixed at process time: whatever cell the action
      is applied to gains exactly `Movement(neighbours)`. */
  lemma MigrationAddsMovement(cell: CellState, neighbours: seq<CellState>, c: CellState)
    ensures |PopulationMigrationSpec(cell, neighbours)| == 1
    ensures PopulationMigrationSpec(cell, neighbours)[0].targetCell == cell.id
    ensures PopulationMigrationSpec(cell, neighbours)[0].action(c).population - c.population == Movement(neighbours)
    ensures PopulationMigrationSpec(cell, neighbours)[0].action(c).(population := c.population) == c
  {
  }

  /** With no neighbours the migration update changes nothing. */
  lemma MigrationWithoutNeighbours(cell: CellState, c: CellState)
    ensures PopulationMigrationSpec(cell, [])[0].action(c) == c
  {
  }

  /** `default_processes`: `example_process` with id 0, then
      `population_migration` with id 1. */
  function DefaultProcesses(): (ps: seq<CellProcess>)
    ensures |ps| == 2 && ps[0].id == 0 && ps[1].id == 1
  {
    [CellProcess(0, ExampleProcess), CellProcess(1, PopulationMigrationSpec)]
  }

  /** A cell-only process run by the generic runner: no global updates. */
  function AsRunnerProcess(p: CellProcess): (r: CellsRun.Process<CellState, GlobalState>)
    ensures r.id == p.id
    ensures forall c, nb, g :: r.func(c, nb, g) == (p.func(c, nb), [])
  {
    CellsRun.Process(p.id, (c, nb, g) => (p.func(c, nb), []))
  }
}

=== FILE: example_state.dfy ===
/** Example cell and global records of the closure-based generation
    (src/process_runner/examples/example_state.rs).

    Populations are unbounded naturals here: the closures that change them
    are total function values, which cannot carry a no-overflow precondition. */
module ExampleState {
  import opened MachineInts
  import opened CellIndexState
  import opened Wrappers

  /** The example cell: identity, position, population and a list of resident ids. */
  datatype CellState = CellState(id: CellIndex, position: Point, population: nat, peepIds: seq<u32>)

  /** The resident ids every constructor installs. */
  const DefaultPeepIds: seq<u32> := [1, 2, 3]

  /** `CellState::default()`. */
  function DefaultCell(): (c: CellState)
    ensures c.id == CellIndex(0) && c.position == Origin
    ensures c.population == 0 && c.peepIds == [1, 2, 3]
  {
    CellState(CellIndex(0), Origin, 0, DefaultPeepIds)
  }

  /** `CellState::new(id, pos, population)`: a missing position is the origin
      and a missing population is 0. */
  function NewCell(id: u32, pos: Option<Point>, population: Option<u32>): (c: CellState)
    ensures c.id == CellIndex(id) && c.peepIds == [1, 2, 3]
    ensures pos.Some? ==> c.position == pos.value
    ensures pos.None? ==> c.position == Origin
    ensures population.Some? ==> c.population == population.value
    ensures population.None? ==> c.population == 0
  {
    CellState(CellIndex(id),
              if pos.Some? then pos.value else Origin,
              if population.Some? then population.value else 0,
              DefaultPeepIds)
  }

  /** `CellStateBase::id`: the stored id. */
  function IdOf(c: CellState): CellIndex
  {
    c.id
  }

  /** `CellStateBase::position`: the stored position. */
  function PositionOf(c: CellState): Point
  {
    c.position
  }

  /** The capability reads back what the constructor stored. */
  lemma IdOfNewCell(id: u32, pos: Option<Point>, population: Option<u32>)
    ensures IdOf(NewCell(id, pos, population)) == CellIndex(id)
    ensures IdOf(NewCell(id, pos, population)).value == id
    ensures pos.Some? ==> PositionOf(NewCell(id, pos, population)) == pos.value
  {
  }

  /** `new` with id 0 and nothing else given is the default cell. */
  lemma NewCellDefaults()
    ensures NewCell(0, None, None) == DefaultCell()
    ensures NewCell(0, Some(Origin), Some(0)) == DefaultCell()
  {
  }

  /** The unit test of `new`: id 0 at the origin with population 10. */
  lemma NewCellExample()
    ensures NewCell(0, Some(Point(0.0, 0.0)), Some(10)) == CellState(CellIndex(0), Point(0.0, 0.0), 10, [1, 2, 3])
  {
  }

  /** The example global record: an iteration counter and a population. */
  datatype GlobalState = GlobalState(iterations: nat, population: nat)

  /** `GlobalState::default()` (derived): every field zero. */
  function DefaultGlobal(): (g: GlobalState)
    ensures g.iterations == 0 && g.population == 0
  {
    GlobalState(0, 0)
  }

  /** `GlobalState::new(population)`: the counter starts at 1, not 0. */
  function NewGlobal(population: u32): (g: GlobalState)
    ensures g.iterations == 1 && g.population == population
  {
    GlobalState(1, population)
  }

  /** `new` differs from `default` exactly in the counter (and the population it is given). */
  lemma NewGlobalVersusDefault(p: u32)
    ensures NewGlobal(p) != DefaultGlobal()
    ensures NewGlobal(p).(iterations := 0) == DefaultGlobal() <==> p == 0
  {
  }
}

=== FILE: first_runner.dfy ===
/** The earliest Rust runner (src/run_model.rs).

    A process sees only its own cell and returns one update; the updates of
    all (cell, process) pairs are queued cell-major and then applied as
    `cells[target].population += value`. `get_network_map` lists, for each
    cell, every cell with another id. Overflows and out-of-range indices
    would panic; the model returns `None` for those. */
module FirstRunner {
  import opened MachineInts
  import opened Wrappers
  import Network
  import IntegerRunner

  type GlobalData = IntegerRunner.GlobalData
  type CellUpdate = IntegerRunner.CellUpdate

  /** `CellState { id, population }`. */
  datatype CellState = CellState(id: u32, population: u32)

  /** `IterationState { global_data, cells }`. */
  datatype IterationState = IterationState(globalData: GlobalData, cells: seq<CellState>)

  /** `Process { id, func }`: the function sees one cell. */
  datatype Process = Process(id: u32, func: CellState -> CellUpdate)

  function IdOf(c: CellState): u32 { c.id }

  /** The test of `get_network_map`: every cell with a different id. */
  function DifferentId(a: CellState, b: CellState): bool { a.id != b.id }

  /** `get_network_map`: for each cell, the ids of the cells with another
      id, in cell order. */
  method GetNetworkMap(cells: seq<CellState>) returns (network: seq<seq<u32>>)
    ensures network == Network.NetworkMap(cells, DifferentId, IdOf)
    ensures |network| == |cells|
    ensures forall i, x :: 0 <= i < |cells| && x in network[i] ==> x != cells[i].id
  {
    network := Network.GetNetworkMap(cells, DifferentId, IdOf);
    forall i, x | 0 <= i < |cells| && x in network[i]
      ensures x != cells[i].id
    {
      Network.NeighbourIdsMembership(cells[i], cells, DifferentId, IdOf, x);
    }
  }

  /** A cell's list holds exactly the ids of the other cells. */
  lemma NetworkListsOthers(cells: seq<CellState>, i: nat, x: u32)
    requires i < |cells|
    ensures x in Network.NetworkMap(cells, DifferentId, IdOf)[i]
        <==> x != cells[i].id && exists k :: 0 <= k < |cells| && cells[k].id == x
  {
    Network.NeighbourIdsMembership(cells[i], cells, DifferentId, IdOf, x);
  }

  /** The unit test: two cells with ids 0 and 1 give `[[1], [0]]`. */
  lemma TwoCellNetwork()
    ensures Network.NetworkMap([CellState(0, 12), CellState(1, 40)], DifferentId, IdOf) == [[1], [0]]
  {
    var c0 := CellState(0, 12);
    var c1 := CellState(1, 40);
    var cells := [c0, c1];
    assert cells[..1] == [c0] && cells[..1][..0] == [];
    assert cells[..|cells| - 1] == [c0];
    assert Network.NeighbourIds(c0, [c0], DifferentId, IdOf) == [];
    assert Network.NeighbourIds(c1, [c0], DifferentId, IdOf) == [0];
    assert Network.NeighbourIds(c0, cells, DifferentId, IdOf) == [1];
    assert Network.NeighbourIds(c1, cells, DifferentId, IdOf) == [0];
  }

  /** `run_process`: the update of one process on one cell. */
  function RunProcess(cell: CellState, p: Process): CellUpdate
  {
    p.func(cell)
  }

  /** The queue of the first loop: for each cell in order, one update per
      process in order. */
  function Queue(cells: seq<CellState>, processes: seq<Process>): seq<CellUpdate>
  {
    if cells == [] then []
    else Queue(cells[..|cells| - 1], processes)
         + seq(|processes|, j requires 0 <= j < |processes| => RunProcess(cells[|cells| - 1], processes[j]))
  }

  /** The first loop of `run_iteration`. */
  method QueueUpdates(cells: seq<CellState>, processes: seq<Process>) returns (updates: seq<CellUpdate>)
    ensures updates == Queue(cells, processes)
  {
    updates := [];
    for i := 0 to |cells|
      invariant updates == Queue(cells[..i], processes)
    {
      assert cells[..i + 1][..i] == cells[..i];
      ghost var before := updates;
      for j := 0 to |processes|
        invariant |updates| == |before| + j
        invariant updates[..|before|] == before
        invariant forall k :: 0 <= k < j ==> updates[|before| + k] == RunProcess(cells[i], processes[k])
      {
        updates := updates + [RunProcess(cells[i], processes[j])];
      }
      assert updates == before + seq(|processes|, j requires 0 <= j < |processes| => RunProcess(cells[i], processes[j]));
    }
    assert cells[..|cells|] == cells;
  }

  /** Exactly one update per (cell, process) pair, cell-major: the update
      of process `j` on cell `c` sits at `Offset(c, |processes|) + j`, that
      is `c * |processes| + j`. */
  lemma {:induction false} QueueOrder(cells: seq<CellState>, processes: seq<Process>, c: nat, j: nat)
    requires c < |cells| && j < |processes|
    ensures |Queue(cells, processes)| == IntegerRunner.Offset(|cells|, |processes|)
    ensures IntegerRunner.Offset(c, |processes|) + j < |Queue(cells, processes)|
    ensures Queue(cells, processes)[IntegerRunner.Offset(c, |processes|) + j] == RunProcess(cells[c], processes[j])
  {
    var n := |cells| - 1;
    var init := cells[..n];
    QueueLength(cells, processes);
    QueueLength(init, processes);
    if c < n {
      QueueOrder(init, processes, c, j);
      assert init[c] == cells[c];
    }
  }

  lemma {:induction false} QueueLength(cells: seq<CellState>, processes: seq<Process>)
    ensures |Queue(cells, processes)| == IntegerRunner.Offset(|cells|, |processes|)
  {
    if cells != [] {
      QueueLength(cells[..|cells| - 1], processes);
    }
  }

  /** The second loop of `run_iteration` in `src/run_model.rs`, as a function:
      the additions in order, with a panic on a missing cell or an
      overflowing population. `src/process_runner/mod.rs` repeats this loop
      as `IntegerRunner.ApplyFrom`. */
  function ApplyFrom(cells: seq<CellState>, updates: seq<CellUpdate>): (r: Option<seq<CellState>>)
    ensures r.Some? ==> |r.value| == |cells|
    decreases |updates|
  {
    if updates == [] then Some(cells)
    else
      var t := updates[0].targetCell;
      if t >= |cells| || cells[t].population + updates[0].value > U32_MAX then None
      else ApplyFrom(cells[t := cells[t].(population := cells[t].population + updates[0].value)], updates[1..])
  }

  /** The second loop of `run_iteration` in `src/run_model.rs` (repeated in
      `src/process_runner/mod.rs` as `IntegerRunner.ApplyUpdates`). */
  method ApplyUpdates(input: seq<CellState>, updates: seq<CellUpdate>) returns (applied: Option<seq<CellState>>)
    ensures applied == ApplyFrom(input, updates)
  {
    var cells := input;
    for k := 0 to |updates|
      invariant ApplyFrom(cells, updates[k..]) == ApplyFrom(input, updates)
    {
      assert updates[k..][1..] == updates[k + 1..];
      var t := updates[k].targetCell;
      if t >= |cells| || cells[t].population + updates[k].value > U32_MAX {
        return None;
      }
      cells := cells[t := cells[t].(population := cells[t].population + updates[k].value)];
    }
    assert updates[|updates|..] == [];
    applied := Some(cells);
  }

  /** Applying succeeds exactly when every target exists and no cell's
      final population leaves `u32`; then each cell gains exactly the values
      aimed at it and keeps its id. */
  lemma {:induction false} ApplyFromAdds(cells: seq<CellState>, updates: seq<CellUpdate>)
    ensures ApplyFrom(cells, updates).Some? <==>
              (forall k :: 0 <= k < |updates| ==> updates[k].targetCell < |cells|) &&
              (forall i :: 0 <= i < |cells| ==> cells[i].population + IntegerRunner.TargetSum(updates, i) <= U32_MAX)
    ensures ApplyFrom(cells, updates).Some? ==>
              forall i :: 0 <= i < |cells| ==>
                ApplyFrom(cells, updates).value[i]
                  == CellState(cells[i].id, cells[i].population + IntegerRunner.TargetSum(updates, i))
    decreases |updates|
  {
    if updates != [] {
      var t := updates[0].targetCell;
      var v := updates[0].value;
      var rest := updates[1..];
      assert forall k :: 1 <= k < |updates| ==> updates[k] == rest[k - 1];
      if t >= |cells| {
      } else if cells[t].population + v > U32_MAX {
        assert cells[t].population + IntegerRunner.TargetSum(updates, t) > U32_MAX;
      } else {
        var next := cells[t := cells[t].(population := cells[t].population + v)];
        ApplyFromAdds(next, rest);
        assert forall i :: 0 <= i < |cells| ==>
          next[i].population + IntegerRunner.TargetSum(rest, i) == cells[i].population + IntegerRunner.TargetSum(updates, i);
        if (forall k :: 0 <= k < |updates| ==> updates[k].targetCell < |cells|) {
          assert forall k :: 0 <= k < |rest| ==> rest[k] == updates[k + 1];
        }
      }
    }
  }

  /** What `run_iteration` produces. */
  function IterationResult(processes: seq<Process>, input: IterationState): Option<IterationState>
  {
    if input.globalData.iterations == U32_MAX then None
    else match ApplyFrom(input.cells, Queue(input.cells, processes))
      case None => None
      case Some(cells) => Some(IterationState(IntegerRunner.GlobalData(input.globalData.iterations + 1), cells))
  }

  /** `run_iteration`: count the iteration, queue, apply. */
  method RunIteration(processes: seq<Process>, input: IterationState) returns (output: Option<IterationState>)
    ensures output == IterationResult(processes, input)
    ensures output.Some? ==> output.value.globalData.iterations == input.globalData.iterations + 1
  {
    if input.globalData.iterations == U32_MAX {
      return None;
    }
    var newGlobal := IntegerRunner.GlobalData(input.globalData.iterations + 1);
    var updates := QueueUpdates(input.cells, processes);
    var cells := ApplyUpdates(input.cells, updates);
    if cells.None? {
      return None;
    }
    output := Some(IterationState(newGlobal, cells.value));
  }

  /** `example_process`: a tenth of the cell's population, to itself. */
  function ExampleProcess(cell: CellState): (u: CellUpdate)
    ensures u.targetCell == cell.id && u.action == IntegerRunner.ADD
    ensures 10 * u.value <= cell.population < 10 * u.value + 10
  {
    IntegerRunner.CellUpdate(IntegerRunner.ADD, cell.id, cell.population / 10)
  }

  /** The unit test: with the example process alone, 12 and 40 become 13
      and 44, and the counter goes from 0 to 1. */
  lemma TwoCellIteration()
    ensures IterationResult([Process(0, ExampleProcess)],
                            IterationState(IntegerRunner.GlobalData(0), [CellState(0, 12), CellState(1, 40)]))
         == Some(IterationState(IntegerRunner.GlobalData(1), [CellState(0, 13), CellState(1, 44)]))
  {
    var cells := [CellState(0, 12), CellState(1, 40)];
    var ps := [Process(0, ExampleProcess)];
    var u0 := IntegerRunner.CellUpdate(IntegerRunner.ADD, 0, 1);
    var u1 := IntegerRunner.CellUpdate(IntegerRunner.ADD, 1, 4);
    QueueOrder(cells, ps, 0, 0);
    QueueOrder(cells, ps, 1, 0);
    var q := Queue(cells, ps);
    assert q[0] == u0 && q[1] == u1;
    assert q == [u0, u1];
    assert q[1..] == [u1];
    assert [u1][1..] == [];
    assert IntegerRunner.TargetSum([], 0) == 0 && IntegerRunner.TargetSum([], 1) == 0;
    assert IntegerRunner.TargetSum([u1], 0) == 0;
    assert IntegerRunner.TargetSum([u1], 1) == 4;
    assert IntegerRunner.TargetSum(q, 0) == 1;
    assert IntegerRunner.TargetSum(q, 1) == 4;
    ApplyFromAdds(cells, q);
    var after := ApplyFrom(cells, q).value;
    assert after[0] == CellState(0, 13) && after[1] == CellState(1, 44);
    assert after == [CellState(0, 13), CellState(1, 44)];
  }
}

=== FILE: global_run.dfy ===
/** Global process runner of the closure-based generation
    (src/process_runner/global/run.rs).

    A global update is a labelled function value `G -> G`; a global process
    maps the cell collection and the global record to a list of such updates.
    Running processes only collects updates; applying them is a separate
    left fold over the single global record. */
module GlobalRun {
  import opened MachineInts
  import opened CellIndexState

  /** `GlobalUpdate { id, action }`: `id` is a label for tracing and tests. */
  datatype GlobalUpdate<!G> = GlobalUpdate(id: string, action: G -> G)

  /** `Process { id, func }` of the global runner; `Process::new` is this constructor. */
  datatype Process<!C, !G> = Process(id: u32, func: (seq<C>, G) -> seq<GlobalUpdate<G>>)

  // ---- applying updates ----

  /** Left fold of the update actions over the global record, first update first. */
  function FoldGlobalUpdates<G>(g: G, updates: seq<GlobalUpdate<G>>): G
  {
    if updates == [] then g else FoldGlobalUpdates(updates[0].action(g), updates[1..])
  }

  /** `apply_global_updates`: reassigns the state with each action in list order. */
  method ApplyGlobalUpdates<G>(globalIn: G, updates: seq<GlobalUpdate<G>>) returns (g: G)
    ensures g == FoldGlobalUpdates(globalIn, updates)
  {
    g := globalIn;
    for i := 0 to |updates|
      invariant FoldGlobalUpdates(g, updates[i..]) == FoldGlobalUpdates(globalIn, updates)
    {
      assert updates[i..][1..] == updates[i + 1..];
      g := updates[i].action(g);
    }
  }

  /** No updates: the global record comes back unchanged. */
  lemma FoldNoUpdates<G>(g: G)
    ensures FoldGlobalUpdates(g, []) == g
  {
  }

  /** Fold-left: applying `us + vs` is applying `vs` to the result of applying `us`. */
  lemma {:induction false} FoldGlobalAppend<G>(g: G, us: seq<GlobalUpdate<G>>, vs: seq<GlobalUpdate<G>>)
    ensures FoldGlobalUpdates(g, us + vs) == FoldGlobalUpdates(FoldGlobalUpdates(g, us), vs)
  {
    if us == [] {
      assert us + vs == vs;
    } else {
      assert (us + vs)[1..] == us[1..] + vs;
      FoldGlobalAppend(us[0].action(g), us[1..], vs);
    }
  }

  /** The last update is applied to the result of all the earlier ones. */
  lemma FoldGlobalSnoc<G>(g: G, us: seq<GlobalUpdate<G>>, u: GlobalUpdate<G>)
    ensures FoldGlobalUpdates(g, us + [u]) == u.action(FoldGlobalUpdates(g, us))
  {
    FoldGlobalAppend(g, us, [u]);
  }

  // ---- running processes ----

  /** `run_processes`: a left fold over the processes that appends each
      process's updates; every process gets the same cells and the same
      input global record, and the network argument is never used. */
  function RunGlobalProcesses<C, G>(cells: seq<C>, network: seq<seq<CellIndex>>,
                                    processes: seq<Process<C, G>>, g: G): seq<GlobalUpdate<G>>
  {
    if processes == [] then []
    else RunGlobalProcesses(cells, network, processes[..|processes| - 1], g)
         + processes[|processes| - 1].func(cells, g)
  }

  /** Updates are concatenated in registration order. */
  lemma {:induction false} RunGlobalProcessesAppend<C, G>(cells: seq<C>, network: seq<seq<CellIndex>>,
                                                          ps: seq<Process<C, G>>, qs: seq<Process<C, G>>, g: G)
    ensures RunGlobalProcesses(cells, network, ps + qs, g)
         == RunGlobalProcesses(cells, network, ps, g) + RunGlobalProcesses(cells, network, qs, g)
  {
    if qs == [] {
      assert ps + qs == ps;
    } else {
      var qs' := qs[..|qs| - 1];
      assert (ps + qs)[..|ps + qs| - 1] == ps + qs';
      RunGlobalProcessesAppend(cells, network, ps, qs', g);
    }
  }

  /** One process: exactly what its function returns for the input state. */
  lemma RunGlobalProcessesSingle<C, G>(cells: seq<C>, network: seq<seq<CellIndex>>, p: Process<C, G>, g: G)
    ensures RunGlobalProcesses(cells, network, [p], g) == p.func(cells, g)
  {
    assert [p][..0] == [];
  }

  /** The network argument does not influence the result. */
  lemma {:induction false} RunGlobalProcessesIgnoresNetwork<C, G>(cells: seq<C>, n1: seq<seq<CellIndex>>, n2: seq<seq<CellIndex>>,
                                                                  processes: seq<Process<C, G>>, g: G)
    ensures RunGlobalProcesses(cells, n1, processes, g) == RunGlobalProcesses(cells, n2, processes, g)
  {
    if processes != [] {
      RunGlobalProcessesIgnoresNetwork(cells, n1, n2, processes[..|processes| - 1], g);
    }
  }

  /** When every process emits exactly one update, there is one update per
      process, in process order, each computed from the input global record. */
  lemma {:induction false} RunGlobalProcessesOnePerProcess<C, G>(cells: seq<C>, network: seq<seq<CellIndex>>,
                                                                 processes: seq<Process<C, G>>, g: G)
    requires forall j :: 0 <= j < |processes| ==> |processes[j].func(cells, g)| == 1
    ensures |RunGlobalProcesses(cells, network, processes, g)| == |processes|
    ensures forall j :: 0 <= j < |processes| ==>
              RunGlobalProcesses(cells, network, processes, g)[j] == processes[j].func(cells, g)[0]
  {
    if processes != [] {
      RunGlobalProcessesOnePerProcess(cells, network, processes[..|processes| - 1], g);
    }
  }
}

=== FILE: integer_runner.dfy ===
/** The integer-only generation (src/process_runner/mod.rs with the shapes
    of src/process_runner/state.rs).

    A process returns exactly one update, the only action is ADD, and
    applying an update is `cells[target].population += value`. Every `u32`
    overflow and every out-of-range index would panic; the model returns
    `None` for those. The neighbour relation that builds the network is a
    parameter. */
module IntegerRunner {
  import opened MachineInts
  import opened Wrappers
  import Network

  /** `GlobalData { iterations }`. */
  datatype GlobalData = GlobalData(iterations: u32)

  /** `Point { x, y }` on `u32` coordinates. */
  datatype GridPoint = GridPoint(x: u32, y: u32)

  /** `CellState { id, position, population }`. */
  datatype CellState = CellState(id: u32, position: GridPoint, population: u32)

  /** `IterationState { global_data, cells }`. */
  datatype IterationState = IterationState(globalData: GlobalData, cells: seq<CellState>)

  datatype Action = ADD

  /** `CellUpdate { action, target_cell, value }`. */
  datatype CellUpdate = CellUpdate(action: Action, targetCell: u32, value: u32)

  /** `Process { id, func }`: the function yields one update, or `None` when
      it panics. */
  datatype Process = Process(id: u32, func: (CellState, seq<CellState>) -> Option<CellUpdate>)

  function IdOf(c: CellState): u32 { c.id }

  /** `run_process`: the process function's update. */
  function RunProcess(cell: CellState, p: Process, neighbours: seq<CellState>): Option<CellUpdate>
  {
    p.func(cell, neighbours)
  }

  /** `us` in front of a successful list; a panic passes through. */
  function Prepend(us: seq<CellUpdate>, rest: Option<seq<CellUpdate>>): Option<seq<CellUpdate>>
  {
    match rest
    case None => None
    case Some(vs) => Some(us + vs)
  }

  lemma PrependNothing(rest: Option<seq<CellUpdate>>)
    ensures Prepend([], rest) == rest
  {
    if rest.Some? {
      assert [] + rest.value == rest.value;
    }
  }

  lemma PrependPrepend(a: seq<CellUpdate>, b: seq<CellUpdate>, rest: Option<seq<CellUpdate>>)
    ensures Prepend(a, Prepend(b, rest)) == Prepend(a + b, rest)
  {
    if rest.Some? {
      assert a + (b + rest.value) == a + b + rest.value;
    }
  }

  /** One update per process, in process order. */
  function RunOnCell(cell: CellState, neighbours: seq<CellState>, processes: seq<Process>): Option<seq<CellUpdate>>
  {
    if processes == [] then Some([])
    else match RunProcess(cell, processes[0], neighbours)
      case None => None
      case Some(u) => Prepend([u], RunOnCell(cell, neighbours, processes[1..]))
  }

  /** The cells a network row names, by position in `cells`. */
  function NeighbourCells(cells: seq<CellState>, row: seq<u32>): (r: Option<seq<CellState>>)
    ensures r.Some? <==> forall k :: 0 <= k < |row| ==> row[k] < |cells|
    ensures r.Some? ==> |r.value| == |row| && forall k :: 0 <= k < |row| ==> r.value[k] == cells[row[k]]
  {
    if forall k :: 0 <= k < |row| ==> row[k] < |cells| then
      Some(seq(|row|, k requires 0 <= k < |row| => cells[row[k]]))
    else None
  }

  /** The neighbours of cell `i`: the row of the network at its id. */
  function NeighboursOf(cells: seq<CellState>, network: seq<seq<u32>>, i: nat): Option<seq<CellState>>
    requires i < |cells|
  {
    if cells[i].id >= |network| then None else NeighbourCells(cells, network[cells[i].id])
  }

  /** The updates of cells `i..`, cell-major, all from the input cells. */
  function CollectFrom(cells: seq<CellState>, network: seq<seq<u32>>, processes: seq<Process>, i: nat): Option<seq<CellUpdate>>
    requires i <= |cells|
    decreases |cells| - i
  {
    if i == |cells| then Some([])
    else match NeighboursOf(cells, network, i)
      case None => None
      case Some(neighbours) =>
        match RunOnCell(cells[i], neighbours, processes)
        case None => None
        case Some(us) => Prepend(us, CollectFrom(cells, network, processes, i + 1))
  }

  /** The additions of `src/process_runner/mod.rs`, in order: an update to a
      missing cell or one that overflows the population panics. The same
      loop in `src/run_model.rs` is `FirstRunner.ApplyFrom`. */
  function ApplyFrom(cells: seq<CellState>, updates: seq<CellUpdate>): (r: Option<seq<CellState>>)
    ensures r.Some? ==> |r.value| == |cells|
    decreases |updates|
  {
    if updates == [] then Some(cells)
    else
      var t := updates[0].targetCell;
      if t >= |cells| || cells[t].population + updates[0].value > U32_MAX then None
      else ApplyFrom(cells[t := cells[t].(population := cells[t].population + updates[0].value)], updates[1..])
  }

  /** What `run_iteration` produces. */
  function IterationResult(processes: seq<Process>, input: IterationState,
                           related: (CellState, CellState) -> bool): Option<IterationState>
  {
    if input.globalData.iterations == U32_MAX then None
    else
      var network := Network.NetworkMap(input.cells, related, IdOf);
      match CollectFrom(input.cells, network, processes, 0)
      case None => None
      case Some(updates) =>
        match ApplyFrom(input.cells, updates)
        case None => None
        case Some(cells) => Some(IterationState(GlobalData(input.globalData.iterations + 1), cells))
  }

  /** The first loop of `run_iteration`: every process on every cell,
      cell-major, each cell seeing the row of the network at its id. */
  method QueueUpdates(cells: seq<CellState>, network: seq<seq<u32>>, processes: seq<Process>)
    returns (queued: Option<seq<CellUpdate>>)
    ensures queued == CollectFrom(cells, network, processes, 0)
  {
    var updates: seq<CellUpdate> := [];
    PrependNothing(CollectFrom(cells, network, processes, 0));
    for i := 0 to |cells|
      invariant CollectFrom(cells, network, processes, 0) == Prepend(updates, CollectFrom(cells, network, processes, i))
    {
      var cell := cells[i];
      if cell.id >= |network| {
        return None;
      }
      var neighbours := NeighbourCells(cells, network[cell.id]);
      if neighbours.None? {
        return None;
      }
      ghost var before := updates;
      ghost var rest := CollectFrom(cells, network, processes, i + 1);
      assert processes[0..] == processes;
      assert updates[|before|..] == [];
      PrependNothing(RunOnCell(cell, neighbours.value, processes));
      for j := 0 to |processes|
        invariant before <= updates
        invariant RunOnCell(cell, neighbours.value, processes)
               == Prepend(updates[|before|..], RunOnCell(cell, neighbours.value, processes[j..]))
      {
        assert processes[j..][1..] == processes[j + 1..];
        var u := RunProcess(cell, processes[j], neighbours.value);
        if u.None? {
          return None;
        }
        PrependPrepend(updates[|before|..], [u.value], RunOnCell(cell, neighbours.value, processes[j + 1..]));
        assert (updates + [u.value])[|before|..] == updates[|before|..] + [u.value];
        updates := updates + [u.value];
      }
      ghost var mine := updates[|before|..];
      assert processes[|processes|..] == [];
      assert mine + [] == mine;
      assert updates == before + mine;
      PrependPrepend(before, mine, rest);
    }
    assert updates + [] == updates;
    queued := Some(updates);
  }

  /** The second loop of `run_iteration` in `src/process_runner/mod.rs`:
      `population += value` on each target, in queue order (the loop of
      `src/run_model.rs` is `FirstRunner.ApplyUpdates`). */
  method ApplyUpdates(input: seq<CellState>, updates: seq<CellUpdate>) returns (applied: Option<seq<CellState>>)
    ensures applied == ApplyFrom(input, updates)
  {
    var cells := input;
    for k := 0 to |updates|
      invariant ApplyFrom(cells, updates[k..]) == ApplyFrom(input, updates)
    {
      assert updates[k..][1..] == updates[k + 1..];
      var t := updates[k].targetCell;
      if t >= |cells| || cells[t].population + updates[k].value > U32_MAX {
        return None;
      }
      cells := cells[t := cells[t].(population := cells[t].population + updates[k].value)];
    }
    assert updates[|updates|..] == [];
    applied := Some(cells);
  }

  /** `run_iteration`: count the iteration, derive the network, queue one
      update per (cell, process), then apply the queue. */
  method RunIteration(processes: seq<Process>, input: IterationState, related: (CellState, CellState) -> bool)
    returns (output: Option<IterationState>)
    ensures output == IterationResult(processes, input, related)
  {
    if input.globalData.iterations == U32_MAX {
      return None;
    }
    var newGlobal := GlobalData(input.globalData.iterations + 1);
    var network := Network.GetNetworkMap(input.cells, related, IdOf);
    var updates := QueueUpdates(input.cells, network, processes);
    if updates.None? {
      return None;
    }
    var cells := ApplyUpdates(input.cells, updates.value);
    if cells.None? {
      return None;
    }
    output := Some(IterationState(newGlobal, cells.value));
  }

  // ---- properties ----

  /** The total a list of updates adds to cell `i`. */
  function TargetSum(updates: seq<CellUpdate>, i: nat): nat
  {
    if updates == [] then 0
    else (if updates[0].targetCell == i then updates[0].value else 0) + TargetSum(updates[1..], i)
  }

  /** Applying succeeds exactly when every target exists and no cell's
      final population leaves `u32`; then each cell gains exactly the values
      aimed at it, and nothing else about a cell changes. */
  lemma {:induction false} ApplyFromAdds(cells: seq<CellState>, updates: seq<CellUpdate>)
    ensures ApplyFrom(cells, updates).Some? <==>
              (forall k :: 0 <= k < |updates| ==> updates[k].targetCell < |cells|) &&
              (forall i :: 0 <= i < |cells| ==> cells[i].population + TargetSum(updates, i) <= U32_MAX)
    ensures ApplyFrom(cells, updates).Some? ==>
              forall i :: 0 <= i < |cells| ==>
                ApplyFrom(cells, updates).value[i] == cells[i].(population := cells[i].population + TargetSum(updates, i))
    decreases |updates|
  {
    if updates != [] {
      var t := updates[0].targetCell;
      var v := updates[0].value;
      var rest := updates[1..];
      assert forall k :: 1 <= k < |updates| ==> updates[k] == rest[k - 1];
      if t >= |cells| {
      } else if cells[t].population + v > U32_MAX {
        assert cells[t].population + TargetSum(updates, t) > U32_MAX;
      } else {
        var next := cells[t := cells[t].(population := cells[t].population + v)];
        ApplyFromAdds(next, rest);
        assert forall i :: 0 <= i < |cells| ==>
          next[i].population + TargetSum(rest, i) == cells[i].population + TargetSum(updates, i);
        if ApplyFrom(cells, updates).Some? {
          forall i | 0 <= i < |cells|
            ensures ApplyFrom(cells, updates).value[i] == cells[i].(population := cells[i].population + TargetSum(updates, i))
          {
          }
        }
        if (forall k :: 0 <= k < |updates| ==> updates[k].targetCell < |cells|) {
          assert forall k :: 0 <= k < |rest| ==> rest[k] == updates[k + 1];
        }
      }
    }
  }

  /** A successful cell contributes one update per process, in process order. */
  lemma {:induction false} RunOnCellOnePerProcess(cell: CellState, neighbours: seq<CellState>, processes: seq<Process>)
    ensures RunOnCell(cell, neighbours, processes).Some? <==>
              forall j :: 0 <= j < |processes| ==> RunProcess(cell, processes[j], neighbours).Some?
    ensures RunOnCell(cell, neighbours, processes).Some? ==>
              |RunOnCell(cell, neighbours, processes).value| == |processes| &&
              forall j :: 0 <= j < |processes| ==>
                RunOnCell(cell, neighbours, processes).value[j] == RunProcess(cell, processes[j], neighbours).value
  {
    if processes != [] {
      RunOnCellOnePerProcess(cell, neighbours, processes[1..]);
      assert forall j :: 1 <= j < |processes| ==> processes[j] == processes[1..][j - 1];
    }
  }

  /** The start of block `c` when every block holds `p` updates. */
  function Offset(c: nat, p: nat): nat
  {
    if c == 0 then 0 else Offset(c - 1, p) + p
  }

  lemma {:induction false} OffsetIsProduct(c: nat, p: nat)
    ensures Offset(c, p) == c * p
  {
    if c > 0 {
      OffsetIsProduct(c - 1, p);
      assert c * p == (c - 1) * p + p;
    }
  }

  /** Position `j` of an earlier block lies before a later block starts. */
  lemma {:induction false} OffsetBelow(c: nat, n: nat, p: nat, j: nat)
    requires c < n && j < p
    ensures Offset(c, p) + j < Offset(n, p)
  {
    if c < n - 1 {
      OffsetBelow(c, n - 1, p, j);
    }
  }

  /** A successful run over cells `i..` holds one update per (cell, process). */
  lemma {:induction false} CollectFromLength(cells: seq<CellState>, network: seq<seq<u32>>, processes: seq<Process>, i: nat)
    requires i <= |cells|
    requires CollectFrom(cells, network, processes, i).Some?
    ensures |CollectFrom(cells, network, processes, i).value| == Offset(|cells| - i, |processes|)
    decreases |cells| - i
  {
    if i < |cells| {
      var nb := NeighboursOf(cells, network, i).value;
      RunOnCellOnePerProcess(cells[i], nb, processes);
      CollectFromLength(cells, network, processes, i + 1);
    }
  }

  /** Cell-major order: the update of process `j` on cell `c` sits at
      position `Offset(c - i, |processes|) + j` of the updates of cells `i..`
      (`Offset(k, p)` is `k * p`, by `OffsetIsProduct`). */
  lemma {:induction false} CollectFromOrder(cells: seq<CellState>, network: seq<seq<u32>>, processes: seq<Process>,
                                           i: nat, c: nat, j: nat)
    requires i <= c < |cells| && j < |processes|
    requires CollectFrom(cells, network, processes, i).Some?
    ensures NeighboursOf(cells, network, c).Some?
    ensures RunProcess(cells[c], processes[j], NeighboursOf(cells, network, c).value).Some?
    ensures Offset(c - i, |processes|) + j < |CollectFrom(cells, network, processes, i).value|
    ensures CollectFrom(cells, network, processes, i).value[Offset(c - i, |processes|) + j]
         == RunProcess(cells[c], processes[j], NeighboursOf(cells, network, c).value).value
    decreases |cells| - i
  {
    var P := |processes|;
    var nb := NeighboursOf(cells, network, i).value;
    var mine := RunOnCell(cells[i], nb, processes).value;
    var rest := CollectFrom(cells, network, processes, i + 1).value;
    var all := CollectFrom(cells, network, processes, i).value;
    assert all == mine + rest;
    RunOnCellOnePerProcess(cells[i], nb, processes);
    assert |mine| == P;
    if c == i {
      assert all[j] == mine[j];
    } else {
      CollectFromOrder(cells, network, processes, i + 1, c, j);
      var x := Offset(c - (i + 1), P) + j;
      assert Offset(c - i, P) + j == P + x;
      assert all[P + x] == rest[x];
    }
  }

  // ---- the example processes ----

  /** `example_process`: a tenth of the cell's own population, to itself. */
  function ExampleProcess(cell: CellState, neighbours: seq<CellState>): (r: Option<CellUpdate>)
    ensures r.Some? && r.value.targetCell == cell.id && r.value.action == ADD
    ensures 10 * r.value.value <= cell.population < 10 * r.value.value + 10
  {
    Some(CellUpdate(ADD, cell.id, cell.population / 10))
  }

  /** The sum of the neighbours' tenths, on unbounded integers. */
  function MigrationSum(neighbours: seq<CellState>): nat
  {
    if neighbours == [] then 0
    else MigrationSum(neighbours[..|neighbours| - 1]) + neighbours[|neighbours| - 1].population / 10
  }

  /** What `population_migration` yields: the summed tenths, or a panic
      when the `u32` accumulator overflows. */
  function PopulationMigrationSpec(cell: CellState, neighbours: seq<CellState>): Option<CellUpdate>
  {
    if MigrationSum(neighbours) <= U32_MAX then Some(CellUpdate(ADD, cell.id, MigrationSum(neighbours))) else None
  }

  /** A longer prefix never has a smaller sum; the same fact about the
      tagged generation's migration is `TaggedExamples.MigrationSumPrefix`. */
  lemma {:induction false} MigrationSumPrefix(neighbours: seq<CellState>, j: nat)
    requires j <= |neighbours|
    ensures MigrationSum(neighbours[..j]) <= MigrationSum(neighbours)
    decreases |neighbours|
  {
    if j < |neighbours| {
      var init := neighbours[..|neighbours| - 1];
      assert neighbours[..j] == init[..j];
      MigrationSumPrefix(init, j);
    } else {
      assert neighbours[..j] == neighbours;
    }
  }

  /** `population_migration`: the accumulating loop. */
  method PopulationMigration(cell: CellState, neighbours: seq<CellState>) returns (r: Option<CellUpdate>)
    ensures r == PopulationMigrationSpec(cell, neighbours)
    ensures r.Some? ==> r.value.targetCell == cell.id && r.value.value == MigrationSum(neighbours)
  {
    var movement: u32 := 0;
    for k := 0 to |neighbours|
      invariant movement == MigrationSum(neighbours[..k])
    {
      assert neighbours[..k + 1][..k] == neighbours[..k];
      if movement + neighbours[k].population / 10 > U32_MAX {
        MigrationSumPrefix(neighbours, k + 1);
        return None;
      }
      movement := movement + neighbours[k].population / 10;
    }
    assert neighbours[..|neighbours|] == neighbours;
    r := Some(CellUpdate(ADD, cell.id, movement));
  }

  /** The processes of the unit test of `src/process_runner/mod.rs`: growth
      (id 0), then migration (id 1), each of this generation's own types. */
  function TestProcesses(): (ps: seq<Process>)
    ensures |ps| == 2 && ps[0].id == 0 && ps[1].id == 1
  {
    [Process(0, ExampleProcess), Process(1, PopulationMigrationSpec)]
  }

  /** Two cells are neighbours when their ids differ (the unit test expects
      its two cells to be neighbours). */
  function OtherCell(a: CellState, b: CellState): bool { a.id != b.id }

  function TestCells(): seq<CellState>
  {
    [CellState(0, GridPoint(0, 0), 12), CellState(1, GridPoint(0, 1), 40)]
  }

  /** The updates the unit test queues: cell 0 gets 1 and 4, cell 1 gets 4 and 1. */
  function TestUpdates(): seq<CellUpdate>
  {
    [CellUpdate(ADD, 0, 1), CellUpdate(ADD, 0, 4), CellUpdate(ADD, 1, 4), CellUpdate(ADD, 1, 1)]
  }

  lemma TestNetwork()
    ensures Network.NetworkMap(TestCells(), OtherCell, IdOf) == [[1], [0]]
  {
    var cells := TestCells();
    var c0 := cells[0];
    var c1 := cells[1];
    assert cells[..1] == [c0] && cells[..1][..0] == [];
    assert cells[..|cells| - 1] == [c0];
    assert Network.NeighbourIds(c0, [c0], OtherCell, IdOf) == [];
    assert Network.NeighbourIds(c1, [c0], OtherCell, IdOf) == [0];
    assert Network.NeighbourIds(c0, cells, OtherCell, IdOf) == [1];
    assert Network.NeighbourIds(c1, cells, OtherCell, IdOf) == [0];
  }

  lemma TestCollect()
    ensures CollectFrom(TestCells(), [[1], [0]], TestProcesses(), 0) == Some(TestUpdates())
  {
    var cells := TestCells();
    var c0 := cells[0];
    var c1 := cells[1];
    var network: seq<seq<u32>> := [[1], [0]];
    var ps := TestProcesses();
    var nb0 := NeighboursOf(cells, network, 0);
    var nb1 := NeighboursOf(cells, network, 1);
    assert nb0.Some? && |nb0.value| == 1 && nb0.value[0] == c1;
    assert nb0.value == [c1];
    assert nb1.Some? && |nb1.value| == 1 && nb1.value[0] == c0;
    assert nb1.value == [c0];
    assert [c1][..0] == [] && [c0][..0] == [];
    assert MigrationSum([c1]) == 4 && MigrationSum([c0]) == 1;
    var u := TestUpdates();
    assert ps[1..][1..] == [];
    assert [u[1]] + [] == [u[1]] && [u[0]] + [u[1]] == u[..2];
    assert RunOnCell(c0, [c1], ps[1..]) == Some([u[1]]);
    assert RunOnCell(c0, [c1], ps) == Some(u[..2]);
    assert [u[3]] + [] == [u[3]] && [u[2]] + [u[3]] == u[2..];
    assert RunOnCell(c1, [c0], ps[1..]) == Some([u[3]]);
    assert RunOnCell(c1, [c0], ps) == Some(u[2..]);
    var rest := CollectFrom(cells, network, ps, 2);
    assert rest.Some? && rest.value == [];
    assert u[2..] + rest.value == u[2..];
    assert CollectFrom(cells, network, ps, 1) == Some(u[2..]);
    assert u[..2] + u[2..] == u;
  }

  lemma TestApply()
    ensures ApplyFrom(TestCells(), TestUpdates()) == Some([CellState(0, GridPoint(0, 0), 17), CellState(1, GridPoint(0, 1), 45)])
  {
    var cells := TestCells();
    var u := TestUpdates();
    assert u[1..][1..][1..][1..] == [];
    assert TargetSum(u, 0) == 5;
    assert TargetSum(u, 1) == 5;
    ApplyFromAdds(cells, u);
    var after := ApplyFrom(cells, u).value;
    assert after[0] == CellState(0, GridPoint(0, 0), 17);
    assert after[1] == CellState(1, GridPoint(0, 1), 45);
    assert after == [CellState(0, GridPoint(0, 0), 17), CellState(1, GridPoint(0, 1), 45)];
  }

  /** The unit test: populations 12 and 40 become 17 and 45, and the
      counter goes from 0 to 1. */
  lemma TwoCellIteration()
    ensures IterationResult(TestProcesses(), IterationState(GlobalData(0), TestCells()), OtherCell)
         == Some(IterationState(GlobalData(1), [CellState(0, GridPoint(0, 0), 17), CellState(1, GridPoint(0, 1), 45)]))
  {
    TestNetwork();
    TestCollect();
    TestApply();
    IterationOfParts(TestProcesses(), IterationState(GlobalData(0), TestCells()), OtherCell, [[1], [0]], TestUpdates(),
                     [CellState(0, GridPoint(0, 0), 17), CellState(1, GridPoint(0, 1), 45)]);
  }

  /** An iteration below the counter limit is its network, its collected
      updates and their application, put together. */
  lemma IterationOfParts(processes: seq<Process>, input: IterationState, related: (CellState, CellState) -> bool,
                         network: seq<seq<u32>>, updates: seq<CellUpdate>, cells: seq<CellState>)
    requires input.globalData.iterations < U32_MAX
    requires Network.NetworkMap(input.cells, related, IdOf) == network
    requires CollectFrom(input.cells, network, processes, 0) == Some(updates)
    requires ApplyFrom(input.cells, updates) == Some(cells)
    ensures IterationResult(processes, input, related) == Some(IterationState(GlobalData(input.globalData.iterations + 1), cells))
  {
  }

  /** The counter of a successful iteration goes up by exactly one. */
  lemma IterationCounts(processes: seq<Process>, input: IterationState, related: (CellState, CellState) -> bool)
    ensures IterationResult(processes, input, related).Some? ==>
              IterationResult(processes, input, related).value.globalData.iterations == input.globalData.iterations + 1
    ensures input.globalData.iterations == U32_MAX ==> IterationResult(processes, input, related).None?
  {
  }
}

=== FILE: machine_ints.dfy ===
/** Rust's fixed-width integers and the `as` casts between them.

    Dafny integers are unbounded, so the widths the kernel relies on are
    subset types here, and every wrapping cast is written out. */
module MachineInts {

  const U32_LIMIT: int := 0x1_0000_0000
  const U32_MAX: int := 0xffff_ffff
  const I32_MIN: int := -0x8000_0000
  const I32_MAX: int := 0x7fff_ffff

  type u32 = x: int | 0 <= x < 0x1_0000_0000
  type i32 = x: int | -0x8000_0000 <= x < 0x8000_0000

  predicate InI32(x: int) {
    I32_MIN <= x <= I32_MAX
  }

  /** `x as i32` for a `u32`: the same 32 bits read as two's complement. */
  function U32AsI32(x: u32): (r: i32)
    ensures (x - r) % U32_LIMIT == 0
    ensures x <= I32_MAX <==> r == x
  {
    if x <= I32_MAX then x else x - U32_LIMIT
  }

  /** `x as u32` for an `i32`: the same 32 bits read as unsigned. */
  function I32AsU32(x: i32): (r: u32)
    ensures (r - x) % U32_LIMIT == 0
    ensures 0 <= x <==> r == x
  {
    if 0 <= x then x else x + U32_LIMIT
  }

  /** Both casts only reinterpret bits, so going there and back is the identity. */
  lemma CastRoundTrip(x: u32, y: i32)
    ensures I32AsU32(U32AsI32(x)) == x
    ensures U32AsI32(I32AsU32(y)) == y
  {
  }
}

=== FILE: network.dfy ===
/** Neighbour networks (src/process_runner/network.rs, and the id-based
    variant of src/run_model.rs).

    A network has one list per cell, in cell order; the list of a cell holds,
    in cell order, the ids of the cells related to it. The relation is a
    parameter: `check_is_neighbour` for the tagged generation, "has another
    id" for the integer-only one. Geodesic distance is a parameter too. */
module Network {
  import opened CellIndexState

  /** The ids of those `cells` that `cell` is related to, in cell order. */
  function NeighbourIds<C, I>(cell: C, cells: seq<C>, related: (C, C) -> bool, idOf: C -> I): seq<I>
  {
    if cells == [] then []
    else NeighbourIds(cell, cells[..|cells| - 1], related, idOf)
         + (if related(cell, cells[|cells| - 1]) then [idOf(cells[|cells| - 1])] else [])
  }

  /** One neighbour list per cell, in cell order. */
  function NetworkMap<C, I>(cells: seq<C>, related: (C, C) -> bool, idOf: C -> I): (network: seq<seq<I>>)
    ensures |network| == |cells|
    ensures forall i :: 0 <= i < |cells| ==> network[i] == NeighbourIds(cells[i], cells, related, idOf)
  {
    seq(|cells|, i requires 0 <= i < |cells| => NeighbourIds(cells[i], cells, related, idOf))
  }

  /** `get_network_map`: for each cell, scan every cell and push the id of
      each one it is related to. */
  method GetNetworkMap<C, I>(cells: seq<C>, related: (C, C) -> bool, idOf: C -> I) returns (network: seq<seq<I>>)
    ensures network == NetworkMap(cells, related, idOf)
  {
    network := [];
    for i := 0 to |cells|
      invariant |network| == i
      invariant forall k :: 0 <= k < i ==> network[k] == NeighbourIds(cells[k], cells, related, idOf)
    {
      var cellNetwork := [];
      for j := 0 to |cells|
        invariant cellNetwork == NeighbourIds(cells[i], cells[..j], related, idOf)
      {
        assert cells[..j + 1][..j] == cells[..j];
        if related(cells[i], cells[j]) {
          cellNetwork := cellNetwork + [idOf(cells[j])];
        }
      }
      assert cells[..|cells|] == cells;
      network := network + [cellNetwork];
    }
  }

  /** An id is listed exactly when some related cell carries it. */
  lemma {:induction false} NeighbourIdsMembership<C, I>(cell: C, cells: seq<C>, related: (C, C) -> bool, idOf: C -> I, x: I)
    ensures x in NeighbourIds(cell, cells, related, idOf)
        <==> exists k :: 0 <= k < |cells| && related(cell, cells[k]) && idOf(cells[k]) == x
  {
    if cells != [] {
      var init := cells[..|cells| - 1];
      NeighbourIdsMembership(cell, init, related, idOf, x);
      if x in NeighbourIds(cell, cells, related, idOf) {
        if x !in NeighbourIds(cell, init, related, idOf) {
          assert related(cell, cells[|cells| - 1]) && idOf(cells[|cells| - 1]) == x;
        } else {
          var k :| 0 <= k < |init| && related(cell, init[k]) && idOf(init[k]) == x;
          assert cells[k] == init[k];
        }
      }
      if exists k :: 0 <= k < |cells| && related(cell, cells[k]) && idOf(cells[k]) == x {
        var k :| 0 <= k < |cells| && related(cell, cells[k]) && idOf(cells[k]) == x;
        if k < |init| {
          assert init[k] == cells[k];
        }
      }
    }
  }

  /** The scan keeps cell order: the list for `a + b` is the list for `a`
      followed by the list for `b`. */
  lemma {:induction false} NeighbourIdsAppend<C, I>(cell: C, a: seq<C>, b: seq<C>, related: (C, C) -> bool, idOf: C -> I)
    ensures NeighbourIds(cell, a + b, related, idOf) == NeighbourIds(cell, a, related, idOf) + NeighbourIds(cell, b, related, idOf)
  {
    if b == [] {
      assert a + b == a;
    } else {
      var b' := b[..|b| - 1];
      assert (a + b)[..|a + b| - 1] == a + b';
      assert (a + b)[|a + b| - 1] == b[|b| - 1];
      NeighbourIdsAppend(cell, a, b', related, idOf);
    }
  }

  // ---- check_is_neighbour ----

  /** The distance bound of `check_is_neighbour`, in metres. */
  const NeighbourDistance: real := 40000.0

  /** `check_is_neighbour`: never a cell with the same id; otherwise any cell
      no farther than `threshold`. */
  function CheckIsNeighbour(idA: CellIndex, posA: Point, idB: CellIndex, posB: Point,
                            distance: (Point, Point) -> real, threshold: real): (b: bool)
    ensures idA == idB ==> !b
    ensures idA != idB ==> (b <==> distance(posA, posB) <= threshold)
  {
    if idA == idB then false
    else if distance(posA, posB) > threshold then false
    else true
  }

  /** `check_is_neighbour` as a relation on cells. */
  function NeighbourRelation<C>(idOf: C -> CellIndex, posOf: C -> Point,
                                distance: (Point, Point) -> real, threshold: real): (C, C) -> bool
  {
    (a: C, b: C) => CheckIsNeighbour(idOf(a), posOf(a), idOf(b), posOf(b), distance, threshold)
  }

  /** No cell lists its own id, whatever the distance function. */
  lemma NoSelfNeighbour<C>(cells: seq<C>, idOf: C -> CellIndex, posOf: C -> Point,
                           distance: (Point, Point) -> real, threshold: real, i: nat)
    requires i < |cells|
    ensures idOf(cells[i]) !in NetworkMap(cells, NeighbourRelation(idOf, posOf, distance, threshold), idOf)[i]
  {
    var related := NeighbourRelation(idOf, posOf, distance, threshold);
    NeighbourIdsMembership(cells[i], cells, related, idOf, idOf(cells[i]));
  }

  /** For distinct ids, membership is exactly "within the threshold". */
  lemma NeighbourWithinThreshold<C>(cells: seq<C>, idOf: C -> CellIndex, posOf: C -> Point,
                                    distance: (Point, Point) -> real, threshold: real, i: nat, j: nat)
    requires i < |cells| && j < |cells|
    requires forall a, b :: 0 <= a < b < |cells| ==> idOf(cells[a]) != idOf(cells[b])
    requires i != j
    ensures idOf(cells[j]) in NetworkMap(cells, NeighbourRelation(idOf, posOf, distance, threshold), idOf)[i]
        <==> distance(posOf(cells[i]), posOf(cells[j])) <= threshold
  {
    var related := NeighbourRelation(idOf, posOf, distance, threshold);
    NeighbourIdsMembership(cells[i], cells, related, idOf, idOf(cells[j]));
    if idOf(cells[j]) in NetworkMap(cells, related, idOf)[i] {
      var k :| 0 <= k < |cells| && related(cells[i], cells[k]) && idOf(cells[k]) == idOf(cells[j]);
      assert k == j;
    }
  }

  /** With unique ids and a symmetric distance, the network is symmetric:
      `j` lists `i` exactly when `i` lists `j`. */
  lemma NetworkSymmetric<C>(cells: seq<C>, idOf: C -> CellIndex, posOf: C -> Point,
                            distance: (Point, Point) -> real, threshold: real, i: nat, j: nat)
    requires i < |cells| && j < |cells|
    requires forall a, b :: 0 <= a < b < |cells| ==> idOf(cells[a]) != idOf(cells[b])
    requires forall p, q :: distance(p, q) == distance(q, p)
    ensures var network := NetworkMap(cells, NeighbourRelation(idOf, posOf, distance, threshold), idOf);
            idOf(cells[j]) in network[i] <==> idOf(cells[i]) in network[j]
  {
    if i == j {
      NoSelfNeighbour(cells, idOf, posOf, distance, threshold, i);
    } else {
      NeighbourWithinThreshold(cells, idOf, posOf, distance, threshold, i, j);
      NeighbourWithinThreshold(cells, idOf, posOf, distance, threshold, j, i);
    }
  }
}

=== FILE: process.dfy ===
/** Update records of the tagged generation (src/process_runner/process.rs).

    An update names an action, a target cell, a target field by name and a
    payload value. Conversions of the payload that Rust performs with
    `unwrap()` or `panic!` return `Err` here. */
module TaggedProcess {
  import opened MachineInts
  import opened CellIndexState
  import opened Wrappers

  /** The ways the tagged generation panics. */
  datatype Panic =
    | ConversionPanic     // a failed `NumCast` unwrap, or a vector cast to a number
    | OverflowPanic       // integer overflow or underflow (debug build)
    | ConstantFieldPanic  // an update aimed at `id` or `position`
    | IndexPanic          // an id outside the cell vector or the network

  type Outcome<T> = Result<T, Panic>

  /** `Action`: exactly three variants. */
  datatype Action = ADD | SUB | SET

  /** `Value` without its `NumberF` variant. */
  datatype Value = NumberI(i: i32) | Vector(inner: Value)

  /** `u32::from(Value)`: a non-negative integer payload is kept; a negative
      one fails the cast and a vector cannot be cast. */
  function ToU32(v: Value): (r: Outcome<u32>)
    ensures r.Ok? <==> v.NumberI? && 0 <= v.i
    ensures r.Ok? ==> r.value == v.i
    ensures r.Err? ==> r.error == ConversionPanic
  {
    match v
    case NumberI(x) => if 0 <= x then Ok(x) else Err(ConversionPanic)
    case Vector(_) => Err(ConversionPanic)
  }

  /** `i32::from(Value)`: every integer payload is kept. */
  function ToI32(v: Value): (r: Outcome<i32>)
    ensures r.Ok? <==> v.NumberI?
    ensures r.Ok? ==> r.value == v.i
    ensures r.Err? ==> r.error == ConversionPanic
  {
    match v
    case NumberI(x) => Ok(x)
    case Vector(_) => Err(ConversionPanic)
  }

  /** `f64::from(Value)`: every integer payload is exactly representable. */
  function ToF64(v: Value): (r: Outcome<real>)
    ensures r.Ok? <==> v.NumberI?
    ensures r.Ok? ==> r.value == v.i as real
    ensures r.Err? ==> r.error == ConversionPanic
  {
    match v
    case NumberI(x) => Ok(x as real)
    case Vector(_) => Err(ConversionPanic)
  }

  /** The three conversions agree wherever they all succeed, and a vector
      payload fails all three. */
  lemma ConversionsAgree(v: Value)
    ensures ToU32(v).Ok? ==> ToI32(v).Ok? && ToI32(v).value == ToU32(v).value
    ensures ToI32(v).Ok? <==> ToF64(v).Ok?
    ensures ToI32(v).Ok? ==> ToF64(v).value == ToI32(v).value as real
    ensures v.Vector? ==> ToU32(v).Err? && ToI32(v).Err? && ToF64(v).Err?
  {
  }

  /** `CellUpdate { action, target_cell, target_field, value }`. */
  datatype CellUpdate = CellUpdate(action: Action, targetCell: CellIndex, targetField: string, value: Value)

  /** `CellUpdate::new(target_cell, value, action, target_field)`: the
      arguments come in a different order from the fields. */
  function NewCellUpdate(targetCell: CellIndex, value: Value, action: Action, targetField: string): (u: CellUpdate)
    ensures u.action == action && u.targetCell == targetCell
    ensures u.targetField == targetField && u.value == value
  {
    CellUpdate(action, targetCell, targetField, value)
  }

  /** `new` is injective: the stored record determines every argument. */
  lemma NewCellUpdateInjective(t1: CellIndex, v1: Value, a1: Action, f1: string,
                               t2: CellIndex, v2: Value, a2: Action, f2: string)
    ensures NewCellUpdate(t1, v1, a1, f1) == NewCellUpdate(t2, v2, a2, f2) <==> t1 == t2 && v1 == v2 && a1 == a2 && f1 == f2
  {
  }

  /** `Process { id, func }` over cell snapshots of type `T`; a process that
      panics yields `Err`. `Process::new` is this constructor. */
  datatype Process<!T> = Process(id: u32, func: (T, seq<T>) -> Outcome<seq<CellUpdate>>)
}

=== FILE: prototype.dfy ===
/** The Python prototype (run_model.py).

    Cells are dataclass records whose fields hold numbers or `None`; a
    change names a cell by list index and maps field names to an (action,
    value) pair. An iteration runs every process on every cell, flattens
    the results (dropping `None`), and applies the changes in order to the
    cell list in place. Exceptions are `PyError` values; numbers are exact
    reals. The neighbour map reused across cycles holds cell indices here,
    as the docstring of `run_iteration` describes; the map of cell values
    the code actually stores is modelled in `PrototypeStaleMap`. */
module Prototype {
  import opened Wrappers

  /** A value a cell field can hold: `None` or a number. */
  datatype PyValue = NoneValue | Num(n: real)

  /** The `Config` dataclass: its only field is `foo`. */
  datatype Config = Config(foo: int)

  /** The `CellState` dataclass; `pos_x` and `pos_y` default to `None`. */
  datatype PyCell = PyCell(uid: PyValue, population: PyValue, posX: PyValue, posY: PyValue)

  const DefaultCell: PyCell := PyCell(Num(0.0), Num(0.0), NoneValue, NoneValue)

  /** `Actions.ADD`, `Actions.SET`, or any other object in the action slot. */
  datatype PyAction = ADD | SET | Other(name: string)

  /** The exceptions the prototype can raise. */
  datatype PyError = ValueError | AttributeError | TypeError | IndexError

  /** One `k: (action, value)` entry of a change dictionary. */
  datatype FieldChange = FieldChange(field: string, action: PyAction, value: PyValue)

  /** A `(c_id, change)` pair; the dictionary keeps insertion order. */
  datatype Change = Change(cellId: int, fields: seq<FieldChange>)

  /** A process: `f(config, cell, neighbours)` returns a list whose items may be `None`. */
  type PyProcess = (Config, PyCell, seq<PyCell>) -> seq<Option<Change>>

  /** The position a distance is measured between. */
  type PyPos = (PyValue, PyValue)

  function PosOf(c: PyCell): PyPos { (c.posX, c.posY) }

  const FieldNames: set<string> := {"uid", "population", "pos_x", "pos_y"}

  /** `getattr(cell, k)`: a dataclass field, or nothing for any other name. */
  function GetField(c: PyCell, k: string): (r: Option<PyValue>)
    ensures r.Some? <==> k in FieldNames
  {
    if k == "uid" then Some(c.uid)
    else if k == "population" then Some(c.population)
    else if k == "pos_x" then Some(c.posX)
    else if k == "pos_y" then Some(c.posY)
    else None
  }

  /** One keyword of `replace`: sets a dataclass field; any other name fails. */
  function SetField(c: PyCell, k: string, v: PyValue): (r: Option<PyCell>)
    ensures r.Some? <==> k in FieldNames
    ensures r.Some? ==> GetField(r.value, k) == Some(v)
    ensures r.Some? ==> forall f :: f != k ==> GetField(r.value, f) == GetField(c, f)
  {
    if k == "uid" then Some(c.(uid := v))
    else if k == "population" then Some(c.(population := v))
    else if k == "pos_x" then Some(c.(posX := v))
    else if k == "pos_y" then Some(c.(posY := v))
    else None
  }

  /** `a + b`: numbers add, and `None` on either side raises `TypeError`. */
  function PyAdd(a: PyValue, b: PyValue): Result<PyValue, PyError>
  {
    if a.Num? && b.Num? then Ok(Num(a.n + b.n)) else Err(TypeError)
  }

  /** `process_change`: ADD reads the field and adds, SET yields the value,
      any other action raises `ValueError`. */
  function ProcessChange(cell: PyCell, k: string, action: PyAction, value: PyValue): (r: Result<PyValue, PyError>)
    ensures action.Other? ==> r == Err(ValueError)
    ensures action == SET ==> r == Ok(value)
    ensures action == ADD && k !in FieldNames ==> r == Err(AttributeError)
    ensures action == ADD && k in FieldNames ==>
              (r.Ok? <==> GetField(cell, k).value.Num? && value.Num?) &&
              (r.Err? ==> r.error == TypeError)
    ensures action == ADD && r.Ok? ==> r.value == Num(GetField(cell, k).value.n + value.n)
  {
    match action
    case ADD =>
      (match GetField(cell, k)
       case None => Err(AttributeError)
       case Some(cur) => PyAdd(cur, value))
    case SET => Ok(value)
    case Other(_) => Err(ValueError)
  }

  /** Adding `x` and then `-x` to a numeric field gives back its value. */
  lemma AddThenSubtractRestores(cell: PyCell, k: string, x: real)
    requires k in FieldNames && GetField(cell, k).value.Num?
    ensures var mid := ProcessChange(cell, k, ADD, Num(x));
            mid.Ok? &&
            ProcessChange(SetField(cell, k, mid.value).value, k, ADD, Num(-x)) == Ok(GetField(cell, k).value)
  {
  }

  /** The dictionary comprehension of `apply_cell_changes`: every new value
      computed from the same cell, in dictionary order; the first exception
      propagates. */
  function UpdatedData(cell: PyCell, fields: seq<FieldChange>): (r: Result<seq<(string, PyValue)>, PyError>)
    ensures r.Ok? <==> forall i :: 0 <= i < |fields| ==>
                         ProcessChange(cell, fields[i].field, fields[i].action, fields[i].value).Ok?
    ensures r.Ok? ==> (|r.value| == |fields| &&
                       forall i :: 0 <= i < |fields| ==>
                         r.value[i] == (fields[i].field, ProcessChange(cell, fields[i].field, fields[i].action, fields[i].value).value))
  {
    if fields == [] then Ok([])
    else
      var f := fields[0];
      match ProcessChange(cell, f.field, f.action, f.value)
      case Err(e) => Err(e)
      case Ok(v) =>
        match UpdatedData(cell, fields[1..])
        case Err(e) => Err(e)
        case Ok(rest) => Ok([(f.field, v)] + rest)
  }

  /** `replace(cell, **data)`: an unknown keyword raises `TypeError`. */
  function ReplaceFields(cell: PyCell, data: seq<(string, PyValue)>): Result<PyCell, PyError>
    decreases |data|
  {
    if data == [] then Ok(cell)
    else match SetField(cell, data[0].0, data[0].1)
      case None => Err(TypeError)
      case Some(c) => ReplaceFields(c, data[1..])
  }

  /** The value a keyword list gives `k`: the last binding wins. */
  function Lookup(data: seq<(string, PyValue)>, k: string): Option<PyValue>
  {
    if data == [] then None
    else match Lookup(data[1..], k)
      case Some(v) => Some(v)
      case None => if data[0].0 == k then Some(data[0].1) else None
  }

  /** `replace` succeeds exactly when every keyword is a field; then each
      field holds its keyword's value, or its old value when not named. */
  lemma {:induction false} ReplaceFieldsLookup(cell: PyCell, data: seq<(string, PyValue)>)
    ensures ReplaceFields(cell, data).Ok? <==> forall i :: 0 <= i < |data| ==> data[i].0 in FieldNames
    ensures ReplaceFields(cell, data).Ok? ==>
              forall k :: k in FieldNames ==>
                GetField(ReplaceFields(cell, data).value, k)
                  == (if Lookup(data, k).Some? then Lookup(data, k) else GetField(cell, k))
    decreases |data|
  {
    if data != [] {
      assert forall i :: 1 <= i < |data| ==> data[i] == data[1..][i - 1];
      if data[0].0 in FieldNames {
        ReplaceFieldsLookup(SetField(cell, data[0].0, data[0].1).value, data[1..]);
      }
    }
  }

  /** A key bound once has that binding; an absent key has none. */
  lemma {:induction false} LookupUnique(data: seq<(string, PyValue)>, j: nat)
    requires j < |data|
    requires forall i :: 0 <= i < |data| && i != j ==> data[i].0 != data[j].0
    ensures Lookup(data, data[j].0) == Some(data[j].1)
  {
    if j == 0 {
      LookupAbsent(data[1..], data[0].0);
    } else {
      LookupUnique(data[1..], j - 1);
    }
  }

  lemma {:induction false} LookupAbsent(data: seq<(string, PyValue)>, k: string)
    requires forall i :: 0 <= i < |data| ==> data[i].0 != k
    ensures Lookup(data, k) == None
  {
    if data != [] {
      LookupAbsent(data[1..], k);
    }
  }

  /** Python list indexing: `-n <= i < n`, negative indices counting from the end. */
  function PyIndex(n: nat, i: int): (r: Option<nat>)
    ensures r.Some? <==> -(n as int) <= i < n
    ensures r.Some? ==> r.value < n && (r.value == i || r.value == n + i)
  {
    if 0 <= i < n then Some(i) else if -(n as int) <= i < 0 then Some(n + i) else None
  }

  /** One iteration of the loop of `apply_cell_changes`. */
  function ApplyChange(cells: seq<PyCell>, ch: Change): (r: Result<seq<PyCell>, PyError>)
    ensures r.Ok? ==> |r.value| == |cells|
  {
    match PyIndex(|cells|, ch.cellId)
    case None => Err(IndexError)
    case Some(i) =>
      match UpdatedData(cells[i], ch.fields)
      case Err(e) => Err(e)
      case Ok(data) =>
        match ReplaceFields(cells[i], data)
        case Err(e) => Err(e)
        case Ok(c) => Ok(cells[i := c])
  }

  /** The keys of a change dictionary are distinct. */
  predicate DistinctFields(fields: seq<FieldChange>) {
    forall i, j :: 0 <= i < j < |fields| ==> fields[i].field != fields[j].field
  }

  /** Within one change every new value is computed from the cell as it
      was before the change; fields it does not name keep their value, and
      no other cell changes. */
  lemma ApplyChangeFromPreChangeCell(cells: seq<PyCell>, ch: Change)
    requires DistinctFields(ch.fields)
    requires ApplyChange(cells, ch).Ok?
    ensures var i := PyIndex(|cells|, ch.cellId).value;
            var after := ApplyChange(cells, ch).value;
            (forall j :: 0 <= j < |ch.fields| ==>
               GetField(after[i], ch.fields[j].field)
                 == Some(ProcessChange(cells[i], ch.fields[j].field, ch.fields[j].action, ch.fields[j].value).value)) &&
            (forall k :: k in FieldNames && (forall j :: 0 <= j < |ch.fields| ==> ch.fields[j].field != k) ==>
               GetField(after[i], k) == GetField(cells[i], k)) &&
            (forall m :: 0 <= m < |cells| && m != i ==> after[m] == cells[m])
  {
    var i := PyIndex(|cells|, ch.cellId).value;
    var data := UpdatedData(cells[i], ch.fields).value;
    ReplaceFieldsLookup(cells[i], data);
    forall j | 0 <= j < |ch.fields|
      ensures Lookup(data, ch.fields[j].field) == Some(data[j].1)
    {
      LookupUnique(data, j);
    }
    forall k | k in FieldNames && (forall j :: 0 <= j < |ch.fields| ==> ch.fields[j].field != k)
      ensures Lookup(data, k) == None
    {
      LookupAbsent(data, k);
    }
  }

  /** The result of applying changes in order: the cells as they stand and,
      when an exception stopped the loop, that exception. */
  datatype Applied = Applied(cells: seq<PyCell>, error: Option<PyError>)

  /** `apply_cell_changes` as a function: changes in list order; an
      exception leaves the changes before it applied. */
  function ApplyAll(cells: seq<PyCell>, changes: seq<Change>): (r: Applied)
    ensures |r.cells| == |cells|
    decreases |changes|
  {
    if changes == [] then Applied(cells, None)
    else match ApplyChange(cells, changes[0])
      case Err(e) => Applied(cells, Some(e))
      case Ok(next) => ApplyAll(next, changes[1..])
  }

  /** Changes in `a + b`: `a` first, then `b` on its result, unless `a` raised. */
  lemma {:induction false} ApplyAllAppend(cells: seq<PyCell>, a: seq<Change>, b: seq<Change>)
    ensures ApplyAll(cells, a + b)
         == (if ApplyAll(cells, a).error.Some? then ApplyAll(cells, a) else ApplyAll(ApplyAll(cells, a).cells, b))
    decreases |a|
  {
    if a == [] {
      assert a + b == b;
    } else {
      assert (a + b)[1..] == a[1..] + b;
      if ApplyChange(cells, a[0]).Ok? {
        ApplyAllAppend(ApplyChange(cells, a[0]).value, a[1..], b);
      }
    }
  }

  /** `apply_cell_changes`: rewrites the list in place, one change at a time. */
  method ApplyCellChanges(changes: seq<Change>, cells: array<PyCell>) returns (error: Option<PyError>)
    modifies cells
    ensures Applied(cells[..], error) == ApplyAll(old(cells[..]), changes)
  {
    for i := 0 to |changes|
      invariant ApplyAll(cells[..], changes[i..]) == ApplyAll(old(cells[..]), changes)
    {
      assert changes[i..][1..] == changes[i + 1..];
      var ch := changes[i];
      var idx := PyIndex(cells.Length, ch.cellId);
      if idx.None? {
        return Some(IndexError);
      }
      var data := UpdatedData(cells[idx.value], ch.fields);
      if data.Err? {
        return Some(data.error);
      }
      var updated := ReplaceFields(cells[idx.value], data.value);
      if updated.Err? {
        return Some(updated.error);
      }
      cells[idx.value] := updated.value;
    }
    assert changes[|changes|..] == [];
    error := None;
  }

  // ---- flattening and per-cell processes ----

  /** The non-`None` items of a list, in order. */
  function SomeItems<T>(xs: seq<Option<T>>): seq<T>
  {
    if xs == [] then []
    else (if xs[0].Some? then [xs[0].value] else []) + SomeItems(xs[1..])
  }

  /** `flatten_changes`: skip `None` lists and `None` items, keep order. */
  function FlattenChanges<T>(xss: seq<Option<seq<Option<T>>>>): seq<T>
  {
    if xss == [] then []
    else (if xss[0].Some? then SomeItems(xss[0].value) else []) + FlattenChanges(xss[1..])
  }

  lemma {:induction false} SomeItemsMembership<T>(xs: seq<Option<T>>, x: T)
    ensures x in SomeItems(xs) <==> Some(x) in xs
  {
    if xs != [] {
      SomeItemsMembership(xs[1..], x);
      assert xs == [xs[0]] + xs[1..];
    }
  }

  /** An item survives flattening exactly when some non-`None` list holds it. */
  lemma {:induction false} FlattenMembership<T>(xss: seq<Option<seq<Option<T>>>>, x: T)
    ensures x in FlattenChanges(xss) <==> exists i :: 0 <= i < |xss| && xss[i].Some? && Some(x) in xss[i].value
  {
    if xss != [] {
      FlattenMembership(xss[1..], x);
      if xss[0].Some? {
        SomeItemsMembership(xss[0].value, x);
      }
      if exists i :: 0 <= i < |xss| && xss[i].Some? && Some(x) in xss[i].value {
        var i :| 0 <= i < |xss| && xss[i].Some? && Some(x) in xss[i].value;
        if i > 0 {
          assert xss[1..][i - 1] == xss[i];
        }
      }
    }
  }

  /** Flattening keeps order: it distributes over concatenation. */
  lemma {:induction false} FlattenAppend<T>(a: seq<Option<seq<Option<T>>>>, b: seq<Option<seq<Option<T>>>>)
    ensures FlattenChanges(a + b) == FlattenChanges(a) + FlattenChanges(b)
  {
    if a == [] {
      assert a + b == b;
    } else {
      assert (a + b)[1..] == a[1..] + b;
      FlattenAppend(a[1..], b);
    }
  }

  /** `run_cell_processes`: every process's results, in process order. */
  function RunCellProcesses(config: Config, processes: seq<PyProcess>, cell: PyCell, neighbours: seq<PyCell>): seq<Option<Change>>
  {
    if processes == [] then []
    else processes[0](config, cell, neighbours) + RunCellProcesses(config, processes[1..], cell, neighbours)
  }

  /** Running `ps + qs` is running `ps`, then `qs`. */
  lemma {:induction false} RunCellProcessesAppend(config: Config, ps: seq<PyProcess>, qs: seq<PyProcess>,
                                                  cell: PyCell, neighbours: seq<PyCell>)
    ensures RunCellProcesses(config, ps + qs, cell, neighbours)
         == RunCellProcesses(config, ps, cell, neighbours) + RunCellProcesses(config, qs, cell, neighbours)
  {
    if ps == [] {
      assert ps + qs == qs;
    } else {
      assert (ps + qs)[1..] == ps[1..] + qs;
      RunCellProcessesAppend(config, ps[1..], qs, cell, neighbours);
    }
  }

  /** The per-cell result lists of `run_iteration`: cell `i` sees `neighbours[i]`. */
  function CellUpdates(config: Config, processes: seq<PyProcess>, cells: seq<PyCell>, neighbours: seq<seq<PyCell>>)
    : (r: seq<Option<seq<Option<Change>>>>)
    requires |neighbours| >= |cells|
    ensures |r| == |cells|
    ensures forall i :: 0 <= i < |cells| ==> r[i] == Some(RunCellProcesses(config, processes, cells[i], neighbours[i]))
  {
    seq(|cells|, i requires 0 <= i < |cells| => Some(RunCellProcesses(config, processes, cells[i], neighbours[i])))
  }

  // ---- neighbours ----

  /** The cells within distance 2 of `cell`, in list order. */
  function NeighbourList(cell: PyCell, cells: seq<PyCell>, distance: (PyPos, PyPos) -> real): seq<PyCell>
  {
    if cells == [] then []
    else NeighbourList(cell, cells[..|cells| - 1], distance)
         + (if distance(PosOf(cells[|cells| - 1]), PosOf(cell)) < 2.0 then [cells[|cells| - 1]] else [])
  }

  /** `get_neighbour_map`: one list of cells per cell. */
  function GetNeighbourMap(cells: seq<PyCell>, distance: (PyPos, PyPos) -> real): (m: seq<seq<PyCell>>)
    ensures |m| == |cells|
    ensures forall i :: 0 <= i < |cells| ==> m[i] == NeighbourList(cells[i], cells, distance)
  {
    seq(|cells|, i requires 0 <= i < |cells| => NeighbourList(cells[i], cells, distance))
  }

  /** A cell is listed exactly when it is in the list and closer than 2. */
  lemma {:induction false} NeighbourListMembership(cell: PyCell, cells: seq<PyCell>, distance: (PyPos, PyPos) -> real, c: PyCell)
    ensures c in NeighbourList(cell, cells, distance) <==> c in cells && distance(PosOf(c), PosOf(cell)) < 2.0
  {
    if cells != [] {
      var init := cells[..|cells| - 1];
      NeighbourListMembership(cell, init, distance, c);
      assert cells == init + [cells[|cells| - 1]];
    }
  }

  /** With a distance that is zero from a point to itself, every cell is
      its own neighbour. */
  lemma SelfIsNeighbour(cells: seq<PyCell>, distance: (PyPos, PyPos) -> real, i: nat)
    requires i < |cells|
    requires forall p :: distance(p, p) == 0.0
    ensures cells[i] in GetNeighbourMap(cells, distance)[i]
  {
    NeighbourListMembership(cells[i], cells, distance, cells[i]);
  }

  /** The indices of the cells within distance 2 of `cell`, in list order. */
  function NeighbourIndices(cell: PyCell, cells: seq<PyCell>, distance: (PyPos, PyPos) -> real): seq<int>
  {
    if cells == [] then []
    else NeighbourIndices(cell, cells[..|cells| - 1], distance)
         + (if distance(PosOf(cells[|cells| - 1]), PosOf(cell)) < 2.0 then [|cells| - 1] else [])
  }

  /** The neighbour map as the docstring of `run_iteration` describes it:
      one list of cell indices per cell. */
  function NeighbourIndexMap(cells: seq<PyCell>, distance: (PyPos, PyPos) -> real): (m: seq<seq<int>>)
    ensures |m| == |cells|
    ensures forall i :: 0 <= i < |cells| ==> m[i] == NeighbourIndices(cells[i], cells, distance)
  {
    seq(|cells|, i requires 0 <= i < |cells| => NeighbourIndices(cells[i], cells, distance))
  }

  /** `[cells[k] for k in row]`, with Python indexing. */
  function Resolve(row: seq<int>, cells: seq<PyCell>): Result<seq<PyCell>, PyError>
  {
    if row == [] then Ok([])
    else match PyIndex(|cells|, row[0])
      case None => Err(IndexError)
      case Some(k) =>
        match Resolve(row[1..], cells)
        case Err(e) => Err(e)
        case Ok(rest) => Ok([cells[k]] + rest)
  }

  /** The rows for cells `0..n`, resolved in cell order; the first failure propagates. */
  function ResolveAll(rows: seq<seq<int>>, cells: seq<PyCell>): (r: Result<seq<seq<PyCell>>, PyError>)
    ensures r.Ok? ==> |r.value| == |rows|
  {
    if rows == [] then Ok([])
    else match Resolve(rows[0], cells)
      case Err(e) => Err(e)
      case Ok(first) =>
        match ResolveAll(rows[1..], cells)
        case Err(e) => Err(e)
        case Ok(rest) => Ok([first] + rest)
  }

  lemma {:induction false} ResolveAppend(a: seq<int>, b: seq<int>, cells: seq<PyCell>)
    requires Resolve(a, cells).Ok? && Resolve(b, cells).Ok?
    ensures Resolve(a + b, cells) == Ok(Resolve(a, cells).value + Resolve(b, cells).value)
  {
    if a == [] {
      assert a + b == b;
      assert Resolve(a, cells).value == [];
      assert [] + Resolve(b, cells).value == Resolve(b, cells).value;
    } else {
      assert (a + b)[1..] == a[1..] + b;
      ResolveAppend(a[1..], b, cells);
      assert [cells[PyIndex(|cells|, a[0]).value]] + (Resolve(a[1..], cells).value + Resolve(b, cells).value)
          == Resolve(a, cells).value + Resolve(b, cells).value;
    }
  }

  /** Indices taken from cells at the same positions as `current` pick out
      exactly the neighbour list of `current`. */
  lemma {:induction false} ResolveNeighbourIndices(cellB: PyCell, built: seq<PyCell>, cellC: PyCell, current: seq<PyCell>,
                                                  distance: (PyPos, PyPos) -> real, n: nat)
    requires n <= |built| == |current|
    requires forall k :: 0 <= k < |built| ==> PosOf(built[k]) == PosOf(current[k])
    requires PosOf(cellB) == PosOf(cellC)
    ensures Resolve(NeighbourIndices(cellB, built[..n], distance), current) == Ok(NeighbourList(cellC, current[..n], distance))
  {
    if n > 0 {
      assert built[..n][..n - 1] == built[..n - 1];
      assert current[..n][..n - 1] == current[..n - 1];
      ResolveNeighbourIndices(cellB, built, cellC, current, distance, n - 1);
      var last: seq<int> := if distance(PosOf(built[n - 1]), PosOf(cellB)) < 2.0 then [n - 1] else [];
      if last == [] {
        assert NeighbourIndices(cellB, built[..n - 1], distance) + last == NeighbourIndices(cellB, built[..n - 1], distance);
        assert NeighbourList(cellC, current[..n - 1], distance) + [] == NeighbourList(cellC, current[..n - 1], distance);
      } else {
        assert last == [n - 1] && last[1..] == [];
        assert Resolve(last[1..], current) == Ok([]);
        assert PyIndex(|current|, last[0]) == Some(n - 1);
        assert [current[n - 1]] + [] == [current[n - 1]];
        assert Resolve(last, current) == Ok([current[n - 1]]);
        ResolveAppend(NeighbourIndices(cellB, built[..n - 1], distance), last, current);
      }
    }
  }

  /** The index map depends on positions only. */
  lemma {:induction false} IndicesDependOnPositions(cellB: PyCell, built: seq<PyCell>, cellC: PyCell, current: seq<PyCell>,
                                                    distance: (PyPos, PyPos) -> real)
    requires |built| == |current|
    requires forall k :: 0 <= k < |built| ==> PosOf(built[k]) == PosOf(current[k])
    requires PosOf(cellB) == PosOf(cellC)
    ensures NeighbourIndices(cellB, built, distance) == NeighbourIndices(cellC, current, distance)
  {
    if built != [] {
      var n := |built| - 1;
      IndicesDependOnPositions(cellB, built[..n], cellC, current[..n], distance);
    }
  }

  /** Cells at the same positions have the same index map. */
  lemma IndexMapDependsOnPositions(built: seq<PyCell>, current: seq<PyCell>, distance: (PyPos, PyPos) -> real)
    requires |built| == |current|
    requires forall k :: 0 <= k < |built| ==> PosOf(built[k]) == PosOf(current[k])
    ensures NeighbourIndexMap(built, distance) == NeighbourIndexMap(current, distance)
  {
    forall i | 0 <= i < |built|
      ensures NeighbourIndices(built[i], built, distance) == NeighbourIndices(current[i], current, distance)
    {
      IndicesDependOnPositions(built[i], built, current[i], current, distance);
    }
  }

  /** Resolving the index map of `cells` against `cells` gives `get_neighbour_map`. */
  lemma {:induction false} ResolveAllIndexMap(built: seq<PyCell>, current: seq<PyCell>, distance: (PyPos, PyPos) -> real, n: nat)
    requires n <= |built| == |current|
    requires forall k :: 0 <= k < |built| ==> PosOf(built[k]) == PosOf(current[k])
    ensures ResolveAll(NeighbourIndexMap(built, distance)[..n], current) == Ok(GetNeighbourMap(current, distance)[..n])
  {
    var m := NeighbourIndexMap(built, distance);
    var g := GetNeighbourMap(current, distance);
    forall k | 0 <= k < n
      ensures Resolve(m[k], current) == Ok(g[k])
    {
      ResolveRow(built, current, distance, k);
    }
    ResolveAllRows(m, current, g, n);
  }

  /** Rows that resolve one by one resolve together. */
  lemma {:induction false} ResolveAllRows(rows: seq<seq<int>>, cells: seq<PyCell>, g: seq<seq<PyCell>>, n: nat)
    requires n <= |rows| && n <= |g|
    requires forall k :: 0 <= k < n ==> Resolve(rows[k], cells) == Ok(g[k])
    ensures ResolveAll(rows[..n], cells) == Ok(g[..n])
  {
    if n == 0 {
      assert rows[..0] == [] && g[..0] == [];
    } else {
      ResolveAllRows(rows, cells, g, n - 1);
      ResolveAllSnoc(rows[..n - 1], rows[n - 1], cells);
      assert rows[..n - 1] + [rows[n - 1]] == rows[..n];
      assert g[..n - 1] + [g[n - 1]] == g[..n];
    }
  }

  /** Row `i` of the index map resolves to row `i` of `get_neighbour_map`. */
  lemma ResolveRow(built: seq<PyCell>, current: seq<PyCell>, distance: (PyPos, PyPos) -> real, i: nat)
    requires i < |built| == |current|
    requires forall k :: 0 <= k < |built| ==> PosOf(built[k]) == PosOf(current[k])
    ensures Resolve(NeighbourIndexMap(built, distance)[i], current) == Ok(GetNeighbourMap(current, distance)[i])
  {
    assert built[..|built|] == built && current[..|current|] == current;
    ResolveNeighbourIndices(built[i], built, current[i], current, distance, |built|);
  }

  lemma {:induction false} ResolveAllSnoc(rows: seq<seq<int>>, row: seq<int>, cells: seq<PyCell>)
    requires ResolveAll(rows, cells).Ok? && Resolve(row, cells).Ok?
    ensures ResolveAll(rows + [row], cells) == Ok(ResolveAll(rows, cells).value + [Resolve(row, cells).value])
  {
    if rows == [] {
      assert rows + [row] == [row];
      assert [row][1..] == [];
      assert ResolveAll([row][1..], cells) == Ok([]);
      assert ResolveAll(rows, cells).value == [];
      var first := Resolve(row, cells).value;
      assert [first] + [] == [first] && [] + [first] == [first];
    } else {
      assert (rows + [row])[1..] == rows[1..] + [row];
      ResolveAllSnoc(rows[1..], row, cells);
      assert [Resolve(rows[0], cells).value] + (ResolveAll(rows[1..], cells).value + [Resolve(row, cells).value])
          == ResolveAll(rows, cells).value + [Resolve(row, cells).value];
    }
  }

  // ---- iterations and cycles ----

  /** The cells after an iteration and either the map to reuse or the exception. */
  datatype IterationOut<M> = IterationOut(cells: seq<PyCell>, result: Result<M, PyError>)

  /** Steps 1 to 3 of an iteration once every cell's neighbours are known. */
  function ApplyProcesses(config: Config, processes: seq<PyProcess>, cells: seq<PyCell>, neighbours: seq<seq<PyCell>>): Applied
    requires |neighbours| >= |cells|
  {
    ApplyAll(cells, FlattenChanges(CellUpdates(config, processes, cells, neighbours)))
  }

  /** `run_iteration`, with the neighbour map held as indices: a supplied map
      is reused, `None` makes a fresh one; the neighbours of cell `i` are the
      current cells its row names. */
  function Iteration(config: Config, processes: seq<PyProcess>, cells: seq<PyCell>, networkMap: Option<seq<seq<int>>>,
                     distance: (PyPos, PyPos) -> real): IterationOut<seq<seq<int>>>
  {
    var m := if networkMap.None? then NeighbourIndexMap(cells, distance) else networkMap.value;
    if |m| < |cells| then IterationOut(cells, Err(IndexError))
    else match ResolveAll(m[..|cells|], cells)
      case Err(e) => IterationOut(cells, Err(e))
      case Ok(neighbours) =>
        var applied := ApplyProcesses(config, processes, cells, neighbours);
        if applied.error.Some? then IterationOut(applied.cells, Err(applied.error.value))
        else IterationOut(applied.cells, Ok(m))
  }

  /** A supplied map is handed back unchanged; without one, the fresh index
      map is returned. The number of cells never changes. */
  lemma IterationKeepsMap(config: Config, processes: seq<PyProcess>, cells: seq<PyCell>,
                          networkMap: Option<seq<seq<int>>>, distance: (PyPos, PyPos) -> real)
    ensures var out := Iteration(config, processes, cells, networkMap, distance);
            |out.cells| == |cells| &&
            (networkMap.Some? && out.result.Ok? ==> out.result.value == networkMap.value) &&
            (networkMap.None? && out.result.Ok? ==> out.result.value == NeighbourIndexMap(cells, distance))
  {
  }

  /** The outcome of an iteration whose changes came out as `applied`. */
  function FreshOut(applied: Applied, m: seq<seq<int>>): IterationOut<seq<seq<int>>>
  {
    IterationOut(applied.cells, if applied.error.Some? then Err(applied.error.value) else Ok(m))
  }

  /** A fresh map gives the neighbours `get_neighbour_map` computes. */
  lemma FreshIterationUsesNeighbourMap(config: Config, processes: seq<PyProcess>, cells: seq<PyCell>,
                                       distance: (PyPos, PyPos) -> real)
    ensures Iteration(config, processes, cells, None, distance)
         == FreshOut(ApplyProcesses(config, processes, cells, GetNeighbourMap(cells, distance)), NeighbourIndexMap(cells, distance))
  {
    ResolveAllIndexMap(cells, cells, distance, |cells|);
    assert NeighbourIndexMap(cells, distance)[..|cells|] == NeighbourIndexMap(cells, distance);
    assert GetNeighbourMap(cells, distance)[..|cells|] == GetNeighbourMap(cells, distance);
  }

  /** Reusing a map built from cells at the same positions is the same as
      building a fresh one. */
  lemma ReusedMapIsFresh(config: Config, processes: seq<PyProcess>, built: seq<PyCell>, cells: seq<PyCell>,
                         distance: (PyPos, PyPos) -> real)
    requires |built| == |cells|
    requires forall k :: 0 <= k < |built| ==> PosOf(built[k]) == PosOf(cells[k])
    ensures Iteration(config, processes, cells, Some(NeighbourIndexMap(built, distance)), distance)
         == Iteration(config, processes, cells, None, distance)
  {
    IndexMapDependsOnPositions(built, cells, distance);
  }

  /** `logs` in front of a successful run's log. */
  function PrependLogs(logs: seq<seq<PyCell>>, r: Result<(seq<PyCell>, seq<seq<PyCell>>), PyError>)
    : Result<(seq<PyCell>, seq<seq<PyCell>>), PyError>
  {
    match r
    case Err(e) => Err(e)
    case Ok(v) => Ok((v.0, logs + v.1))
  }

  lemma PrependLogsAppend(a: seq<seq<PyCell>>, b: seq<seq<PyCell>>, r: Result<(seq<PyCell>, seq<seq<PyCell>>), PyError>)
    ensures PrependLogs(a, PrependLogs(b, r)) == PrependLogs(a + b, r)
  {
    if r.Ok? {
      assert a + (b + r.value.1) == (a + b) + r.value.1;
    }
  }

  /** `k` iterations from `cells`, each logging its cells; the map of one
      iteration is handed to the next. */
  function Cycles(config: Config, processes: seq<PyProcess>, cells: seq<PyCell>, networkMap: Option<seq<seq<int>>>,
                  distance: (PyPos, PyPos) -> real, k: nat): Result<(seq<PyCell>, seq<seq<PyCell>>), PyError>
    decreases k
  {
    if k == 0 then Ok((cells, []))
    else
      var out := Iteration(config, processes, cells, networkMap, distance);
      match out.result
      case Err(e) => Err(e)
      case Ok(m) => PrependLogs([out.cells], Cycles(config, processes, out.cells, Some(m), distance, k - 1))
  }

  lemma CyclesStep(config: Config, processes: seq<PyProcess>, cells: seq<PyCell>, networkMap: Option<seq<seq<int>>>,
                   distance: (PyPos, PyPos) -> real, k: nat)
    requires k > 0
    ensures var out := Iteration(config, processes, cells, networkMap, distance);
            (Cycles(config, processes, cells, networkMap, distance, k)
             == (if out.result.Err? then Err(out.result.error)
                 else PrependLogs([out.cells], Cycles(config, processes, out.cells, Some(out.result.value), distance, k - 1))))
  {
  }

  /** One more iteration moves its snapshot from the remaining run to the log. */
  lemma CyclesAdvance(config: Config, processes: seq<PyProcess>, logs: seq<seq<PyCell>>, cells: seq<PyCell>,
                      networkMap: Option<seq<seq<int>>>, distance: (PyPos, PyPos) -> real, k: nat)
    requires k > 0
    ensures var out := Iteration(config, processes, cells, networkMap, distance);
            (PrependLogs(logs, Cycles(config, processes, cells, networkMap, distance, k))
             == (if out.result.Err? then Err(out.result.error)
                 else PrependLogs(logs + [out.cells], Cycles(config, processes, out.cells, Some(out.result.value), distance, k - 1))))
  {
    var out := Iteration(config, processes, cells, networkMap, distance);
    CyclesStep(config, processes, cells, networkMap, distance, k);
    if out.result.Ok? {
      PrependLogsAppend(logs, [out.cells], Cycles(config, processes, out.cells, Some(out.result.value), distance, k - 1));
    }
  }

  /** `range(n)` runs `max(n, 0)` times. */
  function RangeCount(n: int): nat { if n < 0 then 0 else n }

  /** `run_cycles`: without an override it reads `config.iterations`, which
      `Config` does not have. */
  function CyclesResult(config: Config, processes: seq<PyProcess>, cellsData: seq<PyCell>, iterationsOverride: Option<int>,
                        distance: (PyPos, PyPos) -> real): Result<(seq<PyCell>, seq<seq<PyCell>>), PyError>
  {
    if iterationsOverride.None? then Err(AttributeError)
    else Cycles(config, processes, cellsData, None, distance, RangeCount(iterationsOverride.value))
  }

  /** A successful run logs one snapshot per iteration, the last being the final cells. */
  lemma {:induction false} CyclesLogs(config: Config, processes: seq<PyProcess>, cells: seq<PyCell>,
                                      networkMap: Option<seq<seq<int>>>, distance: (PyPos, PyPos) -> real, k: nat)
    requires Cycles(config, processes, cells, networkMap, distance, k).Ok?
    ensures |Cycles(config, processes, cells, networkMap, distance, k).value.1| == k
    ensures k > 0 ==> (Cycles(config, processes, cells, networkMap, distance, k).value.1[k - 1]
                       == Cycles(config, processes, cells, networkMap, distance, k).value.0)
    ensures |Cycles(config, processes, cells, networkMap, distance, k).value.0| == |cells|
    decreases k
  {
    if k > 0 {
      var out := Iteration(config, processes, cells, networkMap, distance);
      CyclesLogs(config, processes, out.cells, Some(out.result.value), distance, k - 1);
    }
  }

  /** `run_iteration`: steps 1 to 3 on the list in place. */
  method RunIteration(config: Config, processes: seq<PyProcess>, cells: array<PyCell>, networkMap: Option<seq<seq<int>>>,
                      distance: (PyPos, PyPos) -> real) returns (result: Result<seq<seq<int>>, PyError>)
    modifies cells
    ensures IterationOut(cells[..], result) == Iteration(config, processes, old(cells[..]), networkMap, distance)
  {
    var m := if networkMap.None? then NeighbourIndexMap(cells[..], distance) else networkMap.value;
    if |m| < cells.Length {
      return Err(IndexError);
    }
    var neighbours := ResolveAll(m[..cells.Length], cells[..]);
    if neighbours.Err? {
      return Err(neighbours.error);
    }
    var changes := FlattenChanges(CellUpdates(config, processes, cells[..], neighbours.value));
    var error := ApplyCellChanges(changes, cells);
    if error.Some? {
      return Err(error.value);
    }
    result := Ok(m);
  }

  /** `run_cycles`: copy the cells, iterate, log a copy after each iteration. */
  method RunCycles(config: Config, processes: seq<PyProcess>, cellsData: seq<PyCell>, iterationsOverride: Option<int>,
                   distance: (PyPos, PyPos) -> real) returns (r: Result<(seq<PyCell>, seq<seq<PyCell>>), PyError>)
    ensures r == CyclesResult(config, processes, cellsData, iterationsOverride, distance)
    ensures iterationsOverride.None? ==> r == Err(AttributeError)
  {
    if iterationsOverride.None? {
      return Err(AttributeError);
    }
    var count := RangeCount(iterationsOverride.value);
    var cells := new PyCell[|cellsData|](k requires 0 <= k < |cellsData| => cellsData[k]);
    assert cells[..] == cellsData;
    var networkMap: Option<seq<seq<int>>> := None;
    var logs: seq<seq<PyCell>> := [];
    ghost var whole := Cycles(config, processes, cellsData, None, distance, count);
    if whole.Ok? {
      assert [] + whole.value.1 == whole.value.1;
    }
    for i := 0 to count
      invariant Cycles(config, processes, cellsData, None, distance, count)
             == PrependLogs(logs, Cycles(config, processes, cells[..], networkMap, distance, count - i))
    {
      ghost var before := cells[..];
      var res := RunIteration(config, processes, cells, networkMap, distance);
      CyclesAdvance(config, processes, logs, before, networkMap, distance, count - i);
      if res.Err? {
        return Err(res.error);
      }
      networkMap := Some(res.value);
      logs := logs + [cells[..]];
    }
    assert logs + [] == logs;
    r := Ok((cells[..], logs));
  }

  /** The number of logged snapshots is the iteration count. */
  lemma RunCyclesLogCount(config: Config, processes: seq<PyProcess>, cellsData: seq<PyCell>, n: int,
                          distance: (PyPos, PyPos) -> real)
    requires CyclesResult(config, processes, cellsData, Some(n), distance).Ok?
    ensures |CyclesResult(config, processes, cellsData, Some(n), distance).value.1| == RangeCount(n)
  {
    CyclesLogs(config, processes, cellsData, None, distance, RangeCount(n));
  }
}

=== FILE: prototype_stale_map.dfy ===
/** The neighbour map of run_model.py as the code builds it: one list of
    cell values per cell. `run_cycles` hands the map of one iteration to the
    next, and `apply_cell_changes` replaces the changed cells by new values,
    so from the second iteration on every process sees the cells as they
    were when the first iteration built the map. The `Prototype` module keeps indices
    instead and resolves them against the current cells. */
module PrototypeStaleMap {
  import opened Wrappers
  import opened Prototype

  /** `run_iteration` as written: a supplied map of cell values is used as is. */
  function IterationAsWritten(config: Config, processes: seq<PyProcess>, cells: seq<PyCell>,
                              networkMap: Option<seq<seq<PyCell>>>, distance: (PyPos, PyPos) -> real)
    : (r: IterationOut<seq<seq<PyCell>>>)
    ensures |r.cells| == |cells|
    ensures r.result.Ok? ==> |r.result.value| >= |cells|
  {
    var m := if networkMap.None? then GetNeighbourMap(cells, distance) else networkMap.value;
    if |m| < |cells| then IterationOut(cells, Err(IndexError))
    else
      var applied := ApplyProcesses(config, processes, cells, m);
      IterationOut(applied.cells, if applied.error.Some? then Err(applied.error.value) else Ok(m))
  }

  /** `run_cycles` as written: the value map of each iteration goes to the next. */
  function CyclesAsWritten(config: Config, processes: seq<PyProcess>, cells: seq<PyCell>,
                           networkMap: Option<seq<seq<PyCell>>>, distance: (PyPos, PyPos) -> real, k: nat)
    : (r: Result<(seq<PyCell>, seq<seq<PyCell>>), PyError>)
    ensures r.Ok? ==> |r.value.0| == |cells| && |r.value.1| == k
    decreases k
  {
    if k == 0 then Ok((cells, []))
    else
      var out := IterationAsWritten(config, processes, cells, networkMap, distance);
      match out.result
      case Err(e) => Err(e)
      case Ok(m) => PrependLogs([out.cells], CyclesAsWritten(config, processes, out.cells, Some(m), distance, k - 1))
  }

  /** As written, a supplied map is handed back unchanged; without one, the
      fresh value map is returned. The number of cells never changes. */
  lemma IterationAsWrittenKeepsMap(config: Config, processes: seq<PyProcess>, cells: seq<PyCell>,
                                   networkMap: Option<seq<seq<PyCell>>>, distance: (PyPos, PyPos) -> real)
    ensures var out := IterationAsWritten(config, processes, cells, networkMap, distance);
            |out.cells| == |cells| &&
            (networkMap.Some? && out.result.Ok? ==> out.result.value == networkMap.value) &&
            (networkMap.None? && out.result.Ok? ==> out.result.value == GetNeighbourMap(cells, distance))
  {
  }

  /** As written, every cycle after the first is handed the very map the
      first built: the map passed on is the one passed in. */
  lemma CyclesAsWrittenPassesMapOn(config: Config, processes: seq<PyProcess>, cells: seq<PyCell>,
                                   m: seq<seq<PyCell>>, distance: (PyPos, PyPos) -> real, k: nat)
    requires k > 0
    ensures var out := IterationAsWritten(config, processes, cells, Some(m), distance);
            (CyclesAsWritten(config, processes, cells, Some(m), distance, k)
             == (if out.result.Err? then Err(out.result.error)
                 else PrependLogs([out.cells], CyclesAsWritten(config, processes, out.cells, Some(m), distance, k - 1))))
  {
    IterationAsWrittenKeepsMap(config, processes, cells, Some(m), distance);
  }

  /** As written, a successful run also logs one snapshot per iteration, the
      last being the final cells. */
  lemma {:induction false} CyclesAsWrittenLogs(config: Config, processes: seq<PyProcess>, cells: seq<PyCell>,
                                               networkMap: Option<seq<seq<PyCell>>>, distance: (PyPos, PyPos) -> real, k: nat)
    requires k > 0
    requires CyclesAsWritten(config, processes, cells, networkMap, distance, k).Ok?
    ensures |CyclesAsWritten(config, processes, cells, networkMap, distance, k).value.1| == k
    ensures CyclesAsWritten(config, processes, cells, networkMap, distance, k).value.1[k - 1]
         == CyclesAsWritten(config, processes, cells, networkMap, distance, k).value.0
    decreases k
  {
    var out := IterationAsWritten(config, processes, cells, networkMap, distance);
    var rest := CyclesAsWritten(config, processes, out.cells, Some(out.result.value), distance, k - 1);
    if k > 1 {
      CyclesAsWrittenLogs(config, processes, out.cells, Some(out.result.value), distance, k - 1);
    }
  }

  /** On a fresh map the code as written and the index map compute the same cells. */
  lemma FirstIterationAgrees(config: Config, processes: seq<PyProcess>, cells: seq<PyCell>,
                             distance: (PyPos, PyPos) -> real)
    ensures IterationAsWritten(config, processes, cells, None, distance).cells
         == Iteration(config, processes, cells, None, distance).cells
    ensures IterationAsWritten(config, processes, cells, None, distance).result.Ok?
        <==> Iteration(config, processes, cells, None, distance).result.Ok?
  {
    FreshIterationUsesNeighbourMap(config, processes, cells, distance);
  }

  // ---- a process that reads its neighbours ----

  /** The list index a cell's `uid` names. */
  function IndexOf(cell: PyCell): int
  {
    if cell.uid.Num? then cell.uid.n.Floor else 0
  }

  /** The summed populations of a list of cells; `None` counts as nothing. */
  function PopulationSum(cs: seq<PyCell>): real
  {
    if cs == [] then 0.0
    else (if cs[0].population.Num? then cs[0].population.n else 0.0) + PopulationSum(cs[1..])
  }

  /** Sets the cell's population to the total of its neighbours. */
  function Pool(config: Config, cell: PyCell, neighbours: seq<PyCell>): seq<Option<Change>>
  {
    [Some(Change(IndexOf(cell), [FieldChange("population", SET, Num(PopulationSum(neighbours)))]))]
  }

  /** Every point is at distance 0 from every other. */
  function ZeroDistance(p: PyPos, q: PyPos): real { 0.0 }

  /** With every cell at distance 0, every cell neighbours every cell. */
  lemma {:induction false} EveryoneNeighbours(cell: PyCell, cells: seq<PyCell>)
    ensures NeighbourList(cell, cells, ZeroDistance) == cells
  {
    if cells != [] {
      EveryoneNeighbours(cell, cells[..|cells| - 1]);
      assert cells[..|cells| - 1] + [cells[|cells| - 1]] == cells;
    }
  }

  lemma {:induction false} EveryIndexNeighbours(cell: PyCell, cells: seq<PyCell>)
    ensures NeighbourIndices(cell, cells, ZeroDistance) == seq(|cells|, k => k)
  {
    if cells != [] {
      var n := |cells| - 1;
      EveryIndexNeighbours(cell, cells[..n]);
      assert seq(n, k => k) + [n] == seq(|cells|, k => k);
    }
  }

  /** One round of `Pool` on two cells with uids 0 and 1 whose neighbour
      lists both sum to `total`. */
  lemma PoolRound(config: Config, cells: seq<PyCell>, nbs: seq<seq<PyCell>>, total: real)
    requires |cells| == 2 && cells[0].uid == Num(0.0) && cells[1].uid == Num(1.0)
    requires |nbs| == 2 && PopulationSum(nbs[0]) == total && PopulationSum(nbs[1]) == total
    ensures ApplyProcesses(config, [Pool], cells, nbs)
         == Applied([cells[0].(population := Num(total)), cells[1].(population := Num(total))], None)
  {
    var fc := [FieldChange("population", SET, Num(total))];
    var ch0 := Change(0, fc);
    var ch1 := Change(1, fc);
    assert [Pool][1..] == [];
    assert RunCellProcesses(config, [Pool], cells[0], nbs[0]) == [Some(ch0)];
    assert RunCellProcesses(config, [Pool], cells[1], nbs[1]) == [Some(ch1)];
    var updates := CellUpdates(config, [Pool], cells, nbs);
    assert updates == [Some([Some(ch0)]), Some([Some(ch1)])];
    assert [Some(ch0)][1..] == [] && [Some(ch1)][1..] == [];
    assert SomeItems([Some(ch0)]) == [ch0] && SomeItems([Some(ch1)]) == [ch1];
    assert updates[1..] == [Some([Some(ch1)])] && updates[1..][1..] == [];
    assert FlattenChanges(updates[1..]) == [ch1] + [];
    assert FlattenChanges(updates) == [ch0] + [ch1];
    assert [ch0] + [ch1] == [ch0, ch1];
    var data := [("population", Num(total))];
    assert fc[1..] == [] && data[1..] == [];
    assert [("population", Num(total))] + [] == data;
    assert UpdatedData(cells[0], fc) == Ok(data);
    assert UpdatedData(cells[1], fc) == Ok(data);
    var c0 := cells[0].(population := Num(total));
    var c1 := cells[1].(population := Num(total));
    assert ReplaceFields(cells[0], data) == Ok(c0);
    assert ReplaceFields(cells[1], data) == Ok(c1);
    var mid := cells[0 := c0];
    assert ApplyChange(cells, ch0) == Ok(mid);
    assert mid[1] == cells[1] && |mid| == 2;
    assert PyIndex(|mid|, 1) == Some(1);
    assert UpdatedData(mid[1], fc) == Ok(data);
    assert mid[1 := c1] == [c0, c1];
    assert ApplyChange(mid, ch1) == Ok([c0, c1]);
    assert [ch0, ch1][1..] == [ch1] && [ch1][1..] == [];
    assert ApplyAll([c0, c1], []) == Applied([c0, c1], None);
    assert ApplyAll(mid, [ch1]) == Applied([c0, c1], None);
    assert ApplyAll(cells, [ch0, ch1]) == Applied([c0, c1], None);
  }

  const Config0: Config := Config(0)
  /** Cell 0 holds 1, cell 1 holds 0; both stand at the origin. */
  const A0: PyCell := PyCell(Num(0.0), Num(1.0), Num(0.0), Num(0.0))
  const B0: PyCell := PyCell(Num(1.0), Num(0.0), Num(0.0), Num(0.0))

  function WithPopulation(c: PyCell, p: real): PyCell { c.(population := Num(p)) }

  lemma PopulationSums()
    ensures PopulationSum([A0, B0]) == 1.0
    ensures PopulationSum([WithPopulation(A0, 1.0), WithPopulation(B0, 1.0)]) == 2.0
  {
    assert [A0, B0][1..] == [B0] && [B0][1..] == [];
    assert PopulationSum([B0]) == 0.0;
    var a1 := WithPopulation(A0, 1.0);
    var b1 := WithPopulation(B0, 1.0);
    assert [a1, b1][1..] == [b1] && [b1][1..] == [];
    assert PopulationSum([b1]) == 1.0;
  }

  /** Two cycles as written: the second one still sees the populations 1
      and 0 of the first, and both cells end at 1. */
  lemma StaleCycles()
    ensures CyclesAsWritten(Config0, [Pool], [A0, B0], None, ZeroDistance, 2)
         == Ok(([WithPopulation(A0, 1.0), WithPopulation(B0, 1.0)],
                [[WithPopulation(A0, 1.0), WithPopulation(B0, 1.0)], [WithPopulation(A0, 1.0), WithPopulation(B0, 1.0)]]))
  {
    var cells0 := [A0, B0];
    var cells1 := [WithPopulation(A0, 1.0), WithPopulation(B0, 1.0)];
    EveryoneNeighbours(A0, cells0);
    EveryoneNeighbours(B0, cells0);
    var m := GetNeighbourMap(cells0, ZeroDistance);
    assert m == [cells0, cells0];
    PopulationSums();
    PoolRound(Config0, cells0, m, 1.0);
    assert IterationAsWritten(Config0, [Pool], cells0, None, ZeroDistance) == IterationOut(cells1, Ok(m));
    PoolRound(Config0, cells1, m, 1.0);
    assert IterationAsWritten(Config0, [Pool], cells1, Some(m), ZeroDistance) == IterationOut(cells1, Ok(m));
    assert CyclesAsWritten(Config0, [Pool], cells1, Some(m), ZeroDistance, 0) == Ok((cells1, []));
    assert [cells1] + [] == [cells1];
    assert CyclesAsWritten(Config0, [Pool], cells1, Some(m), ZeroDistance, 1) == Ok((cells1, [cells1]));
    assert [cells1] + [cells1] == [cells1, cells1];
  }

  lemma ResolveBoth(cells: seq<PyCell>)
    requires |cells| == 2
    ensures Resolve([0, 1], cells) == Ok(cells)
    ensures ResolveAll([[0, 1], [0, 1]], cells) == Ok([cells, cells])
  {
    assert [0, 1][1..] == [1] && [1][1..] == [];
    assert PyIndex(2, 0) == Some(0) && PyIndex(2, 1) == Some(1);
    assert Resolve([1], cells) == Ok([cells[1]] + []);
    assert [cells[0]] + ([cells[1]] + []) == cells;
    var rows: seq<seq<int>> := [[0, 1], [0, 1]];
    assert rows[1..] == [[0, 1]] && rows[1..][1..] == [];
    assert ResolveAll(rows[1..], cells) == Ok([cells] + []);
    assert [cells] + ([cells] + []) == [cells, cells];
  }

  /** The same two cycles with indices: the second sees the populations 1
      and 1, and both cells end at 2. */
  lemma FreshCycles()
    ensures Cycles(Config0, [Pool], [A0, B0], None, ZeroDistance, 2)
         == Ok(([WithPopulation(A0, 2.0), WithPopulation(B0, 2.0)],
                [[WithPopulation(A0, 1.0), WithPopulation(B0, 1.0)], [WithPopulation(A0, 2.0), WithPopulation(B0, 2.0)]]))
  {
    var cells0 := [A0, B0];
    var cells1 := [WithPopulation(A0, 1.0), WithPopulation(B0, 1.0)];
    var cells2 := [WithPopulation(A0, 2.0), WithPopulation(B0, 2.0)];
    EveryIndexNeighbours(A0, cells0);
    EveryIndexNeighbours(B0, cells0);
    var im := NeighbourIndexMap(cells0, ZeroDistance);
    assert seq(2, k => k) == [0, 1];
    assert im == [[0, 1], [0, 1]];
    assert im[..2] == im;
    assert [0, 1][1..] == [1] && [1][1..] == [];
    ResolveBoth(cells0);
    ResolveBoth(cells1);
    PopulationSums();
    PoolRound(Config0, cells0, [cells0, cells0], 1.0);
    assert Iteration(Config0, [Pool], cells0, None, ZeroDistance) == IterationOut(cells1, Ok(im));
    PoolRound(Config0, cells1, [cells1, cells1], 2.0);
    assert Iteration(Config0, [Pool], cells1, Some(im), ZeroDistance) == IterationOut(cells2, Ok(im));
    assert Cycles(Config0, [Pool], cells2, Some(im), ZeroDistance, 0) == Ok((cells2, []));
    assert [cells2] + [] == [cells2];
    assert Cycles(Config0, [Pool], cells1, Some(im), ZeroDistance, 1) == Ok((cells2, [cells2]));
    assert [cells1] + [cells2] == [cells1, cells2];
  }

  /** Reusing the value map is not the same as building a fresh one, though
      no cell moved: the property `ReusedMapIsFresh` proves for the index
      map fails for the map as written. */
  lemma StaleMapIsNotFresh()
    ensures var cells1 := [WithPopulation(A0, 1.0), WithPopulation(B0, 1.0)];
            (IterationAsWritten(Config0, [Pool], cells1, Some(GetNeighbourMap([A0, B0], ZeroDistance)), ZeroDistance).cells
             != IterationAsWritten(Config0, [Pool], cells1, None, ZeroDistance).cells)
  {
    var cells0 := [A0, B0];
    var cells1 := [WithPopulation(A0, 1.0), WithPopulation(B0, 1.0)];
    EveryoneNeighbours(A0, cells0);
    EveryoneNeighbours(B0, cells0);
    EveryoneNeighbours(cells1[0], cells1);
    EveryoneNeighbours(cells1[1], cells1);
    var m0 := GetNeighbourMap(cells0, ZeroDistance);
    var m1 := GetNeighbourMap(cells1, ZeroDistance);
    assert m0 == [cells0, cells0];
    assert m1 == [cells1, cells1];
    PopulationSums();
    PoolRound(Config0, cells1, m0, 1.0);
    PoolRound(Config0, cells1, m1, 2.0);
    assert IterationAsWritten(Config0, [Pool], cells1, Some(m0), ZeroDistance).cells[0].population == Num(1.0);
    assert IterationAsWritten(Config0, [Pool], cells1, None, ZeroDistance).cells[0].population == Num(2.0);
  }
}

=== FILE: runner_examples.dfy ===
/** The unit tests of the closure-based runners
    (src/process_runner/cells/run.rs, src/process_runner/global/run.rs),
    restated as lemmas about the model, together with an end-to-end run of
    the default example processes and the difference between batch and
    per-process application. */
module RunnerExamples {
  import opened MachineInts
  import opened CellIndexState
  import opened Wrappers
  import opened ExampleState
  import opened ExampleProcesses
  import GlobalRun
  import CellsRun

  /** Three cells at the origin with population 100. */
  function DemoCells(): seq<CellState>
  {
    [NewCell(0, Some(Origin), Some(100)), NewCell(1, Some(Origin), Some(100)), NewCell(2, Some(Origin), Some(100))]
  }

  /** Every cell neighbours the two others. */
  function DemoNetwork(): seq<seq<CellIndex>>
  {
    [[CellIndex(1), CellIndex(2)], [CellIndex(0), CellIndex(2)], [CellIndex(0), CellIndex(1)]]
  }

  /** `action_add_population_global!(k)`. */
  function AddGlobalPopulation(k: nat): GlobalState -> GlobalState
  {
    (g: GlobalState) => g.(population := g.population + k)
  }

  /** `demo_process_fn`: adds the global population (read at process time)
      to the cell, and queues a labelled global +1. */
  function DemoProcessFn(cell: CellState, neighbours: seq<CellState>, g: GlobalState): CellsRun.Updates<CellState, GlobalState>
  {
    ([CellsRun.CellUpdate(AddPopulation(g.population), cell.id)],
     [GlobalRun.GlobalUpdate("Global act for " + IntoString(cell.id), AddGlobalPopulation(1))])
  }

  function DemoProcesses(): seq<CellsRun.Process<CellState, GlobalState>>
  {
    [CellsRun.Process(0, DemoProcessFn), CellsRun.Process(1, DemoProcessFn)]
  }

  /** `demo_cell_updates`: six +11 updates, two per cell. */
  function DemoCellUpdates(): seq<CellsRun.CellUpdate<CellState>>
  {
    var add := AddPopulation(11);
    [CellsRun.CellUpdate(add, CellIndex(0)), CellsRun.CellUpdate(add, CellIndex(0)),
     CellsRun.CellUpdate(add, CellIndex(1)), CellsRun.CellUpdate(add, CellIndex(1)),
     CellsRun.CellUpdate(add, CellIndex(2)), CellsRun.CellUpdate(add, CellIndex(2))]
  }

  /** Adding 99 to cell 0 (population 100) gives 199, and the other cells keep theirs. */
  lemma AddNinetyNine()
    ensures CellsRun.TargetsIn([CellsRun.CellUpdate(AddPopulation(99), CellIndex(0))], |DemoCells()|)
    ensures CellsRun.FoldCellUpdates(DemoCells(), [CellsRun.CellUpdate(AddPopulation(99), CellIndex(0))])
            == DemoCells()[0 := DemoCells()[0].(population := 199)]
  {
  }

  /** The six demo updates: each cell gains 22, so cell 0 reaches 122. */
  lemma DemoUpdatesGive122()
    ensures CellsRun.TargetsIn(DemoCellUpdates(), |DemoCells()|)
    ensures var r := CellsRun.FoldCellUpdates(DemoCells(), DemoCellUpdates());
            r[0].population == 122 && r[1].population == 122 && r[2].population == 122
  {
    var cells := DemoCells();
    var us := DemoCellUpdates();
    forall i | 0 <= i < 3
      ensures CellsRun.FoldCellUpdates(cells, us)[i].population == 122
    {
      CellsRun.FoldCellUpdatesAt(cells, us, i);
      var add := AddPopulation(11);
      assert CellsRun.ActionsOn(us, i) == [add, add];
    }
  }

  /** The demo network names only the three cells. */
  lemma DemoNetworkFits()
    ensures CellsRun.NetworkFits(DemoCells(), DemoNetwork(), IdOf)
  {
  }

  /** `run_process` on cell 0: one update of each kind, aimed at cell 0 and
      labelled "Global act for 0". */
  lemma DemoRunProcess()
    ensures var u := CellsRun.RunProcess(DemoCells()[0], DemoProcesses()[0],
                                         [DemoCells()[1], DemoCells()[2]], NewGlobal(0));
            |u.0| == 1 && |u.1| == 1 && u.0[0].targetCell == CellIndex(0) && u.1[0].id == "Global act for 0"
  {
  }

  /** Both demo processes on one cell: two updates of each kind, aimed at
      that cell and labelled with its id. */
  lemma DemoProcessesOnCell(cell: CellState, neighbours: seq<CellState>, g: GlobalState)
    ensures var u := CellsRun.RunOnCell(cell, neighbours, DemoProcesses(), g);
            |u.0| == 2 && |u.1| == 2 &&
            u.0[0].targetCell == cell.id && u.0[1].targetCell == cell.id &&
            u.1[0].id == "Global act for " + IntoString(cell.id) && u.1[1].id == u.1[0].id
  {
    var p0, p1 := DemoProcesses()[0], DemoProcesses()[1];
    assert DemoProcesses() == [p0] + [p1];
    CellsRun.RunOnCellAppend(cell, neighbours, [p0], [p1], g);
    CellsRun.RunOnCellSingle(cell, neighbours, p0, g);
    CellsRun.RunOnCellSingle(cell, neighbours, p1, g);
  }

  /** Three cells and two processes: six cell updates aimed at 0, 0, 1, 1,
      2, 2 and six global updates labelled in the same cell order. */
  lemma DemoRunProcesses()
    ensures CellsRun.NetworkFits(DemoCells(), DemoNetwork(), IdOf)
    ensures var r := CellsRun.CollectUpdates(DemoCells(), DemoNetwork(), DemoProcesses(), NewGlobal(0), IdOf, 3);
            |r.0| == 6 && |r.1| == 6 &&
            (forall k :: 0 <= k < 6 ==> r.0[k].targetCell == CellIndex(k / 2)) &&
            r.1[0].id == "Global act for 0" && r.1[1].id == "Global act for 0" &&
            r.1[2].id == "Global act for 1" && r.1[3].id == "Global act for 1" &&
            r.1[4].id == "Global act for 2" && r.1[5].id == "Global act for 2"
  {
    var cells, network, ps, g := DemoCells(), DemoNetwork(), DemoProcesses(), NewGlobal(0);
    assert CellsRun.NetworkFits(cells, network, IdOf);
    var u0 := CellsRun.RunOnCell(cells[0], CellsRun.NeighboursOfCell(cells, network, IdOf, 0), ps, g);
    var u1 := CellsRun.RunOnCell(cells[1], CellsRun.NeighboursOfCell(cells, network, IdOf, 1), ps, g);
    var u2 := CellsRun.RunOnCell(cells[2], CellsRun.NeighboursOfCell(cells, network, IdOf, 2), ps, g);
    DemoProcessesOnCell(cells[0], CellsRun.NeighboursOfCell(cells, network, IdOf, 0), g);
    DemoProcessesOnCell(cells[1], CellsRun.NeighboursOfCell(cells, network, IdOf, 1), g);
    DemoProcessesOnCell(cells[2], CellsRun.NeighboursOfCell(cells, network, IdOf, 2), g);
    CellsRun.CollectUpdatesFirst(cells, network, ps, g, IdOf);
    var r := CellsRun.CollectUpdates(cells, network, ps, g, IdOf, 3);
    assert r.0 == u0.0 + u1.0 + u2.0;
    assert r.1 == u0.1 + u1.1 + u2.1;
    assert IntoString(CellIndex(0)) == "0" && IntoString(CellIndex(1)) == "1" && IntoString(CellIndex(2)) == "2";
  }

  /** One +11 global update on population 0 gives 11. */
  lemma GlobalAddEleven()
    ensures GlobalRun.FoldGlobalUpdates(NewGlobal(0), [GlobalRun.GlobalUpdate("Global act for 0", AddGlobalPopulation(11))]).population == 11
  {
  }

  /** Two +11 global updates on population 0 give 22. */
  lemma GlobalAddElevenTwice()
    ensures GlobalRun.FoldGlobalUpdates(NewGlobal(0),
              [GlobalRun.GlobalUpdate("Example global process", AddGlobalPopulation(11)),
               GlobalRun.GlobalUpdate("Example global process iter", AddGlobalPopulation(11))]).population == 22
  {
  }

  // ---- end to end: the default example processes ----

  /** Two cells, 12 and 40, neighbouring each other. */
  function PairCells(): seq<CellState>
  {
    [NewCell(0, None, Some(12)), NewCell(1, None, Some(40))]
  }

  function PairNetwork(): seq<seq<CellIndex>>
  {
    [[CellIndex(1)], [CellIndex(0)]]
  }

  function RunnerDefaultProcesses(): seq<CellsRun.Process<CellState, GlobalState>>
  {
    [AsRunnerProcess(DefaultProcesses()[0]), AsRunnerProcess(DefaultProcesses()[1])]
  }

  /** The default processes on a cell with one neighbour: a growth, then a
      move of the neighbour's rounded-up tenth, both aimed at the cell. */
  lemma DefaultProcessesOnCell(cell: CellState, other: CellState, g: GlobalState)
    ensures CellsRun.RunOnCell(cell, [other], RunnerDefaultProcesses(), g)
         == ([CellsRun.CellUpdate(GrowByTenth, cell.id), CellsRun.CellUpdate(AddPopulation(CeilTenth(other.population)), cell.id)], [])
  {
    var ps := RunnerDefaultProcesses();
    assert [other][..0] == [];
    assert Movement([other]) == CeilTenth(other.population);
    assert ps == [ps[0]] + [ps[1]];
    CellsRun.RunOnCellAppend(cell, [other], [ps[0]], [ps[1]], g);
    CellsRun.RunOnCellSingle(cell, [other], ps[0], g);
    CellsRun.RunOnCellSingle(cell, [other], ps[1], g);
    var grow := CellsRun.CellUpdate(GrowByTenth, cell.id);
    var move := CellsRun.CellUpdate(AddPopulation(CeilTenth(other.population)), cell.id);
    assert CellsRun.RunProcess(cell, ps[0], [other], g) == ([grow], []);
    assert CellsRun.RunProcess(cell, ps[1], [other], g) == ([move], []);
    assert [grow] + [move] == [grow, move];
  }

  /** The updates of the pair, collected in batch mode: a growth and a
      move of 4 for cell 0, a growth and a move of 2 for cell 1. */
  lemma PairUpdates()
    ensures CellsRun.NetworkFits(PairCells(), PairNetwork(), IdOf)
    ensures CellsRun.CollectUpdates(PairCells(), PairNetwork(), RunnerDefaultProcesses(), DefaultGlobal(), IdOf, 2)
         == ([CellsRun.CellUpdate(GrowByTenth, CellIndex(0)), CellsRun.CellUpdate(AddPopulation(4), CellIndex(0)),
              CellsRun.CellUpdate(GrowByTenth, CellIndex(1)), CellsRun.CellUpdate(AddPopulation(2), CellIndex(1))], [])
  {
    var cells, network, ps, g := PairCells(), PairNetwork(), RunnerDefaultProcesses(), DefaultGlobal();
    assert CellsRun.NetworkFits(cells, network, IdOf);
    assert CellsRun.NeighboursOfCell(cells, network, IdOf, 0) == [cells[1]];
    assert CellsRun.NeighboursOfCell(cells, network, IdOf, 1) == [cells[0]];
    DefaultProcessesOnCell(cells[0], cells[1], g);
    DefaultProcessesOnCell(cells[1], cells[0], g);
    CellsRun.CollectUpdatesFirst(cells, network, ps, g, IdOf);
    var all := CellsRun.CollectUpdates(cells, network, ps, g, IdOf, 2);
    var grow0, move0 := CellsRun.CellUpdate(GrowByTenth, CellIndex(0)), CellsRun.CellUpdate(AddPopulation(4), CellIndex(0));
    var grow1, move1 := CellsRun.CellUpdate(GrowByTenth, CellIndex(1)), CellsRun.CellUpdate(AddPopulation(2), CellIndex(1));
    assert all.0 == [grow0, move0, grow1, move1];
    assert all.1 == [];
  }

  /** Folding those updates into 12 and 40 in order: 13, 17, then 44, 46. */
  lemma PairFold()
    ensures var r := CellsRun.FoldCellUpdates(PairCells(),
              [CellsRun.CellUpdate(GrowByTenth, CellIndex(0)), CellsRun.CellUpdate(AddPopulation(4), CellIndex(0)),
               CellsRun.CellUpdate(GrowByTenth, CellIndex(1)), CellsRun.CellUpdate(AddPopulation(2), CellIndex(1))]);
            r[0].population == 17 && r[1].population == 46
  {
    var cells := PairCells();
    var grow0, move0 := CellsRun.CellUpdate(GrowByTenth, CellIndex(0)), CellsRun.CellUpdate(AddPopulation(4), CellIndex(0));
    var grow1, move1 := CellsRun.CellUpdate(GrowByTenth, CellIndex(1)), CellsRun.CellUpdate(AddPopulation(2), CellIndex(1));
    var s1 := cells[0 := cells[0].(population := 13)];
    var s2 := s1[0 := s1[0].(population := 17)];
    var s3 := s2[1 := s2[1].(population := 44)];
    var s4 := s3[1 := s3[1].(population := 46)];
    assert CellsRun.FoldCellUpdates(cells, [grow0, move0, grow1, move1]) == CellsRun.FoldCellUpdates(s1, [move0, grow1, move1]);
    assert CellsRun.FoldCellUpdates(s1, [move0, grow1, move1]) == CellsRun.FoldCellUpdates(s2, [grow1, move1]);
    assert CellsRun.FoldCellUpdates(s2, [grow1, move1]) == CellsRun.FoldCellUpdates(s3, [move1]);
    assert CellsRun.FoldCellUpdates(s3, [move1]) == s4;
  }

  /** One batch step: 12 gains 1 (its own tenth) and then 4 (the rounded-up
      tenth of 40), 40 gains 4 and then 2. */
  lemma DefaultProcessesOnPair()
    ensures CellsRun.RunBatch(PairCells(), PairNetwork(), RunnerDefaultProcesses(), DefaultGlobal(), IdOf).Some?
    ensures var r := CellsRun.RunBatch(PairCells(), PairNetwork(), RunnerDefaultProcesses(), DefaultGlobal(), IdOf).value;
            r.0[0].population == 17 && r.0[1].population == 46 && r.1 == []
  {
    PairUpdates();
    PairFold();
  }

  // ---- batch versus per-process application ----

  /** Adds one when applied. */
  function AddOne(cell: CellState, neighbours: seq<CellState>, g: GlobalState): CellsRun.Updates<CellState, GlobalState>
  {
    ([CellsRun.CellUpdate(AddPopulation(1), cell.id)], [])
  }

  /** Decides on the population it SEES: at most 5 queues a reset to 0,
      otherwise an update that changes nothing. */
  function ResetIfSmall(cell: CellState, neighbours: seq<CellState>, g: GlobalState): CellsRun.Updates<CellState, GlobalState>
  {
    var act := if cell.population <= 5 then (c: CellState) => c.(population := 0) else (c: CellState) => c;
    ([CellsRun.CellUpdate(act, cell.id)], [])
  }

  function FiveCells(): seq<CellState>
  {
    [NewCell(0, None, Some(5))]
  }

  function AddThenReset(): seq<CellsRun.Process<CellState, GlobalState>>
  {
    [CellsRun.Process(0, AddOne), CellsRun.Process(1, ResetIfSmall)]
  }

  /** Batch mode on one cell of population 5: both processes saw 5, so the
      queued +1 is followed by a reset and the cell ends at 0. */
  lemma BatchResets()
    ensures CellsRun.RunBatch(FiveCells(), [[]], AddThenReset(), DefaultGlobal(), IdOf).Some?
    ensures CellsRun.RunBatch(FiveCells(), [[]], AddThenReset(), DefaultGlobal(), IdOf).value.0[0].population == 0
  {
    var cells, ps, g := FiveCells(), AddThenReset(), DefaultGlobal();
    var p0, p1 := ps[0], ps[1];
    assert CellsRun.NetworkFits(cells, [[]], IdOf);
    assert ps == [p0] + [p1];
    CellsRun.RunOnCellAppend(cells[0], [], [p0], [p1], g);
    CellsRun.RunOnCellSingle(cells[0], [], p0, g);
    CellsRun.RunOnCellSingle(cells[0], [], p1, g);
    CellsRun.CollectUpdatesFirst(cells, [[]], ps, g, IdOf);
    var all := CellsRun.CollectUpdates(cells, [[]], ps, g, IdOf, 1);
    assert all.0 == AddOne(cells[0], [], g).0 + ResetIfSmall(cells[0], [], g).0;
    var s1 := [cells[0].(population := 6)];
    assert all.0[0].targetCell == CellIndex(0) && all.0[0].action(cells[0]) == s1[0];
    assert cells[0 := all.0[0].action(cells[0])] == s1;
    assert CellsRun.FoldCellUpdates(cells, all.0) == CellsRun.FoldCellUpdates(s1, all.0[1..]);
    var reset := all.0[1..][0];
    assert reset.targetCell == CellIndex(0) && reset.action(s1[0]).population == 0;
    assert all.0[1..][1..] == [];
    var s2 := s1[0 := reset.action(s1[0])];
    assert CellsRun.FoldCellUpdates(s1, all.0[1..]) == CellsRun.FoldCellUpdates(s2, all.0[1..][1..]);
    assert CellsRun.FoldCellUpdates(s2, []) == s2;
    assert s2[0].population == 0;
  }

  /** Per-process mode on the same input: the reset runs after the +1 was
      applied, sees 6, and leaves the cell at 6. */
  lemma SerialKeepsSix()
    ensures CellsRun.RunSerial(FiveCells(), [[]], AddThenReset(), DefaultGlobal(), IdOf).Some?
    ensures CellsRun.RunSerial(FiveCells(), [[]], AddThenReset(), DefaultGlobal(), IdOf).value.0[0].population == 6
  {
    var cells, ps, g := FiveCells(), AddThenReset(), DefaultGlobal();
    var p0, p1 := ps[0], ps[1];
    assert CellsRun.NetworkFits(cells, [[]], IdOf);
    CellsRun.RunOnCellSingle(cells[0], [], p0, g);
    CellsRun.CollectUpdatesFirst(cells, [[]], [p0], g, IdOf);
    var step := CellsRun.CollectUpdates(cells, [[]], [ps[0]], g, IdOf, 1);
    assert step.0 == AddOne(cells[0], [], g).0;
    var mid := CellsRun.FoldCellUpdates(cells, step.0);
    assert mid == [cells[0].(population := 6)];
    assert CellsRun.NetworkFits(mid, [[]], IdOf);
    CellsRun.RunOnCellSingle(mid[0], [], p1, g);
    CellsRun.CollectUpdatesFirst(mid, [[]], [p1], g, IdOf);
    var step2 := CellsRun.CollectUpdates(mid, [[]], [p1], g, IdOf, 1);
    assert step2.0 == ResetIfSmall(mid[0], [], g).0;
    var last := CellsRun.FoldCellUpdates(mid, step2.0);
    assert step2.0[0].action(mid[0]) == mid[0];
    assert mid[0 := mid[0]] == mid;
    assert step2.0[1..] == [];
    assert last == mid;
    assert [p1][1..] == [];
    assert CellsRun.RunSerial(last, [[]], [], g, IdOf) == Some((last, []));
    assert CellsRun.RunSerial(mid, [[]], [p1], g, IdOf) == Some((last, step2.1 + []));
    assert ps[1..] == [p1];
    assert CellsRun.RunSerial(cells, [[]], ps, g, IdOf) == Some((last, step.1 + (step2.1 + [])));
  }
}

=== FILE: tagged_examples.dfy ===
/** The example processes of the tagged generation
    (src/process_runner/example_processes.rs): growth by a tenth of the
    cell's own population and migration of a tenth of every neighbour's
    population into the cell, both as ADD updates on "population". */
module TaggedExamples {
  import opened MachineInts
  import opened CellIndexState
  import opened Wrappers
  import opened TaggedProcess
  import opened TaggedState
  import opened TaggedRun

  /** `example_process`: one ADD of `population / 10`, cast to `i32`. The
      tenth of a `u32` always fits in an `i32`, so the cast keeps the value. */
  function ExampleProcess(cell: CellRecord, neighbours: seq<CellRecord>): (r: Outcome<seq<CellUpdate>>)
    ensures r.Ok? && |r.value| == 1
    ensures r.value[0].action == ADD && r.value[0].targetCell == cell.id
    ensures r.value[0].targetField == "population"
    ensures r.value[0].value.NumberI? && 10 * r.value[0].value.i <= cell.population < 10 * r.value[0].value.i + 10
  {
    Ok([CellUpdate(ADD, cell.id, "population", NumberI(U32AsI32(cell.population / 10)))])
  }

  /** The sum of the neighbours' tenths, on unbounded integers. */
  function MigrationSum(neighbours: seq<CellRecord>): nat
  {
    if neighbours == [] then 0
    else MigrationSum(neighbours[..|neighbours| - 1]) + neighbours[|neighbours| - 1].population / 10
  }

  /** What `population_migration` computes: the `u32` accumulator panics if
      the sum leaves `u32`; otherwise one ADD of the sum cast to `i32`. */
  function PopulationMigrationSpec(cell: CellRecord, neighbours: seq<CellRecord>): Outcome<seq<CellUpdate>>
  {
    if MigrationSum(neighbours) <= U32_MAX
    then Ok([CellUpdate(ADD, cell.id, "population", NumberI(U32AsI32(MigrationSum(neighbours))))])
    else Err(OverflowPanic)
  }

  /** A longer prefix never has a smaller sum (for the migration of
      `src/process_runner/example_processes.rs`; the integer-only runner's is
      `IntegerRunner.MigrationSumPrefix`). */
  lemma {:induction false} MigrationSumPrefix(neighbours: seq<CellRecord>, j: nat)
    requires j <= |neighbours|
    ensures MigrationSum(neighbours[..j]) <= MigrationSum(neighbours)
    decreases |neighbours|
  {
    if j < |neighbours| {
      var init := neighbours[..|neighbours| - 1];
      assert neighbours[..j] == init[..j];
      MigrationSumPrefix(init, j);
    } else {
      assert neighbours[..j] == neighbours;
    }
  }

  /** `population_migration`: the loop over the neighbours with a `u32`
      accumulator. */
  method PopulationMigration(cell: CellRecord, neighbours: seq<CellRecord>) returns (r: Outcome<seq<CellUpdate>>)
    ensures r == PopulationMigrationSpec(cell, neighbours)
    ensures r.Err? <==> MigrationSum(neighbours) > U32_MAX
  {
    var movement: u32 := 0;
    for k := 0 to |neighbours|
      invariant movement == MigrationSum(neighbours[..k])
    {
      assert neighbours[..k + 1][..k] == neighbours[..k];
      var next := movement + neighbours[k].population / 10;
      if next > U32_MAX {
        MigrationSumPrefix(neighbours, k + 1);
        return Err(OverflowPanic);
      }
      movement := next;
    }
    assert neighbours[..|neighbours|] == neighbours;
    r := Ok([CellUpdate(ADD, cell.id, "population", NumberI(U32AsI32(movement)))]);
  }

  /** Each tenth is at most `u32::MAX / 10`, so the sum is bounded by the
      number of neighbours times that. */
  lemma {:induction false} MigrationSumBound(neighbours: seq<CellRecord>)
    ensures MigrationSum(neighbours) <= |neighbours| * (U32_MAX / 10)
  {
    if neighbours != [] {
      MigrationSumBound(neighbours[..|neighbours| - 1]);
    }
  }

  /** With at most ten neighbours the accumulator cannot overflow. */
  lemma MigrationNeverPanicsUpToTen(cell: CellRecord, neighbours: seq<CellRecord>)
    requires |neighbours| <= 10
    ensures PopulationMigrationSpec(cell, neighbours).Ok?
  {
    MigrationSumBound(neighbours);
  }

  /** Eleven neighbours at the `u32` maximum make it panic. */
  lemma MigrationPanicsOnElevenFullCells(cell: CellRecord, full: CellRecord)
    requires full.population == U32_MAX
    ensures PopulationMigrationSpec(cell, seq(11, _ => full)) == Err(OverflowPanic)
  {
    var ns := seq(11, _ => full);
    var k := 0;
    while k < 11
      invariant k <= 11
      invariant MigrationSum(ns[..k]) == k * (U32_MAX / 10)
    {
      assert ns[..k + 1][..k] == ns[..k];
      k := k + 1;
    }
    assert ns[..11] == ns;
  }

  /** A migrated sum above `i32::MAX` turns into a negative payload. */
  lemma MigrationCastWraps(cell: CellRecord, neighbours: seq<CellRecord>)
    requires I32_MAX < MigrationSum(neighbours) <= U32_MAX
    ensures PopulationMigrationSpec(cell, neighbours).Ok?
    ensures PopulationMigrationSpec(cell, neighbours).value[0].value.i == MigrationSum(neighbours) - U32_LIMIT < 0
  {
  }

  /** `default_processes` of `src/process_runner/example_processes.rs`:
      growth with id 0, then migration with id 1. The integer-only runner's
      test builds the same pair as `IntegerRunner.TestProcesses`. */
  function DefaultProcesses(): (ps: seq<RecordProcess>)
    ensures |ps| == 2 && ps[0].id == 0 && ps[1].id == 1
  {
    [Process(0, ExampleProcess), Process(1, PopulationMigrationSpec)]
  }

  // ---- one iteration on two neighbouring cells ----

  function PairRecords(): seq<CellRecord>
  {
    [CellRecord(CellIndex(0), Origin, 12, 1.0, 0, 1.0, 0.0),
     CellRecord(CellIndex(1), Origin, 40, 1.0, 0, 1.0, 0.0)]
  }

  /** A distance under which every cell is next to every other. */
  function ZeroDistance(p: Point, q: Point): real { 0.0 }

  /** Under the zero distance each cell of the pair is related to the other
      one and not to itself. */
  lemma PairRelated()
    ensures var rel := Network.NeighbourRelation(RecordId, RecordPosition, ZeroDistance, Network.NeighbourDistance);
            var recs := PairRecords();
            !rel(recs[0], recs[0]) && !rel(recs[1], recs[1]) && rel(recs[0], recs[1]) && rel(recs[1], recs[0])
  {
    var recs := PairRecords();
    assert Network.CheckIsNeighbour(CellIndex(0), Origin, CellIndex(1), Origin, ZeroDistance, Network.NeighbourDistance);
    assert Network.CheckIsNeighbour(CellIndex(1), Origin, CellIndex(0), Origin, ZeroDistance, Network.NeighbourDistance);
    assert !Network.CheckIsNeighbour(CellIndex(0), Origin, CellIndex(0), Origin, ZeroDistance, Network.NeighbourDistance);
    assert !Network.CheckIsNeighbour(CellIndex(1), Origin, CellIndex(1), Origin, ZeroDistance, Network.NeighbourDistance);
    assert RecordId(recs[0]) == CellIndex(0) && RecordId(recs[1]) == CellIndex(1);
    assert RecordPosition(recs[0]) == Origin && RecordPosition(recs[1]) == Origin;
  }

  /** Two cells at the same place are each other's only neighbour. */
  lemma PairNetwork()
    ensures DerivedNetwork(PairRecords(), ZeroDistance)
         == [[CellIndex(1)], [CellIndex(0)]]
  {
    var recs := PairRecords();
    var rel := Network.NeighbourRelation(RecordId, RecordPosition, ZeroDistance, Network.NeighbourDistance);
    PairRelated();
    assert recs[..1][..0] == [];
    assert recs[..1] == [recs[0]];
    assert Network.NeighbourIds(recs[0], recs[..1], rel, RecordId) == [];
    assert Network.NeighbourIds(recs[1], recs[..1], rel, RecordId) == [CellIndex(0)];
    assert recs[..|recs| - 1] == recs[..1];
    assert Network.NeighbourIds(recs[0], recs, rel, RecordId) == [CellIndex(1)];
    assert Network.NeighbourIds(recs[1], recs, rel, RecordId) == [CellIndex(0)];
    var network := DerivedNetwork(recs, ZeroDistance);
    assert network[0] == [CellIndex(1)] && network[1] == [CellIndex(0)];
  }

  /** The four updates of the pair: cell 0 gets +1 (growth) and +4
      (migration from 40), cell 1 gets +4 and +1. */
  function PairUpdates(): seq<CellUpdate>
  {
    [CellUpdate(ADD, CellIndex(0), "population", NumberI(1)), CellUpdate(ADD, CellIndex(0), "population", NumberI(4)),
     CellUpdate(ADD, CellIndex(1), "population", NumberI(4)), CellUpdate(ADD, CellIndex(1), "population", NumberI(1))]
  }

  /** Both default processes on each cell of the pair, the other cell being
      its only neighbour. */
  lemma PairCellRuns()
    ensures RunOnCell(PairRecords()[0], [PairRecords()[1]], DefaultProcesses()) == Ok(PairUpdates()[..2])
    ensures RunOnCell(PairRecords()[1], [PairRecords()[0]], DefaultProcesses()) == Ok(PairUpdates()[2..])
  {
    var recs := PairRecords();
    var ps := DefaultProcesses();
    var u := PairUpdates();
    assert [recs[1]][..0] == [] && [recs[0]][..0] == [];
    assert MigrationSum([recs[1]]) == 4;
    assert MigrationSum([recs[0]]) == 1;
    assert ps[1..][1..] == [];
    assert RunProcess(recs[0], ps[0], [recs[1]]) == Ok([u[0]]);
    assert RunProcess(recs[0], ps[1], [recs[1]]) == Ok([u[1]]);
    assert [u[1]] + [] == [u[1]] && [u[0]] + [u[1]] == u[..2];
    assert RunOnCell(recs[0], [recs[1]], ps[1..]) == Ok([u[1]]);
    assert RunProcess(recs[1], ps[0], [recs[0]]) == Ok([u[2]]);
    assert RunProcess(recs[1], ps[1], [recs[0]]) == Ok([u[3]]);
    assert [u[3]] + [] == [u[3]] && [u[2]] + [u[3]] == u[2..];
    assert RunOnCell(recs[1], [recs[0]], ps[1..]) == Ok([u[3]]);
  }

  /** The pair's updates, collected cell by cell. */
  lemma PairCollect()
    ensures CollectFrom(PairRecords(), [[CellIndex(1)], [CellIndex(0)]], DefaultProcesses(), 0) == Ok(PairUpdates())
  {
    var recs := PairRecords();
    var net := [[CellIndex(1)], [CellIndex(0)]];
    var ps := DefaultProcesses();
    var u := PairUpdates();
    PairCellRuns();
    var nb0 := NeighbourRecords(recs, net[0]);
    var nb1 := NeighbourRecords(recs, net[1]);
    assert nb0.Ok? && |nb0.value| == 1 && nb0.value[0] == recs[1];
    assert nb0.value == [recs[1]];
    assert nb1.Ok? && |nb1.value| == 1 && nb1.value[0] == recs[0];
    assert nb1.value == [recs[0]];
    var rest := CollectFrom(recs, net, ps, 2);
    assert rest.Ok? && rest.value == [];
    assert u[2..] + rest.value == u[2..];
    assert recs[1].id.value == 1;
    assert CollectFrom(recs, net, ps, 1) == Ok(u[2..]);
    assert u[..2] + u[2..] == u;
  }

  /** Applying the pair's updates in order: 13, 17, then 44, 45. */
  lemma PairFold()
    ensures FoldApply(PairRecords(), PairUpdates()) == Ok([PairRecords()[0].(population := 17), PairRecords()[1].(population := 45)])
  {
    var recs := PairRecords();
    var u := PairUpdates();
    var s1 := recs[0 := recs[0].(population := 13)];
    var s2 := s1[0 := s1[0].(population := 17)];
    var s3 := s2[1 := s2[1].(population := 44)];
    var s4 := s3[1 := s3[1].(population := 45)];
    AddPositiveIncreases(recs[0], CellIndex(0), 1);
    AddPositiveIncreases(s1[0], CellIndex(0), 4);
    AddPositiveIncreases(s2[1], CellIndex(1), 4);
    AddPositiveIncreases(s3[1], CellIndex(1), 1);
    assert u[1..] == [u[1], u[2], u[3]];
    assert u[1..][1..] == [u[2], u[3]];
    assert u[1..][1..][1..] == [u[3]];
    assert u[1..][1..][1..][1..] == [];
    assert FoldApply(s4, []) == Ok(s4);
    assert FoldApply(s3, [u[3]]) == Ok(s4);
    assert FoldApply(s2, [u[2], u[3]]) == Ok(s4);
    assert FoldApply(s1, [u[1], u[2], u[3]]) == Ok(s4);
    assert s4 == [recs[0].(population := 17), recs[1].(population := 45)];
  }

  /** Populations 12 and 40 become 12 + 1 + 4 = 17 and 40 + 4 + 1 = 45. */
  lemma PairIteration()
    ensures var updates := CollectFrom(PairRecords(), [[CellIndex(1)], [CellIndex(0)]], DefaultProcesses(), 0);
            updates.Ok? &&
            FoldApply(PairRecords(), updates.value).Ok? &&
            FoldApply(PairRecords(), updates.value).value
              == [PairRecords()[0].(population := 17), PairRecords()[1].(population := 45)]
  {
    PairCollect();
    PairFold();
  }
}

=== FILE: tagged_run.dfy ===
/** The runner of the tagged generation (src/process_runner/run.rs).

    One iteration derives the network from the cells, runs every process on
    every cell against the unmodified cells (cell-major, process-minor),
    applies the queued updates in order through each cell's `apply`, and
    increments the iteration counter. Every panic on the way is an `Err`. */
module TaggedRun {
  import opened MachineInts
  import opened CellIndexState
  import opened Wrappers
  import opened TaggedProcess
  import opened TaggedState
  import Network

  /** `GlobalState { iterations }`. */
  datatype GlobalState = GlobalState(iterations: u32)

  /** `IterationState { cells, network, global_state }`. */
  datatype IterationState = IterationState(cells: seq<CellState>, network: seq<seq<CellIndex>>, globalState: GlobalState)

  type RecordProcess = Process<CellRecord>

  /** `get_next_global_state`: the counter goes up by one (the `u32`
      addition would panic at the maximum). */
  function GetNextGlobalState(g: GlobalState): (r: GlobalState)
    requires g.iterations < U32_MAX
    ensures r.iterations == g.iterations + 1
  {
    GlobalState(g.iterations + 1)
  }

  /** `run_process`: exactly what the process function returns. */
  function RunProcess(cell: CellRecord, p: RecordProcess, neighbours: seq<CellRecord>): Outcome<seq<CellUpdate>>
  {
    p.func(cell, neighbours)
  }

  /** `us` in front of a successful list; an error passes through. */
  function Prepend(us: seq<CellUpdate>, rest: Outcome<seq<CellUpdate>>): Outcome<seq<CellUpdate>>
  {
    match rest
    case Err(e) => Err(e)
    case Ok(vs) => Ok(us + vs)
  }

  lemma PrependNothing(rest: Outcome<seq<CellUpdate>>)
    ensures Prepend([], rest) == rest
  {
    if rest.Ok? {
      assert [] + rest.value == rest.value;
    }
  }

  lemma PrependPrepend(a: seq<CellUpdate>, b: seq<CellUpdate>, rest: Outcome<seq<CellUpdate>>)
    ensures Prepend(a, Prepend(b, rest)) == Prepend(a + b, rest)
  {
    if rest.Ok? {
      assert a + (b + rest.value) == a + b + rest.value;
    }
  }

  /** All processes on one cell, in registration order; the first panic stops the run. */
  function RunOnCell(cell: CellRecord, neighbours: seq<CellRecord>, processes: seq<RecordProcess>): Outcome<seq<CellUpdate>>
  {
    if processes == [] then Ok([])
    else match RunProcess(cell, processes[0], neighbours)
      case Err(e) => Err(e)
      case Ok(us) => Prepend(us, RunOnCell(cell, neighbours, processes[1..]))
  }

  /** The records a network row names, in row order; an id outside the
      cells panics. */
  function NeighbourRecords(records: seq<CellRecord>, row: seq<CellIndex>): (r: Outcome<seq<CellRecord>>)
    ensures r.Ok? <==> forall k :: 0 <= k < |row| ==> row[k].value < |records|
    ensures r.Ok? ==> |r.value| == |row| && forall k :: 0 <= k < |row| ==> r.value[k] == records[row[k].value]
  {
    if forall k :: 0 <= k < |row| ==> row[k].value < |records| then
      Ok(seq(|row|, k requires 0 <= k < |row| => records[row[k].value]))
    else Err(IndexPanic)
  }

  /** The updates of cells `i..`: each cell's neighbours are the records its
      network row names, and every process sees the same input records. */
  function CollectFrom(records: seq<CellRecord>, network: seq<seq<CellIndex>>, processes: seq<RecordProcess>,
                       i: nat): Outcome<seq<CellUpdate>>
    requires i <= |records|
    decreases |records| - i
  {
    if i == |records| then Ok([])
    else
      var id := records[i].id.value;
      if id >= |network| then Err(IndexPanic)
      else match NeighbourRecords(records, network[id])
        case Err(e) => Err(e)
        case Ok(neighbours) =>
          match RunOnCell(records[i], neighbours, processes)
          case Err(e) => Err(e)
          case Ok(us) => Prepend(us, CollectFrom(records, network, processes, i + 1))
  }

  /** The values of the cells, in order. */
  function Records(cells: seq<CellState>): (r: seq<CellRecord>)
    reads set c | c in cells
    ensures |r| == |cells|
    ensures forall k :: 0 <= k < |cells| ==> r[k] == cells[k].Record()
  {
    seq(|cells|, k reads set c | c in cells requires 0 <= k < |cells| => cells[k].Record())
  }

  /** `run_processes`: the nested loops appending each process's updates. */
  method RunProcesses(cells: seq<CellState>, network: seq<seq<CellIndex>>, processes: seq<RecordProcess>)
    returns (outcome: Outcome<seq<CellUpdate>>)
    ensures outcome == CollectFrom(Records(cells), network, processes, 0)
  {
    var records := Records(cells);
    var updates := [];
    PrependNothing(CollectFrom(records, network, processes, 0));
    for i := 0 to |cells|
      invariant CollectFrom(records, network, processes, 0) == Prepend(updates, CollectFrom(records, network, processes, i))
    {
      var cell := cells[i].Record();
      var id := cell.id.value;
      if id >= |network| {
        return Err(IndexPanic);
      }
      var neighbours := NeighbourRecords(records, network[id]);
      if neighbours.Err? {
        return Err(neighbours.error);
      }
      ghost var before := updates;
      ghost var rest := CollectFrom(records, network, processes, i + 1);
      assert processes[0..] == processes;
      assert updates[|before|..] == [];
      PrependNothing(RunOnCell(cell, neighbours.value, processes));
      for j := 0 to |processes|
        invariant before <= updates
        invariant RunOnCell(cell, neighbours.value, processes)
               == Prepend(updates[|before|..], RunOnCell(cell, neighbours.value, processes[j..]))
      {
        assert processes[j..][1..] == processes[j + 1..];
        var us := RunProcess(cell, processes[j], neighbours.value);
        if us.Err? {
          return Err(us.error);
        }
        PrependPrepend(updates[|before|..], us.value, RunOnCell(cell, neighbours.value, processes[j + 1..]));
        assert (updates + us.value)[|before|..] == updates[|before|..] + us.value;
        updates := updates + us.value;
      }
      ghost var mine := updates[|before|..];
      assert processes[|processes|..] == [];
      assert mine + [] == mine;
      assert updates == before + mine;
      PrependPrepend(before, mine, rest);
    }
    assert updates + [] == updates;
    outcome := Ok(updates);
  }

  /** Left fold of `apply` over the records: an update names its cell by
      index (a missing index panics) and changes it as `ApplyRecord` says. */
  function FoldApply(records: seq<CellRecord>, updates: seq<CellUpdate>): (r: Outcome<seq<CellRecord>>)
    ensures r.Ok? ==> |r.value| == |records|
    decreases |updates|
  {
    if updates == [] then Ok(records)
    else
      var id := updates[0].targetCell.value;
      if id >= |records| then Err(IndexPanic)
      else match ApplyRecord(records[id], updates[0])
        case Err(e) => Err(e)
        case Ok(r) => FoldApply(records[id := r], updates[1..])
  }

  /** Distinct cell objects: a `Vec` of owned values never aliases. */
  predicate Distinct(cells: seq<CellState>) {
    forall a, b :: 0 <= a < b < |cells| ==> cells[a] != cells[b]
  }

  /** `apply_cell_updates`: calls `apply` on the target of each update, in order. */
  method ApplyCellUpdates(cells: seq<CellState>, updates: seq<CellUpdate>) returns (outcome: Outcome<()>)
    requires Distinct(cells)
    modifies set c | c in cells
    ensures outcome.Ok? <==> FoldApply(old(Records(cells)), updates).Ok?
    ensures outcome.Ok? ==> Records(cells) == FoldApply(old(Records(cells)), updates).value
    ensures outcome.Err? ==> outcome.error == FoldApply(old(Records(cells)), updates).error
  {
    for i := 0 to |updates|
      invariant FoldApply(Records(cells), updates[i..]) == FoldApply(old(Records(cells)), updates)
    {
      assert updates[i..][1..] == updates[i + 1..];
      var id := updates[i].targetCell.value;
      if id >= |cells| {
        return Err(IndexPanic);
      }
      ghost var recs := Records(cells);
      var r := cells[id].Apply(updates[i]);
      if r.Err? {
        return Err(r.error);
      }
      forall k | 0 <= k < |cells| && k != id
        ensures cells[k].Record() == recs[k]
      {
        assert cells[k] != cells[id];
      }
      assert Records(cells) == recs[id := cells[id].Record()];
    }
    assert updates[|updates|..] == [];
    outcome := Ok(());
  }

  /** A record's id and position, as the network derivation reads them. */
  function RecordId(r: CellRecord): CellIndex { r.id }
  function RecordPosition(r: CellRecord): Point { r.position }

  /** The network `run_iteration` derives from the records: `check_is_neighbour`
      with its fixed 40000.0 threshold. */
  function DerivedNetwork(records: seq<CellRecord>, distance: (Point, Point) -> real): seq<seq<CellIndex>>
  {
    Network.NetworkMap(records, Network.NeighbourRelation(RecordId, RecordPosition, distance, Network.NeighbourDistance), RecordId)
  }

  /** `run_iteration`: derive the network, collect every update from the
      pre-iteration cells, apply them once, count the iteration. */
  method RunIteration(processes: seq<RecordProcess>, input: IterationState,
                      distance: (Point, Point) -> real)
    returns (outcome: Outcome<IterationState>)
    requires Distinct(input.cells)
    requires input.globalState.iterations < U32_MAX
    modifies set c | c in input.cells
    ensures var records := old(Records(input.cells));
            var network := DerivedNetwork(records, distance);
            var updates := CollectFrom(records, network, processes, 0);
            (outcome.Ok? <==> updates.Ok? && FoldApply(records, updates.value).Ok?) &&
            (outcome.Ok? ==>
               outcome.value.cells == input.cells &&
               outcome.value.network == network &&
               outcome.value.globalState.iterations == input.globalState.iterations + 1 &&
               Records(input.cells) == FoldApply(records, updates.value).value)
  {
    var network := Network.GetNetworkMap(Records(input.cells),
                                         Network.NeighbourRelation(RecordId, RecordPosition, distance, Network.NeighbourDistance), RecordId);
    var updates := RunProcesses(input.cells, network, processes);
    if updates.Err? {
      return Err(updates.error);
    }
    var applied := ApplyCellUpdates(input.cells, updates.value);
    if applied.Err? {
      return Err(applied.error);
    }
    var g := GetNextGlobalState(input.globalState);
    outcome := Ok(IterationState(input.cells, network, g));
  }

  // ---- properties of the specification ----

  /** Cells that no update names keep their record. */
  lemma {:induction false} FoldApplyLeavesUntargeted(records: seq<CellRecord>, updates: seq<CellUpdate>, i: nat)
    requires i < |records|
    requires forall k :: 0 <= k < |updates| ==> updates[k].targetCell.value != i
    ensures FoldApply(records, updates).Ok? ==> FoldApply(records, updates).value[i] == records[i]
    decreases |updates|
  {
    if updates != [] {
      var id := updates[0].targetCell.value;
      if id < |records| && ApplyRecord(records[id], updates[0]).Ok? {
        FoldApplyLeavesUntargeted(records[id := ApplyRecord(records[id], updates[0]).value], updates[1..], i);
      }
    }
  }

  /** Applying `us + vs` is applying `vs` to the result of `us`. */
  lemma {:induction false} FoldApplyAppend(records: seq<CellRecord>, us: seq<CellUpdate>, vs: seq<CellUpdate>)
    ensures FoldApply(records, us + vs)
         == (match FoldApply(records, us) case Err(e) => Err(e) case Ok(mid) => FoldApply(mid, vs))
    decreases |us|
  {
    if us == [] {
      assert us + vs == vs;
    } else {
      assert (us + vs)[1..] == us[1..] + vs;
      var id := us[0].targetCell.value;
      if id < |records| && ApplyRecord(records[id], us[0]).Ok? {
        FoldApplyAppend(records[id := ApplyRecord(records[id], us[0]).value], us[1..], vs);
      }
    }
  }

  /** When every process emits one update per call, a cell contributes one
      update per process, in registration order. */
  lemma {:induction false} RunOnCellOnePerProcess(cell: CellRecord, neighbours: seq<CellRecord>, processes: seq<RecordProcess>)
    requires forall j :: 0 <= j < |processes| ==>
               RunProcess(cell, processes[j], neighbours).Ok? && |RunProcess(cell, processes[j], neighbours).value| == 1
    ensures RunOnCell(cell, neighbours, processes).Ok?
    ensures |RunOnCell(cell, neighbours, processes).value| == |processes|
    ensures forall j :: 0 <= j < |processes| ==>
              RunOnCell(cell, neighbours, processes).value[j] == RunProcess(cell, processes[j], neighbours).value[0]
  {
    if processes != [] {
      RunOnCellOnePerProcess(cell, neighbours, processes[1..]);
    }
  }
}

=== FILE: tagged_state.dfy ===
/** The cell record of the tagged generation
    (src/process_runner/example_state.rs), which a macro expands into a
    struct, its `Default`, `new`, `new_default`, and an `apply` method that
    dispatches an update on its action and its field name.

    `id` and `position` are the macro's constant fields; the others may be
    changed by updates. `CellState` is a class whose `Apply` changes one field
    in place; `CellRecord` is the value of all its fields, which processes
    read and the specification functions transform. */
module TaggedState {
  import opened MachineInts
  import opened CellIndexState
  import opened Wrappers
  import opened TaggedProcess

  // ---- field arithmetic ----

  /** `x as i32` for an `f64`: truncation toward zero, saturating at the
      bounds of `i32`. */
  function F64AsI32(x: real): (r: i32)
    ensures I32_MIN as real < x < I32_MAX as real + 1.0 ==> r as real - 1.0 < x < r as real + 1.0
    ensures 0.0 <= x ==> 0 <= r && r as real <= x
    ensures x <= 0.0 ==> r <= 0 && x <= r as real
    ensures I32_MAX as real + 1.0 <= x ==> r == I32_MAX
    ensures x <= I32_MIN as real - 1.0 ==> r == I32_MIN
  {
    var t := if 0.0 <= x then x.Floor else -((-x).Floor);
    if t < I32_MIN then I32_MIN else if t > I32_MAX then I32_MAX else t
  }

  /** ADD on a `u32` field: `(old as i32 + i32::from(value)) as u32`; the
      `i32` addition panics when it overflows. */
  function AddU32(cur: u32, v: Value): (r: Outcome<u32>)
    ensures r.Ok? <==> v.NumberI? && InI32(U32AsI32(cur) + v.i)
    ensures r.Ok? ==> (r.value - (cur + v.i)) % U32_LIMIT == 0
  {
    match ToI32(v)
    case Err(e) => Err(e)
    case Ok(x) =>
      var s := U32AsI32(cur) + x;
      if InI32(s) then Ok(I32AsU32(s)) else Err(OverflowPanic)
  }

  /** SUB on a `u32` field: `old - u32::from(value)`, which panics below zero. */
  function SubU32(cur: u32, v: Value): (r: Outcome<u32>)
    ensures r.Ok? <==> v.NumberI? && 0 <= v.i <= cur
    ensures r.Ok? ==> r.value == cur - v.i
  {
    match ToU32(v)
    case Err(e) => Err(e)
    case Ok(x) => if x <= cur then Ok(cur - x) else Err(OverflowPanic)
  }

  /** The three actions on a `u32` field; SET is `u32::from(value)`. */
  function ApplyU32(a: Action, cur: u32, v: Value): (r: Outcome<u32>)
    ensures a == ADD ==> (r.Ok? <==> v.NumberI? && InI32(U32AsI32(cur) + v.i)) &&
                         (r.Ok? ==> (r.value - (cur + v.i)) % U32_LIMIT == 0)
    ensures a == SUB ==> (r.Ok? <==> v.NumberI? && 0 <= v.i <= cur) && (r.Ok? ==> r.value == cur - v.i)
    ensures a == SET ==> (r.Ok? <==> v.NumberI? && 0 <= v.i) && (r.Ok? ==> r.value == v.i)
  {
    match a
    case ADD => AddU32(cur, v)
    case SUB => SubU32(cur, v)
    case SET => ToU32(v)
  }

  /** The three actions on an `f64` field, on exact reals: ADD goes through
      `as i32` (truncating) and back, SUB subtracts, SET converts. */
  function ApplyF64(a: Action, cur: real, v: Value): (r: Outcome<real>)
    ensures a == ADD ==> (r.Ok? <==> v.NumberI? && InI32(F64AsI32(cur) + v.i)) &&
                         (r.Ok? ==> r.value == (F64AsI32(cur) + v.i) as real)
    ensures a == SUB ==> (r.Ok? <==> v.NumberI?) && (r.Ok? ==> r.value == cur - v.i as real)
    ensures a == SET ==> (r.Ok? <==> v.NumberI?) && (r.Ok? ==> r.value == v.i as real)
  {
    match a
    case ADD =>
      (match ToI32(v)
       case Err(e) => Err(e)
       case Ok(x) =>
         var s := F64AsI32(cur) + x;
         if InI32(s) then Ok(s as real) else Err(OverflowPanic))
    case SUB =>
      (match ToF64(v)
       case Err(e) => Err(e)
       case Ok(x) => Ok(cur - x))
    case SET => ToF64(v)
  }

  // ---- the record ----

  /** All fields of the tagged `CellState`. */
  datatype CellRecord = CellRecord(
    id: CellIndex,
    position: Point,
    population: u32,
    populationAttraction: real,
    residentialCapacity: u32,
    populationBirthRate: real,
    populationDeathRate: real)

  /** The field names `apply` recognises, as `stringify!` spells them. */
  const ConstantFields: set<string> := {"id", "position"}
  const MutableFields: set<string> :=
    {"population", "population_attraction", "residential_capacity", "population_birth_rate", "population_death_rate"}

  /** `CellState::default()`: the macro's per-field defaults. */
  function DefaultRecord(): (r: CellRecord)
    ensures r.id == CellIndex(0) && r.position == Origin
    ensures r.population == 0 && r.residentialCapacity == 0
    ensures r.populationAttraction == 1.0 && r.populationBirthRate == 1.0 && r.populationDeathRate == 0.0
  {
    CellRecord(CellIndex(0), Origin, 0, 1.0, 0, 1.0, 0.0)
  }

  /** `CellState::new(..)`: each missing argument takes the default written
      in `new`, which for the death rate (0.2) is not the struct default (0.0). */
  function NewRecord(id: u32, pos: Option<Point>, population: Option<u32>, attraction: Option<real>,
                     capacity: Option<u32>, birthRate: Option<real>, deathRate: Option<real>): (r: CellRecord)
    ensures r.id == CellIndex(id)
    ensures r.position == (if pos.Some? then pos.value else Origin)
    ensures r.population == (if population.Some? then population.value else 0)
    ensures r.populationAttraction == (if attraction.Some? then attraction.value else 1.0)
    ensures r.residentialCapacity == (if capacity.Some? then capacity.value else 0)
    ensures r.populationBirthRate == (if birthRate.Some? then birthRate.value else 1.0)
    ensures r.populationDeathRate == (if deathRate.Some? then deathRate.value else 0.2)
  {
    CellRecord(CellIndex(id),
               if pos.Some? then pos.value else Origin,
               if population.Some? then population.value else 0,
               if attraction.Some? then attraction.value else 1.0,
               if capacity.Some? then capacity.value else 0,
               if birthRate.Some? then birthRate.value else 1.0,
               if deathRate.Some? then deathRate.value else 0.2)
  }

  /** `new` with every optional argument missing agrees with `new_default`
      except in the death rate. */
  lemma NewVersusNewDefault(id: u32)
    ensures NewRecord(id, None, None, None, None, None, None)
         == DefaultRecord().(id := CellIndex(id), populationDeathRate := 0.2)
    ensures NewRecord(id, None, None, None, None, None, None) != DefaultRecord().(id := CellIndex(id))
  {
  }

  /** `apply` on a record: constant fields panic, a recognised field is
      changed by the action, an unrecognised name changes nothing. */
  function ApplyRecord(r: CellRecord, u: CellUpdate): (res: Outcome<CellRecord>)
    ensures u.targetField in ConstantFields ==> res == Err(ConstantFieldPanic)
    ensures u.targetField !in ConstantFields && u.targetField !in MutableFields ==> res == Ok(r)
    ensures res.Ok? ==> res.value.id == r.id && res.value.position == r.position
    ensures var x := ApplyU32(u.action, r.population, u.value);
            u.targetField == "population" ==>
              (res.Ok? <==> x.Ok?) && (res.Ok? ==> res.value == r.(population := x.value))
    ensures var x := ApplyF64(u.action, r.populationAttraction, u.value);
            u.targetField == "population_attraction" ==>
              (res.Ok? <==> x.Ok?) && (res.Ok? ==> res.value == r.(populationAttraction := x.value))
    ensures var x := ApplyU32(u.action, r.residentialCapacity, u.value);
            u.targetField == "residential_capacity" ==>
              (res.Ok? <==> x.Ok?) && (res.Ok? ==> res.value == r.(residentialCapacity := x.value))
    ensures var x := ApplyF64(u.action, r.populationBirthRate, u.value);
            u.targetField == "population_birth_rate" ==>
              (res.Ok? <==> x.Ok?) && (res.Ok? ==> res.value == r.(populationBirthRate := x.value))
    ensures var x := ApplyF64(u.action, r.populationDeathRate, u.value);
            u.targetField == "population_death_rate" ==>
              (res.Ok? <==> x.Ok?) && (res.Ok? ==> res.value == r.(populationDeathRate := x.value))
    ensures res.Err? ==> u.targetField in ConstantFields || u.targetField in MutableFields
  {
    var f := u.targetField;
    if f == "id" || f == "position" then Err(ConstantFieldPanic)
    else if f == "population" then
      (match ApplyU32(u.action, r.population, u.value)
       case Err(e) => Err(e)
       case Ok(x) => Ok(r.(population := x)))
    else if f == "population_attraction" then
      (match ApplyF64(u.action, r.populationAttraction, u.value)
       case Err(e) => Err(e)
       case Ok(x) => Ok(r.(populationAttraction := x)))
    else if f == "residential_capacity" then
      (match ApplyU32(u.action, r.residentialCapacity, u.value)
       case Err(e) => Err(e)
       case Ok(x) => Ok(r.(residentialCapacity := x)))
    else if f == "population_birth_rate" then
      (match ApplyF64(u.action, r.populationBirthRate, u.value)
       case Err(e) => Err(e)
       case Ok(x) => Ok(r.(populationBirthRate := x)))
    else if f == "population_death_rate" then
      (match ApplyF64(u.action, r.populationDeathRate, u.value)
       case Err(e) => Err(e)
       case Ok(x) => Ok(r.(populationDeathRate := x)))
    else Ok(r)
  }

  /** `a` and `b` agree on every field except possibly the one named `f`. */
  predicate SameExcept(a: CellRecord, b: CellRecord, f: string) {
    a.id == b.id && a.position == b.position &&
    (f != "population" ==> a.population == b.population) &&
    (f != "population_attraction" ==> a.populationAttraction == b.populationAttraction) &&
    (f != "residential_capacity" ==> a.residentialCapacity == b.residentialCapacity) &&
    (f != "population_birth_rate" ==> a.populationBirthRate == b.populationBirthRate) &&
    (f != "population_death_rate" ==> a.populationDeathRate == b.populationDeathRate)
  }

  /** A successful update changes only the field it names. */
  lemma ApplyChangesOnlyNamedField(r: CellRecord, u: CellUpdate)
    ensures ApplyRecord(r, u).Ok? ==> SameExcept(r, ApplyRecord(r, u).value, u.targetField)
  {
  }

  /** ADD on the population: it succeeds exactly when the `i32` sum of the
      reinterpreted population and the payload does not overflow, and the
      result is the sum modulo 2^32. */
  lemma AddPopulationWraps(r: CellRecord, t: CellIndex, x: i32)
    ensures var res := ApplyRecord(r, CellUpdate(ADD, t, "population", NumberI(x)));
            (res.Ok? <==> InI32(U32AsI32(r.population) + x)) &&
            (res.Ok? ==> (res.value.population - (r.population + x)) % U32_LIMIT == 0)
  {
  }

  /** Adding `NumberI(-k)` with `k` at most the population (which fits in
      `i32`) decreases the population by exactly `k`. */
  lemma AddNegativeDecreases(r: CellRecord, t: CellIndex, k: int)
    requires 0 <= k <= r.population <= I32_MAX
    ensures ApplyRecord(r, CellUpdate(ADD, t, "population", NumberI(-k)))
         == Ok(r.(population := r.population - k))
  {
  }

  /** Adding a non-negative payload that keeps the sum within `i32` adds it exactly. */
  lemma AddPositiveIncreases(r: CellRecord, t: CellIndex, k: int)
    requires 0 <= k && r.population + k <= I32_MAX
    ensures ApplyRecord(r, CellUpdate(ADD, t, "population", NumberI(k)))
         == Ok(r.(population := r.population + k))
  {
  }

  /** SUB on the population needs a non-negative payload no larger than the population. */
  lemma SubPopulation(r: CellRecord, t: CellIndex, v: Value)
    ensures var res := ApplyRecord(r, CellUpdate(SUB, t, "population", v));
            (res.Ok? <==> v.NumberI? && 0 <= v.i <= r.population) &&
            (res.Ok? ==> res.value == r.(population := r.population - v.i))
  {
  }

  /** SET on the population ignores the old value. */
  lemma SetPopulation(r: CellRecord, t: CellIndex, v: Value)
    ensures var res := ApplyRecord(r, CellUpdate(SET, t, "population", v));
            (res.Ok? <==> v.NumberI? && 0 <= v.i) &&
            (res.Ok? ==> res.value == r.(population := v.i))
  {
  }

  /** SUB undoes a non-wrapping ADD of the same non-negative amount. */
  lemma AddThenSubRestores(r: CellRecord, t: CellIndex, k: int)
    requires 0 <= k && r.population + k <= I32_MAX
    ensures ApplyRecord(r, CellUpdate(ADD, t, "population", NumberI(k))).Ok?
    ensures ApplyRecord(ApplyRecord(r, CellUpdate(ADD, t, "population", NumberI(k))).value,
                        CellUpdate(SUB, t, "population", NumberI(k))) == Ok(r)
  {
  }

  /** ADD on an `f64` field goes through `as i32`, so it drops the fraction
      of the old value: adding 0 to a birth rate of 1.5 gives 1.0. */
  lemma AddToRateTruncates(r: CellRecord, t: CellIndex)
    requires r.populationBirthRate == 1.5
    ensures ApplyRecord(r, CellUpdate(ADD, t, "population_birth_rate", NumberI(0)))
         == Ok(r.(populationBirthRate := 1.0))
  {
    assert F64AsI32(1.5) == 1;
  }

  /** SUB on an `f64` field subtracts exactly, keeping the fraction. */
  lemma SubFromRateKeepsFraction(r: CellRecord, t: CellIndex, k: i32)
    ensures ApplyRecord(r, CellUpdate(SUB, t, "population_death_rate", NumberI(k)))
         == Ok(r.(populationDeathRate := r.populationDeathRate - k as real))
  {
  }

  /** A vector payload makes every action on a recognised mutable field panic. */
  lemma VectorPayloadPanics(r: CellRecord, a: Action, t: CellIndex, f: string, inner: Value)
    requires f in MutableFields
    ensures ApplyRecord(r, CellUpdate(a, t, f, Vector(inner))) == Err(ConversionPanic)
  {
  }

  /** The tagged `CellState`: constant identity and position, mutable fields. */
  class CellState {
    const id: CellIndex
    const position: Point
    var population: u32
    var populationAttraction: real
    var residentialCapacity: u32
    var populationBirthRate: real
    var populationDeathRate: real

    /** The current value of every field. */
    function Record(): CellRecord
      reads this
    {
      CellRecord(id, position, population, populationAttraction, residentialCapacity,
                 populationBirthRate, populationDeathRate)
    }

    /** `CellState::new(id, pos, population, attraction, capacity, birth, death)`. */
    constructor New(id: u32, pos: Option<Point>, population: Option<u32>, attraction: Option<real>,
                    capacity: Option<u32>, birthRate: Option<real>, deathRate: Option<real>)
      ensures Record() == NewRecord(id, pos, population, attraction, capacity, birthRate, deathRate)
    {
      var r := NewRecord(id, pos, population, attraction, capacity, birthRate, deathRate);
      this.id := r.id;
      this.position := r.position;
      this.population := r.population;
      this.populationAttraction := r.populationAttraction;
      this.residentialCapacity := r.residentialCapacity;
      this.populationBirthRate := r.populationBirthRate;
      this.populationDeathRate := r.populationDeathRate;
    }

    /** `CellState::new_default(id)`: the struct default with the given id. */
    constructor NewDefault(id: u32)
      ensures Record() == DefaultRecord().(id := CellIndex(id))
    {
      var r := DefaultRecord();
      this.id := CellIndex(id);
      this.position := r.position;
      this.population := r.population;
      this.populationAttraction := r.populationAttraction;
      this.residentialCapacity := r.residentialCapacity;
      this.populationBirthRate := r.populationBirthRate;
      this.populationDeathRate := r.populationDeathRate;
    }

    /** `CellStateBase::id`. */
    function Id(): CellIndex
      reads this
    {
      id
    }

    /** `apply(&mut self, update)`: assigns the named field in place. When
        the source panics the outcome is `Err` and no field has been written. */
    method Apply(u: CellUpdate) returns (outcome: Outcome<()>)
      modifies this
      ensures outcome.Ok? <==> ApplyRecord(old(Record()), u).Ok?
      ensures outcome.Ok? ==> Record() == ApplyRecord(old(Record()), u).value
      ensures outcome.Err? ==> outcome.error == ApplyRecord(old(Record()), u).error && Record() == old(Record())
    {
      var f := u.targetField;
      if f == "id" || f == "position" {
        return Err(ConstantFieldPanic);
      } else if f == "population" {
        var x := ApplyU32(u.action, population, u.value);
        if x.Err? {
          return Err(x.error);
        }
        population := x.value;
      } else if f == "population_attraction" {
        var x := ApplyF64(u.action, populationAttraction, u.value);
        if x.Err? {
          return Err(x.error);
        }
        populationAttraction := x.value;
      } else if f == "residential_capacity" {
        var x := ApplyU32(u.action, residentialCapacity, u.value);
        if x.Err? {
          return Err(x.error);
        }
        residentialCapacity := x.value;
      } else if f == "population_birth_rate" {
        var x := ApplyF64(u.action, populationBirthRate, u.value);
        if x.Err? {
          return Err(x.error);
        }
        populationBirthRate := x.value;
      } else if f == "population_death_rate" {
        var x := ApplyF64(u.action, populationDeathRate, u.value);
        if x.Err? {
          return Err(x.error);
        }
        populationDeathRate := x.value;
      }
      outcome := Ok(());
    }
  }
}

=== FILE: wrappers.dfy ===
/** Optional values and results, standing for Rust's `Option`/`Result`,
    Python's `None`, and the panics the kernel can raise. */
module Wrappers {
  datatype Option<T> = None | Some(value: T)

  datatype Result<T, E> = Ok(value: T) | Err(error: E)
}
